=== FILE: README.md ===
# EduGen core, modelled in Dafny

EduGen turns study material into embeddings, flashcards, quizzes and a
retrieval-augmented chat. This project models the deterministic processing
around the language model and the vector store. The pieces are:

- the word-window chunker and the source helpers of `DocumentProcessor`
  (`document_processor.dfy`);
- the post-processing of `FlashcardGenerator`. This covers fence stripping,
  validation, `clean_text`, the regex fallback, the fallback cards, key-term
  extraction, topic buckets and export (`llm_output.dfy`, `flashcards.dfy`,
  `key_terms.dfy`, `flashcard_topics.dfy`, `flashcard_export.dfy`);
- the post-processing and scoring of `QuizGenerator`. This covers the
  per-type budget, the validator, the JSON filter, the fallback questions
  and the statistics (`quiz.dfy`, `quiz_statistics.dfy`);
- four utilities: `clean_filename`, `validate_api_key`,
  `create_study_schedule` and `generate_word_cloud_data` (`utils.dfy`,
  `study_schedule.dfy`, `word_cloud.dfy`);
- `RAGChat` over an abstract collection (`rag_chat.dfy`).

`pystr.dfy` and `json.dfy` hold the Python string operations and the decoded
JSON values these need. A Python exception that escapes on unexpected JSON
(a `TypeError`, `AttributeError` or `KeyError`) is a `Failure` of
`Wrappers.Result`.

Everything that is not deterministic text processing is a parameter of the
model:

- the language model's response (`None` where the request raised);
- `json.loads` (`decode`, `None` on a decoding error) and `json.dumps`;
- the order `random.shuffle` leaves a list in;
- the embedder (`embed`, `None` where it raises) and the ids `uuid.uuid4()`
  hands out;
- the collection's similarity query and the text generator;
- the transcript service;
- the order in which a Python set lists its elements.

A shuffle is modelled as any sequence with the same multiset of elements.

Two observations come out of the model:

- `generate_mcq` passes the tag `"mcq"`, so the four-option check in
  `validate_question` never applies to multiple-choice questions. See
  Findings.
- `get_quiz_statistics` counts every answer given, including answers keyed by
  indices the quiz does not have. Its completion rate can therefore exceed
  100 (`QuizStatistics.CompletionCanExceedHundred`).

## Model

| member | source | states |
|---|---|---|
| DocumentProcessor.ChunkText | src/document_processor.py:11-24 | A size or overlap of 0 means the configured 1000 or 200. With effective size > overlap there are exactly ceil(words / stride) chunks, and chunk i is words [i·stride, i·stride + size) of `text.split()` joined by single spaces. |
| DocumentProcessor.GetChunks | src/document_processor.py:110-114 | Blank text gives no chunks, and only blank text does. Any other text is chunked into ceil(words / 800) windows of 1000 words starting every 800 words. |
| DocumentProcessor.ChunkWindowsCover | src/document_processor.py:18-23 | Every word lies in some window. The first window starts at word 0, and the last window starts before the end and reaches the last word. |
| DocumentProcessor.WindowsCoverEveryWord | src/document_processor.py:18-23 | Word j lies in window j / stride, which is one of the emitted windows. |
| DocumentProcessor.ChunkWordsAreWindow | src/document_processor.py:19-22 | Splitting a chunk on whitespace gives back exactly its word window. A chunk is never blank and holds between 1 and `chunk_size` words. |
| DocumentProcessor.TrailingWindowInsidePredecessor | src/document_processor.py:18-23 | The last window lies inside its predecessor exactly when there is more than one stride of words and (n − 1) mod stride < overlap. The last window then holds (n − 1) mod stride + 1 words. |
| DocumentProcessor.DefaultTrailingWindow | src/document_processor.py:13-23 | At the defaults, the last chunk repeats only words of its predecessor exactly when n > 800 and (n − 1) mod 800 < 200. 950 words is one such case. |
| DocumentProcessor.SearchFrom | src/document_processor.py:35 | `re.search` finds the leftmost position at which the pattern matches, and none when no position matches. |
| DocumentProcessor.ExtractYoutubeId | src/document_processor.py:27-38 | The result is absent or 11 characters from [0-9A-Za-z_-]. |
| DocumentProcessor.ExtractYoutubeIdIsLeftmostWatch | src/document_processor.py:29-37 | The `youtu.be/` and `embed/` patterns never decide the result. The id is the capture of the first pattern, absent exactly when no `v=` or `/` is followed by 11 id characters. |
| DocumentProcessor.LaterPatternsImplyWatch | src/document_processor.py:30-32 | Every match of the second or third pattern contains a match of the first pattern. |
| DocumentProcessor.ExtractYoutubeIdSource | src/document_processor.py:30-37 | A found id is the 11 characters right after the leftmost `v=` or `/` that is followed by 11 id characters. |
| DocumentProcessor.ProcessYoutube | src/document_processor.py:80-93 | The invalid-URL error occurs exactly when no id is found, and before the transcript service is asked. A transcript failure is the other error. A success is the caption texts joined by spaces and stripped. |
| DocumentProcessor.ExtractorFor | src/document_processor.py:95-108 | The extractor follows the lower-cased suffix: `.pdf`, `.docx`, `.pptx`, otherwise plain text. Each name maps to exactly one extractor. |
| LlmOutput.CleanJsonResponse | src/flashcard_generator.py:122-136 | After the fences are removed, the result is the span from the first `[` to the last `]` when such a span exists, else the whole fence-free text. |
| LlmOutput.BracketBounds | src/flashcard_generator.py:130-133 | The span found runs from the first `[` to the last `]`. It is absent exactly when no `[` has a `]` after it. |
| LlmOutput.NoFenceSurvives | src/flashcard_generator.py:126-127 | After the two substitutions no triple backtick remains, whatever the input. |
| LlmOutput.CleanJsonResponseHasNoFence | src/quiz_generator.py:176-189 | The cleaned response never contains a code fence. |
| LlmOutput.CleanIsSlice | src/quiz_generator.py:183-189 | The cleaned response is a contiguous slice of the fence-free text. |
| LlmOutput.CleanJsonResponseIdempotent | src/flashcard_generator.py:122-136 | Cleaning a cleaned response changes nothing. |
| LlmOutput.BracketedIsFixed | src/flashcard_generator.py:130-134 | A fence-free text that starts with `[` and ends with `]` is returned unchanged. |
| Flashcards.ValidateFlashcard | src/flashcard_generator.py:161-181 | The result is accepted iff the card is a dict with string `question` and `answer` whose stripped lengths lie in [5, 200] and [5, 500]. It raises iff both keys exist but one value is not a string. |
| Flashcards.MoveQuestionMark | src/flashcard_generator.py:200-203 | The result contains `?` iff the input does, and then ends with `?`. A misplaced `?` leaves exactly one. Apart from `?`, the text is unchanged. A text with no `?`, or one that already ends in `?`, comes back as it is. |
| Flashcards.CleanText | src/flashcard_generator.py:183-205 | Empty input gives "". The output has a `?` iff the input has, and then ends with one. It has exactly one when the normalised text did not already end in `?`. Apart from `?`, it is the normalised text. A non-empty text whose normalised form has no `?`, or already ends in `?`, comes back as that normalised form. |
| Flashcards.Normalize | src/flashcard_generator.py:189-198 | Every whitespace character of the result is a plain space and no two stand together. Its first and last characters are not quotes, and it does not start with a lower-case letter. |
| Flashcards.NormalizeKeepsText | src/flashcard_generator.py:189-198 | For a text with no quote character, the non-space characters of the result are those of the text, in order, with only a leading lower-case letter upper-cased: only the whitespace changes. |
| Flashcards.CollapseSpaceKeepsText | src/flashcard_generator.py:190 | Collapsing whitespace runs keeps the non-space characters, in order. |
| Flashcards.StripKeepsText | src/flashcard_generator.py:191 | `strip()` keeps the non-space characters, in order. |
| Flashcards.CapitalizeKeepsText | src/flashcard_generator.py:196-198 | Upper-casing the first letter of a text that does not start with whitespace upper-cases the first of its non-space characters and nothing else. |
| Flashcards.NormalizeKeepsChar | src/flashcard_generator.py:189-198 | Normalising keeps any non-space, non-quote, non-letter character present or absent, as `?` must be for `clean_text`. |
| Flashcards.FilterCards | src/flashcard_generator.py:108-116 | The loop raises iff some item's validation raises. Otherwise it keeps exactly the accepted cards, in order, each cleaned after validation. |
| Flashcards.ParseFlashcardResponse | src/flashcard_generator.py:97-120 | A decoding error gives the regex fallback. A decoded list goes through the filter, a decoded dict or string yields no card, and a number, bool or null raises `TypeError`. |
| Flashcards.NoCardsAmongStrings | src/flashcard_generator.py:109-110 | Iterating a decoded dict yields string keys, none of which is a card, so the parse keeps nothing and raises nothing. |
| Flashcards.ExtractFlashcardsWithRegex | src/flashcard_generator.py:150-159 | The cards are the cleaned forms of exactly the captured pairs whose stripped question and answer are both longer than 5, in capture order. |
| Flashcards.RegexStricterThanValidation | src/flashcard_generator.py:150-181 | The two length tests disagree only at the edges. Validation alone accepts a stripped length of exactly 5. The regex test alone keeps questions over 200 or answers over 500. |
| Flashcards.CardObjectAccepted | src/flashcard_generator.py:161-181 | A two-key card is accepted iff its texts meet the length bounds. |
| Flashcards.CleaningAfterValidation | src/flashcard_generator.py:110-113 | Cleaning runs after validation and can shorten a card below the bound. A quoted three-letter question passes validation, then leaves as three characters that validation would reject. |
| Flashcards.CreateFallbackFlashcards | src/flashcard_generator.py:207-229 | For `num_cards` ≥ 0 there are exactly `num_cards` cards. The first min(terms, `num_cards`) are "What is {term}?" for the terms in order, and the rest are the generic card. |
| Flashcards.FallbackCardsAcceptable | src/flashcard_generator.py:207-229 | When every term has the 3–30 characters `extract_key_terms` keeps, every fallback card (definition or generic) has stripped lengths within the bounds `validate_flashcard` checks, so padding never yields a card the parser would have dropped. |
| Flashcards.GenerateAdditionalFlashcards | src/flashcard_generator.py:67-95 | Any exception in the request or the parse gives no cards; otherwise the parsed cards. |
| Flashcards.RequestCards | src/flashcard_generator.py:51-53 | The main request fails exactly when there is no response or the parse raises. |
| Flashcards.Collected | src/flashcard_generator.py:56-58 | The additional batch extends the parsed cards only when fewer than `num_cards` were parsed. |
| Flashcards.GenerateFlashcards | src/flashcard_generator.py:51-65 | An exception gives the fallback cards for the key terms. Otherwise the result is drawn from the collected cards and has min(`num_cards`, collected) of them. |
| Flashcards.GenerateFlashcardsCount | src/flashcard_generator.py:56-65 | With `num_cards` ≥ 0, exactly `num_cards` cards come back on the fallback path, and also when the collected cards suffice. |
| KeyTerms.MatchEnd | src/flashcard_generator.py:235 | A match of `\b[A-Z][a-z]+(?:\s+[A-Z][a-z]+)*\b` starts with a capital and ends with a lower-case letter. It lies between two word boundaries and holds only letters and whitespace. |
| KeyTerms.MatchEndIsLongest | src/flashcard_generator.py:235 | The match found at a position is the longest `t[i..x]` the pattern matches, as the greedy `(?:...)*` with backtracking to a boundary gives. There is none exactly when the pattern matches no `t[i..x]`. |
| KeyTerms.PickEndIsComplete | src/flashcard_generator.py:235 | Every phrase that continues a word end and closes on a boundary is reached by the search for the last word end, so no longer match is missed. |
| KeyTerms.MatchSpansAreFindall | src/flashcard_generator.py:235 | Each span `re.findall` reports is the match at its start, the spans come in order without overlap, and every position where the pattern matches starts a span or lies inside one. |
| KeyTerms.MatchesFrom | src/flashcard_generator.py:235 | There is one match text per `re.findall` span, and each is a capitalised phrase found in the text from the starting position. Match k is exactly the text between the start and end of span k. |
| KeyTerms.ExtractKeyTerms | src/flashcard_generator.py:231-244 | A word is a term iff `re.findall` reports it and it has 3 to 30 characters and is not the/and/for/with, compared ignoring case. Every term is a capitalised phrase of the text. Being a set, the terms have no duplicates. |
| FlashcardTopics.TopicOf | src/flashcard_generator.py:312-322 | Definition cues beat process cues, which beat concept cues; a card with none is General. All cues are tested on the lower-cased question. |
| FlashcardTopics.OrganizeByTopic | src/flashcard_generator.py:298-325 | Empty input gives an empty map and empty buckets are dropped. Each card lands in its topic's bucket. Every bucket holds only cards of its topic, in input order. |
| FlashcardTopics.OrganizeIsPartition | src/flashcard_generator.py:305-325 | The kept buckets together hold exactly the input cards, each once. |
| FlashcardTopics.OrganizedIsBucket | src/flashcard_generator.py:325 | A topic's entry is its bucket, or it is absent when that bucket is empty. |
| FlashcardExport.ExportAsText | src/flashcard_generator.py:339-350 | The export starts with the "# Flashcards" header, and no card gives the header alone. |
| FlashcardExport.ExportAsTextAppend | src/flashcard_generator.py:344-348 | Appending a card appends exactly its block, numbered one past the cards before it, and changes nothing before it. |
| FlashcardExport.ExportAsCsv | src/flashcard_generator.py:352-363 | The export starts with the "Question,Answer" header line; `CsvRoundTrip` states what follows it. |
| FlashcardExport.CsvRoundTrip | src/flashcard_generator.py:352-363 | Reading the exported CSV back gives exactly the exported cards. The reader follows section 2 of RFC 4180: a quoted field ends at a lone quote and `""` inside stands for `"`. |
| FlashcardExport.EscapeQuotes | src/flashcard_generator.py:359-360 | `replace('"', '""')` doubles each quote, so the field grows by exactly its number of quotes. |
| FlashcardExport.ReadQuotedEscaped | src/flashcard_generator.py:359-361 | An escaped field followed by its closing quote reads back as the original field. |
| FlashcardExport.ExportFlashcards | src/flashcard_generator.py:327-337 | "csv" gives a CSV that reads back as the cards and "json" gives `json.dumps`. Any other name gives the text format. |
| Quiz.ValidateQuestion | src/quiz_generator.py:191-205 | The code as written. A dict is accepted iff it has `question`, `correct_answer` and `type`, plus four options under the tag "multiple_choice" only. Under any other tag only the keys count. A number, bool or null raises `TypeError`. |
| Quiz.McqOptionsNeverChecked | src/quiz_generator.py:201-203 | Under the tag "mcq" that `generate_mcq` passes, a question with the three keys and no options is accepted, where the intended check rejects it. |
| Quiz.ValidateQuestionIntended | src/quiz_generator.py:191-205 | The intended check applies the option test under both multiple-choice tags. It agrees with the source everywhere except under "mcq". |
| Quiz.AnswerOutsideOptionsAccepted | src/quiz_generator.py:191-205 | Neither check asks that the correct answer be among the options: four options and an answer outside them pass. |
| Quiz.KeepValid | src/quiz_generator.py:156-161 | The loop raises iff some validation raises. Otherwise it keeps exactly the questions that validate, in order. |
| Quiz.ParseJsonResponse | src/quiz_generator.py:146-174 | A decoding error gives the bracket-span fallback, which never raises. A decoded value that can be iterated gives the filter of its items (a list's elements, a dict's keys, a str's characters) by the as-written validator; a number, bool or null raises. Every question returned validates. |
| Quiz.DecodedStringGivesNoQuestions | src/quiz_generator.py:153-161 | A response decoding to a str is iterated by characters, none of which validates, so the parse gives no questions. |
| Quiz.KeyAsQuestion | src/quiz_generator.py:191-199 | Under any tag but "multiple_choice", a str validates exactly when it contains the three field names, since `in` on a str is a substring test. |
| Quiz.DecodedObjectGivesKeys | src/quiz_generator.py:153-161 | A response decoding to a dict yields, under any tag but "multiple_choice", exactly the keys that contain the three field names, as str questions. |
| Quiz.ParseFallback | src/quiz_generator.py:163-174 | No bracket span, a span that does not decode, a decoded value that cannot be iterated, or a validation that raises gives no questions. Otherwise the result is exactly the items that validate, in order. |
| Quiz.BracketSpan | src/quiz_generator.py:165 | The span found by `\[.*\]` under DOTALL runs from the first `[` to the last `]` of the text, so it starts with `[`, ends with `]` and lies in the text. It is absent exactly when no `[` has a later `]`. |
| Quiz.CreateFallbackMcq | src/quiz_generator.py:207-228 | There is one copy of the fallback question per key sentence: as many as `[:num_questions]` keeps of the `.`-pieces whose stripped length is over 20, which is min(`num_questions`, pieces) for `num_questions` ≥ 0. |
| Quiz.KeySentences | src/quiz_generator.py:210 | The key sentences are a prefix of the long pieces. Their number is the length of `[:num_questions]` on the long pieces, so min(`num_questions`, pieces) for `num_questions` ≥ 0. |
| Quiz.FallbackMcqValidates | src/quiz_generator.py:214-225 | The fallback MCQ passes validation as written and as intended, and its correct answer is one of its four options. |
| Quiz.Copies | src/quiz_generator.py:230-256 | `range(n)` gives n copies of the question, and none for a negative n. |
| Quiz.Fallback | src/quiz_generator.py:75-77 | The fallback is copies of the kind's fallback question: as many as key sentences for multiple choice, and `num_questions` (none if negative) for the others. Each validates under the generator's own tag. |
| Quiz.QuestionsPerType | src/quiz_generator.py:25 | The budget is 1 exactly when `num_questions` < 2 · types. Otherwise it is the floor quotient q, with q · types ≤ `num_questions` < (q + 1) · types. |
| Quiz.GenerateKind | src/quiz_generator.py:71-77 | A successful request gives the first min(budget, parsed) parsed questions. A failed request or parse gives exactly the fallback. Either way every question validates under the generator's own tag, and there are at most the budget of them. |
| Quiz.TypeBlock | src/quiz_generator.py:27-36 | A type name other than the three known ones contributes no question. |
| Quiz.GenerateQuiz | src/quiz_generator.py:17-40 | An empty type list raises (division by zero), and only it. Otherwise, for `num_questions` ≥ 0, the quiz has min(`num_questions`, collected) questions. They are drawn from the collected ones, and each is validated. |
| QuizStatistics.Mark | src/quiz_generator.py:264-275 | MC/TF answers score on exact equality and short answers on case-insensitive containment of the correct answer; any other type scores nothing. A missing key raises `KeyError`, a non-dict `TypeError` and a non-string short answer `AttributeError`. |
| QuizStatistics.CountRight | src/quiz_generator.py:264-275 | The loop counts exactly the questions marked right. It raises with the first question whose marking raises. |
| QuizStatistics.GetQuizStatistics | src/quiz_generator.py:258-285 | The totals count the questions and the answers given. Correct answers are at most the answered and at most the total. The score lies in [0, 100], and an empty quiz scores 0 with completion 0. |
| QuizStatistics.PercentageOf | src/quiz_generator.py:277-284 | A percentage times the total gives 100 times the count. A count no larger than the total gives 0..100, and an empty total gives 0. |
| QuizStatistics.CompletionCanExceedHundred | src/quiz_generator.py:260-284 | Answers keyed outside the quiz still count as answered: one question with two such answers gives a completion of 200. |
| Utils.CleanFilename | src/utils.py:69-80 | The result has no `<>:"/\|?*`, no `__` and no `_` at either end. It keeps every other non-`_` character of the name, in order. |
| Utils.CleanFilenameIdempotent | src/utils.py:69-80 | Cleaning a cleaned name changes nothing. |
| Utils.ReplaceInvalid | src/utils.py:74 | Each invalid character becomes `_` and every other character stays in place. |
| Utils.CollapseUnderscores | src/utils.py:76 | The result has no `__`. It is empty iff the input is, and it starts with the input's first character. |
| Utils.CollapseKeepsRest | src/utils.py:76 | Collapsing runs of `_` keeps every other character, in order. |
| Utils.LoneUnderscoreStays | src/utils.py:76 | A single `_` between two characters other than `_` stays where it is, and each side collapses on its own. |
| Utils.CleanFilenameSplit | src/utils.py:74-78 | An invalid character or `_` between two parts that each keep something becomes exactly one `_` between the two cleaned parts. |
| Utils.ValidateApiKey | src/utils.py:210-224 | A key is valid iff it has 39 characters and starts with "AIza" or "BIza". |
| StudySchedule.ScheduleShape | src/utils.py:147-178 | With topics and days > 0 there are min(topics, days) days, none empty. Together they hold every topic exactly once. Day sizes differ by at most one, larger days first. |
| StudySchedule.ScheduleManyTopics | src/utils.py:153-176 | With days ≤ topics, each day takes topics // days. The first topics % days days take one leftover each, since the least-loaded choice always picks the earliest short day. |
| StudySchedule.ScheduleFewTopics | src/utils.py:153-169 | With fewer topics than days, each topic gets a day of its own and nothing is left over. |
| StudySchedule.FirstLeastLoaded | src/utils.py:175 | `min` by length picks the first day, in insertion order, among those with the fewest topics. |
| StudySchedule.DistributeStaircase | src/utils.py:172-176 | Handing the leftovers to the least-loaded day keeps the day sizes a staircase and adds exactly the leftover topics. |
| StudySchedule.DistributeStaircaseDays | src/utils.py:172-176 | On a staircase with `extra` long days, leftover topic j is appended to day `extra + j`. Every other day is left as it was. |
| StudySchedule.DefaultWeek | src/utils.py:147-178 | With the default of 7 days, n topics take min(n, 7) days and are each scheduled exactly once. |
| StudySchedule.CreateStudySchedule | src/utils.py:147-178 | No topics or days ≤ 0 give an empty map. Day d is stored under "Day d" and no other key exists. |
| StudySchedule.DayKeyInjective | src/utils.py:160 | Different days get different "Day d" keys. |
| WordCloud.TokenEndFindsMatch | src/utils.py:332 | Wherever `\b[a-zA-Z]{3,}\b` matches `t[i..e]`, the match found at `i` is exactly that one. |
| WordCloud.TokenSpansAreFindall | src/utils.py:332 | Each token span is a match of the pattern, the spans come in order without overlap, and every match from the starting position starts a span or lies inside one. |
| WordCloud.TokensFrom | src/utils.py:332 | There is one token per `re.findall` span, each three or more ASCII letters, and lower-case ones when the text has no capitals. Token k is exactly the text between the start and end of span k. |
| WordCloud.Tokens | src/utils.py:332 | Every token of `\b[a-zA-Z]{3,}\b` on the lower-cased text is three or more lower-case letters. |
| WordCloud.SortByCount | src/utils.py:353 | `most_common` orders the counts largest first and keeps every entry. |
| WordCloud.InsertWithCount | src/utils.py:353 | Inserting an entry puts it in front of the entries of its own count and leaves the order of every count's entries alone. |
| WordCloud.SortIsStable | src/utils.py:353 | The sort is stable: for each count, its entries come in the same order after sorting as before. |
| WordCloud.MostCommonIsStable | src/utils.py:348-353 | `most_common(n)` breaks ties by first occurrence: the entries of each count it returns are a prefix of those entries in `Counter` order. |
| WordCloud.WordCloudEntries | src/utils.py:325-356 | There are at most `max_words` entries, none for `max_words` ≤ 0. The words are distinct and none is a stop word. Each value is that word's number of occurrences, and values never increase down the list. |
| WordCloud.WordCloudIsTop | src/utils.py:348-353 | A non-stop word of the text that is missing occurs no more often than any listed word, and is missing only because the list is full. |
| RagChat.AddChunks | src/rag_chat.py:25-51 | The return value is the number of chunks whose embedding succeeded. The survivors are appended in order with fresh ids and `source` = `source_name`, and the count grows by exactly that number. With nothing embedded the collection is unchanged; ids stay unique. |
| RagChat.EmbedChunks | src/rag_chat.py:34-41 | A failing chunk is skipped, not fatal. The kept chunks are exactly those that embed, each with its embedding and the next fresh id. |
| RagChat.StoredEntries | src/rag_chat.py:43-49 | The added entries keep the old ones in front and carry the survivors, their ids, `source_name` and embeddings. Fresh ids keep the collection's ids unique. |
| RagChat.ResultCount | src/rag_chat.py:59 | The request asks for min(`top_k`, count) results. |
| RagChat.Retrieve | src/rag_chat.py:53-63 | The first document list of a successful query is returned. A failed embedding, a failed query or an empty answer gives no chunks. |
| RagChat.RetrieveBounded | src/rag_chat.py:53-63 | With a collection that answers within what was asked, at most min(`top_k`, count) chunks come back, all of them stored chunks. |
| RagChat.RecentMessages | src/rag_chat.py:82 | `chat_history[-6:]` is the last six messages, or all of them when there are fewer. |
| RagChat.RenderMessage | src/rag_chat.py:82 | A message renders as the capitalised role, then ": ", then the content, and nothing else: its length is the role's plus 2 plus the content's. |
| RagChat.HistoryTextShowsRecent | src/rag_chat.py:80-83 | Each of the last six messages appears, rendered, at its own line offset in the history text. |
| RagChat.OlderMessagesIgnored | src/rag_chat.py:81-83 | Messages older than the last six do not change the history text. |
| RagChat.ContextKeepsOrder | src/rag_chat.py:78 | Each chunk stands in the context at its own offset, and each lies before the next, so the retrieval order is kept. |
| RagChat.ChatPrompt | src/rag_chat.py:67-99 | The prompt always carries the question. With retrieved chunks it carries the context, each chunk and the history text. Without chunks it is the general prompt. |
| RagChat.ChatIgnoresHistoryWithoutContext | src/rag_chat.py:69-101 | Without retrieved chunks the history plays no part. The answer is the generator's output for the general prompt at temperature 0.3. |
| RagChat.ClearCollection | src/rag_chat.py:103-109 | After clearing, the document count is 0. |
| RagChat.ClearedChatIsGeneral | src/rag_chat.py:103-113 | After clearing, a faithful collection retrieves nothing, so `chat` uses the general prompt. |
| Json.LookupFirst | src/quiz_generator.py:267 | Indexing a decoded object gives the value of the first entry under that key. |
| Json.LookupUnique | src/quiz_generator.py:267 | With distinct keys, as `json.loads` output always has, indexing gives the value stored under that key wherever its entry stands. |
| PyStr.Capitalize | src/rag_chat.py:82 | `str.capitalize` upper-cases the first character and lower-cases the rest. |
| PyStr.CapitalizeIdempotent | src/rag_chat.py:82 | Capitalising twice is capitalising once. |

## Left out

- Document extraction: PDF, DOCX and PPTX parsing, the text decoding of `process_txt` and the transcript API are foreign libraries. `ExtractorFor` names the extractor and `ProcessYoutube` takes the transcript service as an oracle.
- DocumentProcessor.ChunkText: sizes are natural numbers, and effective size > effective overlap is a precondition. With overlap ≥ size the source's loop never ends. A negative `chunk_size` or `overlap`, which the source does not reject, is not modelled.
- The language models, the embedder, `uuid`, ChromaDB and its cosine ranking, `json.loads`/`json.dumps` and `random.shuffle` are parameters, not models. This is the set listed at the top.
- Prompt texts of `generate_flashcards`, `generate_additional_flashcards`, `generate_mcq`, `generate_true_false` and `generate_short_answer` are not modelled. This includes their difficulty wording and the `text[:4000]`/`text[:3000]` truncation; the model's response is a parameter.
- `generate_definition_flashcards` and `generate_concept_flashcards` are not modelled. They are a prompt around a model call followed by the same parse.
- Flashcards: a card is modelled as its question and answer. Other keys a decoded card dict carries are dropped rather than passed through.
- Flashcards.CleanText: the upper-casing of a leading lower-case letter is modelled on ASCII letters only. Python's `str.islower`/`str.upper` are Unicode-aware.
- Flashcards.Normalize: the same ASCII-only upper-casing as `CleanText`.
- Flashcards.NormalizeKeepsText: stated for text without quote characters, where `strip('"\'')` removes nothing. With quotes at the ends, `strip('"\'')` can stop at a space between quotes, and the contract then says only what `Normalize` and `NormalizeKeepsChar` state. The lemma says which non-space characters survive, not where the single spaces between them fall.
- FlashcardTopics.OrganizeByTopic: the result is a map, so it does not carry the order Definitions, Concepts, Processes, General in which the source's dict lists its buckets.
- Flashcards.CapitalizeFirst: the same ASCII-only upper-casing as `CleanText`.
- QuizStatistics.Mark: `lower()` in the short-answer test is modelled on ASCII letters only. Non-ASCII letters keep their case.
- RagChat.RenderMessage: `capitalize()` of the role is modelled on ASCII letters only.
- RagChat.Message: a history entry is a record of two strings. A Python dict in `chat_history` that lacks `role` or `content` raises `KeyError` at src/rag_chat.py:82, and a `role` that is not a string raises `AttributeError` on `.capitalize()`. Neither error path is modelled: the model's callers pass the history as a sequence of such records.
- PyStr.Lower: `str.lower` is modelled on ASCII letters only.
- PyStr.Capitalize: `str.capitalize` is modelled on ASCII letters only.
- FlashcardTopics.TopicOf: the cues are tested on an ASCII-only lower-casing of the question.
- DocumentProcessor.ExtractorFor: the suffix is tested on an ASCII-only lower-casing of the name.
- KeyTerms.ExtractKeyTerms: `\b` is decided by ASCII word characters (letters, digits, `_`). Python's `re` module treats every Unicode letter and digit as a word character.
- Findall.Boundary: the same ASCII-only `\b` as `ExtractKeyTerms`.
- WordCloud.Tokens: the same ASCII-only `\b` as `ExtractKeyTerms`.
- Flashcards.ExtractFlashcardsWithRegex: the captures of the three patterns at src/flashcard_generator.py:144-151 are a parameter. The patterns' backtracking over `[^\n]+` and `\s*` across lines is not modelled; the length test and the cleaning of each pair are.
- KeyTerms.ExtractKeyTerms: the result is a set. The order in which `list(set(...))` lists it is a parameter of `CreateFallbackFlashcards`.
- QuizStatistics.GetQuizStatistics: the percentages are exact reals, not IEEE floats, so rounding is not modelled.
- Json.Lookup: for a key that occurs twice, it returns the first entry. Python's `json.loads` keeps the last one. `LookupUnique` shows the two agree on the distinct keys a decoded object has. In the same way, `PyLen` and `PyIter` count and list every entry of an object, so an object with a repeated key would have a larger `len()` and yield the key twice, where Python's dict has one entry per key.
- `main.py`, `src/note_generator.py`, `src/gemini_client.py`, `src/groq_client.py`, `config.py` (except the chunk defaults 1000/200) and `src/__init__.py` are not part of this model. They are UI glue, prompt templates, remote SDK wrappers and constants.
- The other functions of `src/utils.py` are not part of this model. Those are file and session I/O, hashing, pandas conversion, and the float formatting and readability code.

## Findings

| source | as written | input that shows it | evidently intended | confidence | as-written member | corrected member |
|---|---|---|---|---|---|---|
| src/quiz_generator.py:73,201-203 | `generate_mcq` validates with the tag `'mcq'`, but `validate_question` applies the four-option test only under `'multiple_choice'`. MCQs are never checked for options. | `{"question": "q", "correct_answer": "a", "type": "multiple_choice"}` with no `options` passes `validate_question(q, 'mcq')` | The four-option test applies to multiple-choice questions under either tag | not executed | Quiz.McqOptionsNeverChecked | Quiz.ValidateQuestionIntended |

=== FILE: document_processor.dfy ===
/** Source handling around the embedding pipeline: the overlapping word-window
    chunker, YouTube video-id extraction and the choice of text extractor for an
    uploaded file. The extractors themselves (PDF, DOCX, PPTX, transcript API) are
    foreign libraries and appear only as their names or as an oracle. */
module DocumentProcessor {
  import opened PyStr
  import opened Wrappers

  /** `config.MAX_CHUNK_SIZE`, the window width used when none is given. */
  const MaxChunkSize: nat := 1000
  /** `config.CHUNK_OVERLAP`, the overlap used when none is given. */
  const ChunkOverlap: nat := 200

  /** `n or default`: Python's `or` replaces a 0 (or a missing value) by the default. */
  function OrDefault(n: nat, default: nat): nat {
    if n == 0 then default else n
  }

  function Min(a: int, b: int): int {
    if a <= b then a else b
  }

  /** Ceiling of `n / d`. */
  function CeilDiv(n: nat, d: nat): nat
    requires d > 0
  {
    (n + d - 1) / d
  }

  /** The words `words[start:start + size]`, clamped to the end as Python slices are. */
  function Window(words: seq<string>, start: nat, size: nat): seq<string>
    requires start <= |words|
  {
    words[start..Min(start + size, |words|)]
  }

  /** `c` is the number of multiples of `d` below `n`, so it is `ceil(n / d)`. */
  lemma CeilDivUnique(n: nat, d: nat, c: nat)
    requires d > 0
    requires c * d >= n
    requires c == 0 || (c - 1) * d < n
    ensures c == CeilDiv(n, d)
  {
    var q := (n + d - 1) / d;
    var r := (n + d - 1) % d;
    assert q * d + r == n + d - 1;
    if c > q {
      MulMonotone(q, c - 1, d);
      assert false;
    } else if c < q {
      MulMonotone(c, q - 1, d);
      assert false;
    }
  }

  lemma MulSucc(k: nat, d: nat)
    ensures (k + 1) * d == k * d + d
  {
  }

  lemma MulMonotone(a: nat, b: nat, d: nat)
    requires a <= b
    ensures a * d <= b * d
  {
    assert b * d == a * d + (b - a) * d;
  }

  /** Chunk `i` is window `i` of the words joined by single spaces, for every chunk. */
  predicate JoinedWindows(chunks: seq<string>, words: seq<string>, size: nat, stride: nat) {
    forall i :: 0 <= i < |chunks| ==>
      i * stride < |words| && chunks[i] == Join(" ", Window(words, i * stride, size))
  }

  /** One turn of the chunking loop: the next window is non-blank, already
      stripped, and extends the chunks built so far. */
  lemma ChunkStep(chunks: seq<string>, words: seq<string>, size: nat, stride: nat, start: nat)
    requires forall i :: 0 <= i < |words| ==> IsWord(words[i])
    requires size > 0
    requires start == |chunks| * stride && start < |words|
    requires JoinedWindows(chunks, words, size, stride)
    ensures var c := Join(" ", Window(words, start, size));
      && c != [] && Strip(c) == c
      && JoinedWindows(chunks + [c], words, size, stride)
      && start + stride == |chunks + [c]| * stride
  {
    var w := Window(words, start, size);
    assert forall i :: 0 <= i < |w| ==> w[i] == words[start + i];
    JoinWordsIsStripped(w);
    MulSucc(|chunks|, stride);
    JoinedWindowsExtend(chunks, words, size, stride, Join(" ", w));
  }

  /** Appending the window that starts where the chunks built so far end. */
  lemma JoinedWindowsExtend(chunks: seq<string>, words: seq<string>, size: nat, stride: nat, c: string)
    requires JoinedWindows(chunks, words, size, stride)
    requires |chunks| * stride < |words| && c == Join(" ", Window(words, |chunks| * stride, size))
    ensures JoinedWindows(chunks + [c], words, size, stride)
  {
    var next := chunks + [c];
    forall i | 0 <= i < |next|
      ensures i * stride < |words| && next[i] == Join(" ", Window(words, i * stride, size))
    {
      if i < |chunks| {
        assert next[i] == chunks[i];
      } else {
        assert i == |chunks|;
      }
    }
  }

  /** How far consecutive windows start apart: the effective size minus the
      effective overlap. */
  function Stride(chunkSize: nat, overlap: nat): nat
    requires OrDefault(chunkSize, MaxChunkSize) > OrDefault(overlap, ChunkOverlap)
  {
    OrDefault(chunkSize, MaxChunkSize) - OrDefault(overlap, ChunkOverlap)
  }

  /** `_chunk_text`: splits `text` on whitespace and emits the windows of
      `size` words that start every `size - overlap` words, each joined by single
      spaces. A `chunkSize` or `overlap` of 0 stands for the configured default.
      The loop only advances when the effective size exceeds the effective
      overlap; otherwise `start` never passes the end, so that is required. */
  method ChunkText(text: string, chunkSize: nat, overlap: nat) returns (chunks: seq<string>)
    requires OrDefault(chunkSize, MaxChunkSize) > OrDefault(overlap, ChunkOverlap)
    ensures |chunks| == CeilDiv(|Words(text)|, Stride(chunkSize, overlap))
    ensures JoinedWindows(chunks, Words(text), OrDefault(chunkSize, MaxChunkSize), Stride(chunkSize, overlap))
  {
    var size := OrDefault(chunkSize, MaxChunkSize);
    var stride := Stride(chunkSize, overlap);
    var words := Words(text);
    WordsAreWords(text);
    chunks := [];
    var start := 0;
    while start < |words|
      invariant start == |chunks| * stride
      invariant |chunks| == 0 || (|chunks| - 1) * stride < |words|
      invariant JoinedWindows(chunks, words, size, stride)
      decreases |words| - start
    {
      var end := start + size;
      var chunk := Join(" ", words[start..Min(end, |words|)]);
      assert words[start..Min(end, |words|)] == Window(words, start, size);
      // A window of words is never blank, so the `if chunk.strip()` guard always passes.
      ChunkStep(chunks, words, size, stride, start);
      if Strip(chunk) != [] {
        chunks := chunks + [Strip(chunk)];
      } else {
        assert false;
      }
      start := start + stride;
    }
    CeilDivUnique(|words|, stride, |chunks|);
  }

  /** `DocumentProcessor.get_chunks`: blank text gives no chunks; anything else is
      chunked with the configured 1000-word windows and 200-word overlap. */
  method GetChunks(text: string) returns (chunks: seq<string>)
    ensures chunks == [] <==> AllSpace(text)
    ensures var words := Words(text);
      && |chunks| == CeilDiv(|words|, MaxChunkSize - ChunkOverlap)
      && JoinedWindows(chunks, words, MaxChunkSize, MaxChunkSize - ChunkOverlap)
  {
    WordsEmptyIffAllSpace(text);
    StripEmptyIffAllSpace(text);
    var n := |Words(text)|;
    if Strip(text) == [] {
      assert n == 0;
      return [];
    }
    assert Stride(0, 0) == MaxChunkSize - ChunkOverlap && OrDefault(0, MaxChunkSize) == MaxChunkSize;
    chunks := ChunkText(text, 0, 0);
    CeilDivFacts(n, MaxChunkSize - ChunkOverlap);
    assert |chunks| * (MaxChunkSize - ChunkOverlap) >= n > 0;
  }

  // ---------------------------------------------------------------------------
  // Facts about the windows `_chunk_text` emits

  /** The windows of a chunking with `count` windows cover every word: word `j`
      lies in window `j / stride`. */
  lemma WindowsCoverEveryWord(n: nat, size: nat, stride: nat, j: nat)
    requires 0 < stride <= size
    requires j < n
    ensures var i := j / stride;
      i < CeilDiv(n, stride) && i * stride <= j < i * stride + size
  {
    var i := j / stride;
    assert i * stride <= j < i * stride + stride;
    assert i * stride < n;
    var c := CeilDiv(n, stride);
    CeilDivFacts(n, stride);
    if i >= c {
      MulMonotone(c, i, stride);
      assert false;
    }
  }

  /** `CeilDiv(n, d)` windows start below `n` and the next start would not. */
  lemma CeilDivFacts(n: nat, d: nat)
    requires d > 0
    ensures CeilDiv(n, d) * d >= n
    ensures CeilDiv(n, d) == 0 || (CeilDiv(n, d) - 1) * d < n
  {
    var q := (n + d - 1) / d;
    var r := (n + d - 1) % d;
    assert q * d + r == n + d - 1;
    if q > 0 {
      assert (q - 1) * d == q * d - d;
    }
  }

  /** Word `j` lies in window `i`. */
  predicate InWindow(i: nat, size: nat, stride: nat, j: nat) {
    i * stride <= j < i * stride + size
  }

  /** Word `j` lies in one of the `CeilDiv(n, stride)` windows. */
  predicate Covered(n: nat, size: nat, stride: nat, j: nat)
    requires stride > 0
  {
    exists i :: 0 <= i < CeilDiv(n, stride) && InWindow(i, size, stride, j)
  }

  /** Every word of the text is in some chunk of `ChunkText`, the first window
      starts at word 0 and the last one ends at the last word. */
  lemma ChunkWindowsCover(n: nat, size: nat, stride: nat)
    requires 0 < stride <= size
    requires n > 0
    ensures forall j :: 0 <= j < n ==> Covered(n, size, stride, j)
    ensures CeilDiv(n, stride) > 0
    ensures var last := CeilDiv(n, stride) - 1;
      last * stride < n && Min(last * stride + size, n) == n
  {
    forall j | 0 <= j < n
      ensures Covered(n, size, stride, j)
    {
      WindowsCoverEveryWord(n, size, stride, j);
      assert InWindow(j / stride, size, stride, j);
    }
    CeilDivFacts(n, stride);
    var c := CeilDiv(n, stride);
    assert c > 0;
    assert (c - 1) * stride + stride == c * stride;
  }

  /** The windows of `ChunkText`, split back into words, are the word windows:
      each chunk holds between 1 and `size` words. */
  lemma ChunkWordsAreWindow(words: seq<string>, start: nat, size: nat)
    requires start < |words| && size > 0
    requires forall i :: 0 <= i < |words| ==> IsWord(words[i])
    ensures Words(Join(" ", Window(words, start, size))) == Window(words, start, size)
    ensures 1 <= |Window(words, start, size)| <= size
  {
    var w := Window(words, start, size);
    assert forall i :: 0 <= i < |w| ==> w[i] == words[start + i];
    SplitJoinRoundTrip(w);
  }

  /** The trailing window of a chunking lies entirely inside its predecessor
      exactly when there are more words than one stride and the trailing window
      holds fewer words than the overlap `size - stride` plus one. Such a chunk
      repeats words its predecessor already holds. With the configured
      1000-word windows and 200-word overlap this is every text of more than 800
      words whose count leaves a remainder of 1 to 200 modulo 800, such as 950
      words, which give the windows [0, 950) and [800, 950). */
  lemma {:induction false} TrailingWindowInsidePredecessor(n: nat, size: nat, stride: nat)
    requires 0 < stride <= size
    ensures var c := CeilDiv(n, stride);
      (c >= 2 && n <= (c - 2) * stride + size) <==> (n > stride && (n - 1) % stride < size - stride)
    ensures var c := CeilDiv(n, stride);
      c >= 2 ==> n - (c - 1) * stride == (n - 1) % stride + 1
  {
    if n > 0 {
      var q := (n - 1) / stride;
      var r := (n - 1) % stride;
      assert n - 1 == q * stride + r;
      MulSucc(q, stride);
      CeilDivUnique(n, stride, q + 1);
      if q >= 1 {
        assert (q - 1) * stride == q * stride - stride;
      }
    }
  }

  /** The trailing-window fact at the configured sizes. */
  lemma DefaultTrailingWindow(n: nat)
    ensures var stride := MaxChunkSize - ChunkOverlap;
      var c := CeilDiv(n, stride);
      (c >= 2 && n <= (c - 2) * stride + MaxChunkSize) <==> (n > 800 && (n - 1) % 800 < 200)
  {
    TrailingWindowInsidePredecessor(n, MaxChunkSize, MaxChunkSize - ChunkOverlap);
  }

  // ---------------------------------------------------------------------------
  // YouTube video ids

  /** A character of the class `[0-9A-Za-z_-]`. */
  predicate IsIdChar(c: char) {
    ('0' <= c <= '9') || ('A' <= c <= 'Z') || ('a' <= c <= 'z') || c == '_' || c == '-'
  }

  /** Eleven id characters start at index `p`. */
  predicate IdAt(url: string, p: nat) {
    p + 11 <= |url| && forall k :: p <= k < p + 11 ==> IsIdChar(url[k])
  }

  /** The three patterns `extract_youtube_id` tries, in order. */
  datatype Pattern =
    | Watch      // (?:v=|\/)([0-9A-Za-z_-]{11}).*
    | ShortLink  // (?:youtu\.be\/)([0-9A-Za-z_-]{11})
    | Embed      // (?:embed\/)([0-9A-Za-z_-]{11})

  /** Where the captured id starts when `pat` matches at `p`. The `Watch`
      alternation tries `v=` before `/`, and the two cannot both start at `p`. */
  function GroupStart(url: string, pat: Pattern, p: nat): nat {
    match pat
    case Watch => if StartsWith(url[Min(p, |url|)..], "v=") then p + 2 else p + 1
    case ShortLink => p + 9
    case Embed => p + 6
  }

  /** `pat` matches when the search is anchored at index `p`. */
  predicate MatchesAt(url: string, pat: Pattern, p: nat) {
    p < |url| &&
    match pat
    case Watch =>
      || (StartsWith(url[p..], "v=") && IdAt(url, p + 2))
      || (url[p] == '/' && IdAt(url, p + 1))
    case ShortLink => StartsWith(url[p..], "youtu.be/") && IdAt(url, p + 9)
    case Embed => StartsWith(url[p..], "embed/") && IdAt(url, p + 6)
  }

  /** `re.search(pat, url)` from index `p` on: the first anchor that matches. */
  function SearchFrom(url: string, pat: Pattern, p: nat): (r: Option<nat>)
    ensures r.None? <==> forall q :: p <= q < |url| ==> !MatchesAt(url, pat, q)
    ensures r.Some? ==>
      && p <= r.value && MatchesAt(url, pat, r.value)
      && forall q :: p <= q < r.value ==> !MatchesAt(url, pat, q)
    decreases |url| - p
  {
    if p >= |url| then None
    else if MatchesAt(url, pat, p) then Some(p)
    else SearchFrom(url, pat, p + 1)
  }

  /** The captured group of the first match of `pat`, if any. */
  function Capture(url: string, pat: Pattern): (r: Option<string>)
    ensures r.Some? ==> |r.value| == 11 && forall k :: 0 <= k < 11 ==> IsIdChar(r.value[k])
  {
    match SearchFrom(url, pat, 0)
    case None => None
    case Some(p) =>
      var g := GroupStart(url, pat, p);
      assert IdAt(url, g);
      Some(url[g..g + 11])
  }

  /** `extract_youtube_id`: the first of the three patterns that matches
      anywhere in `url` supplies the id. */
  function ExtractYoutubeId(url: string): (r: Option<string>)
    ensures r.Some? ==> |r.value| == 11 && forall k :: 0 <= k < 11 ==> IsIdChar(r.value[k])
  {
    match Capture(url, Watch)
    case Some(id) => Some(id)
    case None =>
      match Capture(url, ShortLink)
      case Some(id) => Some(id)
      case None => Capture(url, Embed)
  }

  /** A `youtu.be/` or `embed/` match always contains a `/` followed by an id,
      which is a match of the first pattern. */
  lemma LaterPatternsImplyWatch(url: string, pat: Pattern, p: nat)
    requires pat != Watch && MatchesAt(url, pat, p)
    ensures var q := if pat == ShortLink then p + 8 else p + 5;
      MatchesAt(url, Watch, q)
  {
    var q := if pat == ShortLink then p + 8 else p + 5;
    assert url[p..][q - p] == '/';
    assert url[q] == '/';
  }

  /** The second and third patterns never decide the result: the id is always the
      one captured after the leftmost `v=` or `/` followed by eleven id characters. */
  lemma ExtractYoutubeIdIsLeftmostWatch(url: string)
    ensures ExtractYoutubeId(url) == Capture(url, Watch)
    ensures ExtractYoutubeId(url).None? <==> forall p :: 0 <= p < |url| ==> !MatchesAt(url, Watch, p)
  {
    forall p: nat | MatchesAt(url, ShortLink, p)
      ensures MatchesAt(url, Watch, p + 8)
    {
      LaterPatternsImplyWatch(url, ShortLink, p);
    }
    forall p: nat | MatchesAt(url, Embed, p)
      ensures MatchesAt(url, Watch, p + 5)
    {
      LaterPatternsImplyWatch(url, Embed, p);
    }
    if SearchFrom(url, Watch, 0).None? {
      assert SearchFrom(url, ShortLink, 0).None?;
      assert SearchFrom(url, Embed, 0).None?;
    }
  }

  /** Where the id comes from: eleven id characters right after the leftmost
      `v=` or `/` that is followed by eleven id characters. */
  lemma ExtractYoutubeIdSource(url: string)
    requires ExtractYoutubeId(url).Some?
    ensures exists p ::
      && 0 <= p < |url| && MatchesAt(url, Watch, p)
      && (forall q :: 0 <= q < p ==> !MatchesAt(url, Watch, q))
      && ExtractYoutubeId(url).value == url[GroupStart(url, Watch, p)..GroupStart(url, Watch, p) + 11]
  {
    ExtractYoutubeIdIsLeftmostWatch(url);
    var p := SearchFrom(url, Watch, 0).value;
    assert MatchesAt(url, Watch, p);
  }

  /** `process_youtube` fails with the invalid-URL error before fetching anything
      when no id is found; a transcript that cannot be fetched is the other error. */
  datatype DocError = InvalidYoutubeUrl | TranscriptUnavailable

  /** `DocumentProcessor.process_youtube`, with the transcript service as the oracle
      `fetch`, which yields the caption texts of a video id or nothing on failure. */
  function ProcessYoutube(url: string, fetch: string -> Option<seq<string>>): (r: Result<string, DocError>)
    ensures r == Failure(InvalidYoutubeUrl) <==> ExtractYoutubeId(url).None?
    ensures r == Failure(TranscriptUnavailable) <==>
      ExtractYoutubeId(url).Some? && fetch(ExtractYoutubeId(url).value).None?
    ensures r.Success? ==>
      && ExtractYoutubeId(url).Some?
      && fetch(ExtractYoutubeId(url).value).Some?
      && r.value == Strip(Join(" ", fetch(ExtractYoutubeId(url).value).value))
  {
    match ExtractYoutubeId(url)
    case None => Failure(InvalidYoutubeUrl)
    case Some(id) =>
      match fetch(id)
      case None => Failure(TranscriptUnavailable)
      case Some(parts) => Success(Strip(Join(" ", parts)))
  }

  // ---------------------------------------------------------------------------
  // Extractor dispatch

  datatype Extractor = Pdf | Docx | Pptx | PlainText

  /** `DocumentProcessor.process_file`: the extractor chosen by the lower-cased
      file suffix; `.txt`, `.md`, `.csv` and every other name are read as text. */
  function ExtractorFor(fileName: string): (r: Extractor)
    ensures var name := Lower(fileName);
      && (r == Pdf <==> EndsWith(name, ".pdf"))
      && (r == Docx <==> EndsWith(name, ".docx"))
      && (r == Pptx <==> EndsWith(name, ".pptx"))
      && (r == PlainText <==>
            !EndsWith(name, ".pdf") && !EndsWith(name, ".docx") && !EndsWith(name, ".pptx"))
  {
    var name := Lower(fileName);
    SuffixesExclusive(name);
    if EndsWith(name, ".pdf") then Pdf
    else if EndsWith(name, ".docx") then Docx
    else if EndsWith(name, ".pptx") then Pptx
    else if EndsWith(name, ".txt") || EndsWith(name, ".md") || EndsWith(name, ".csv") then PlainText
    else PlainText
  }

  /** No name ends with two of `.pdf`, `.docx` and `.pptx`. */
  lemma SuffixesExclusive(name: string)
    ensures !(EndsWith(name, ".pdf") && EndsWith(name, ".docx"))
    ensures !(EndsWith(name, ".pdf") && EndsWith(name, ".pptx"))
    ensures !(EndsWith(name, ".docx") && EndsWith(name, ".pptx"))
  {
    if EndsWith(name, ".pdf") {
      assert name[|name| - 1] == ".pdf"[3];
    }
    if EndsWith(name, ".docx") {
      assert name[|name| - 1] == ".docx"[4] && name[|name| - 4] == ".docx"[1];
    }
    if EndsWith(name, ".pptx") {
      assert name[|name| - 1] == ".pptx"[4] && name[|name| - 4] == ".pptx"[1];
    }
  }
}

=== FILE: findall.dfy ===
/** The two pieces of Python's `re` module that the modelled patterns share:
    the word boundary `\b`, and the scan `re.findall` makes over a text. */
module Findall {
  import opened PyStr
  import opened Wrappers

  /** `\b` at position `i`: exactly one of the neighbouring characters is a word
      character. */
  predicate Boundary(t: string, i: nat)
    requires i <= |t|
  {
    (i > 0 && IsWordChar(t[i - 1])) != (i < |t| && IsWordChar(t[i]))
  }

  /** A match `re.findall` reports: the pattern matched `t[start..end]`. */
  datatype Span = Span(start: nat, end: nat)

  /** Position `p` is the start of a span of `r` or lies inside one. */
  predicate Covered(r: seq<Span>, p: nat) {
    exists k :: 0 <= k < |r| && r[k].start <= p < r[k].end
  }

  /** A table of the match found at each position of a text: a match at `p`
      ends after `p` and within the text. */
  predicate ValidTable(m: seq<Option<nat>>) {
    forall p :: 0 <= p < |m| && m[p].Some? ==> p < m[p].value <= |m|
  }

  /** The scan of `re.findall` over a table of matches, from position `i` on:
      a match is taken and scanning resumes at its end; otherwise scanning
      moves one character on. */
  function Scan(m: seq<Option<nat>>, i: nat): (r: seq<Span>)
    requires ValidTable(m) && i <= |m|
    ensures forall k :: 0 <= k < |r| ==> i <= r[k].start < r[k].end <= |m|
    decreases |m| - i
  {
    if i == |m| then []
    else
      match m[i]
      case Some(e) => [Span(i, e)] + Scan(m, e)
      case None => Scan(m, i + 1)
  }

  /** Each span of the scan is the match the table holds at its start. */
  lemma {:induction false} ScanIsMatch(m: seq<Option<nat>>, i: nat, k: nat)
    requires ValidTable(m) && i <= |m| && k < |Scan(m, i)|
    ensures m[Scan(m, i)[k].start] == Some(Scan(m, i)[k].end)
    decreases |m| - i
  {
    if m[i].Some? && k > 0 {
      ScanIsMatch(m, m[i].value, k - 1);
    } else if m[i].None? {
      ScanIsMatch(m, i + 1, k);
    }
  }

  /** The spans of the scan come in order and do not overlap. */
  lemma {:induction false} ScanInOrder(m: seq<Option<nat>>, i: nat, j: nat, k: nat)
    requires ValidTable(m) && i <= |m| && j < k < |Scan(m, i)|
    ensures Scan(m, i)[j].end <= Scan(m, i)[k].start
    decreases |m| - i
  {
    if m[i].Some? && j > 0 {
      ScanInOrder(m, m[i].value, j - 1, k - 1);
    } else if m[i].None? {
      ScanInOrder(m, i + 1, j, k);
    }
  }

  /** Every position from `i` on that holds a match starts a span of the scan
      or lies inside one. */
  lemma {:induction false} ScanCovers(m: seq<Option<nat>>, i: nat, p: nat)
    requires ValidTable(m) && i <= p < |m| && m[p].Some?
    ensures Covered(Scan(m, i), p)
    decreases |m| - i
  {
    var r := Scan(m, i);
    if m[i].Some? {
      var e := m[i].value;
      if p < e {
        assert r[0] == Span(i, e);
      } else {
        ScanCovers(m, e, p);
        var rest := Scan(m, e);
        var k :| 0 <= k < |rest| && rest[k].start <= p < rest[k].end;
        assert r[k + 1] == rest[k];
      }
    } else {
      ScanCovers(m, i + 1, p);
    }
  }
}

=== FILE: flashcard_export.dfy ===
/** `export_flashcards` and its two hand-written formats. The CSV format quotes
    every field and doubles the quotes inside it, the escaping rule of section 2
    of RFC 4180; `ParseCsv` reads such a file back, and the round trip is proved.
    `json.dumps` is left to the caller. */
module FlashcardExport {
  import opened PyStr
  import opened Wrappers
  import opened Flashcards

  // ---------------------------------------------------------------------------
  // text

  const TextHeader := "# Flashcards\n\n"

  /** The block `export_as_text` writes for the card numbered `n`. */
  function CardBlock(n: nat, card: Flashcard): string {
    "## Card " + NatToString(n) + "\n\n"
    + "**Question:** " + card.question + "\n\n"
    + "**Answer:** " + card.answer + "\n\n"
    + "---\n\n"
  }

  /** The pieces `piece` makes of the items of `xs`, numbered from `first` on,
      one after the other. */
  function Numbered<T>(xs: seq<T>, first: nat, piece: (nat, T) -> string): string
    decreases |xs|
  {
    if |xs| == 0 then [] else piece(first, xs[0]) + Numbered(xs[1..], first + 1, piece)
  }

  /** An item added at the end adds its piece at the end, numbered one past
      the items before it. */
  lemma {:induction false} NumberedAppend<T>(xs: seq<T>, x: T, first: nat, piece: (nat, T) -> string)
    ensures Numbered(xs + [x], first, piece) == Numbered(xs, first, piece) + piece(first + |xs|, x)
    decreases |xs|
  {
    var all := xs + [x];
    if |xs| == 0 {
      assert all == [x];
      assert Numbered(all, first, piece) == piece(first, x) + Numbered([], first + 1, piece);
    } else {
      assert all[1..] == xs[1..] + [x];
      NumberedAppend(xs[1..], x, first + 1, piece);
    }
  }

  /** The blocks of `cards`, numbered from `first` on. */
  function Blocks(cards: seq<Flashcard>, first: nat): string {
    Numbered(cards, first, CardBlock)
  }

  /** `export_as_text`. */
  function ExportAsText(cards: seq<Flashcard>): (r: string)
    ensures StartsWith(r, TextHeader)
    ensures cards == [] ==> r == TextHeader
  {
    TextHeader + Blocks(cards, 1)
  }

  /** Cards are numbered from 1 in order: adding a card adds exactly its block,
      numbered one past the cards before it, and changes nothing before it. */
  lemma ExportAsTextAppend(cards: seq<Flashcard>, card: Flashcard)
    ensures ExportAsText(cards + [card]) == ExportAsText(cards) + CardBlock(|cards| + 1, card)
  {
    NumberedAppend(cards, card, 1, CardBlock);
  }

  // ---------------------------------------------------------------------------
  // CSV

  const CsvHeader := "Question,Answer\n"

  /** `s.replace('"', '""')`. */
  function EscapeQuotes(s: string): (r: string)
    ensures |r| == |s| + CountChar(s, '"')
  {
    if |s| == 0 then []
    else (if s[0] == '"' then "\"\"" else [s[0]]) + EscapeQuotes(s[1..])
  }

  /** One CSV record: both fields quoted, a comma between them, a newline after. */
  function CsvRow(card: Flashcard): string {
    "\"" + EscapeQuotes(card.question) + "\",\"" + EscapeQuotes(card.answer) + "\"\n"
  }

  function CsvRows(cards: seq<Flashcard>): string {
    if |cards| == 0 then [] else CsvRow(cards[0]) + CsvRows(cards[1..])
  }

  /** `export_as_csv`. */
  function ExportAsCsv(cards: seq<Flashcard>): (r: string)
    ensures StartsWith(r, CsvHeader)
  {
    CsvHeader + CsvRows(cards)
  }

  /** Reads the rest of a quoted field, after its opening quote: a doubled quote
      stands for one quote, a single quote ends the field. Gives the field and
      what follows the closing quote. */
  function ReadQuoted(s: string): (r: Option<(string, string)>)
    ensures r.Some? ==> |r.value.1| < |s|
    decreases |s|
  {
    if |s| == 0 then None
    else if s[0] == '"' then
      if |s| > 1 && s[1] == '"' then
        match ReadQuoted(s[2..])
        case None => None
        case Some((f, rest)) => Some(("\"" + f, rest))
      else Some(([], s[1..]))
    else
      match ReadQuoted(s[1..])
      case None => None
      case Some((f, rest)) => Some(([s[0]] + f, rest))
  }

  /** Reads records of two quoted fields, each ended by a newline. */
  function ReadRows(s: string): Option<seq<Flashcard>>
    decreases |s|
  {
    if |s| == 0 then Some([])
    else if s[0] != '"' then None
    else
      match ReadQuoted(s[1..])
      case None => None
      case Some((q, afterQ)) =>
        if |afterQ| < 2 || afterQ[0] != ',' || afterQ[1] != '"' then None
        else
          match ReadQuoted(afterQ[2..])
          case None => None
          case Some((a, afterA)) =>
            if |afterA| == 0 || afterA[0] != '\n' then None
            else
              match ReadRows(afterA[1..])
              case None => None
              case Some(rows) => Some([Flashcard(q, a)] + rows)
  }

  /** Reads a file in the format `export_as_csv` writes. */
  function ParseCsv(s: string): Option<seq<Flashcard>> {
    if StartsWith(s, CsvHeader) then ReadRows(s[|CsvHeader|..]) else None
  }

  /** An escaped field followed by its closing quote reads back as the field,
      whatever follows, as long as it does not start with a quote. */
  lemma {:induction false} ReadQuotedEscaped(f: string, rest: string)
    requires rest == [] || rest[0] != '"'
    ensures ReadQuoted(EscapeQuotes(f) + "\"" + rest) == Some((f, rest))
    decreases |f|
  {
    if |f| == 0 {
      assert EscapeQuotes(f) + "\"" + rest == "\"" + rest;
    } else {
      ReadQuotedEscaped(f[1..], rest);
      if f[0] == '"' {
        ReadQuotedEscapedQuote(f, rest);
      } else {
        ReadQuotedEscapedOther(f, rest);
      }
    }
  }

  /** The step of `ReadQuotedEscaped` for a field that starts with a quote. */
  lemma ReadQuotedEscapedQuote(f: string, rest: string)
    requires |f| > 0 && f[0] == '"'
    requires ReadQuoted(EscapeQuotes(f[1..]) + "\"" + rest) == Some((f[1..], rest))
    ensures ReadQuoted(EscapeQuotes(f) + "\"" + rest) == Some((f, rest))
  {
    var tail := EscapeQuotes(f[1..]) + "\"" + rest;
    assert EscapeQuotes(f) + "\"" + rest == "\"\"" + tail;
    assert ("\"\"" + tail)[2..] == tail;
    assert "\"" + f[1..] == f;
  }

  /** The step of `ReadQuotedEscaped` for a field that starts with another character. */
  lemma ReadQuotedEscapedOther(f: string, rest: string)
    requires |f| > 0 && f[0] != '"'
    requires ReadQuoted(EscapeQuotes(f[1..]) + "\"" + rest) == Some((f[1..], rest))
    ensures ReadQuoted(EscapeQuotes(f) + "\"" + rest) == Some((f, rest))
  {
    var tail := EscapeQuotes(f[1..]) + "\"" + rest;
    assert EscapeQuotes(f) + "\"" + rest == [f[0]] + tail;
    assert ([f[0]] + tail)[1..] == tail;
    assert [f[0]] + f[1..] == f;
  }

  /** The text after a record's question field: its closing quote excluded. */
  function AfterQuestion(c: Flashcard, next: string): string {
    ",\"" + EscapeQuotes(c.answer) + "\"" + "\n" + next
  }

  /** A record followed by `next` is an opening quote, the escaped question,
      its closing quote, and what follows the question. */
  lemma RowShape(c: Flashcard, next: string)
    ensures var s := CsvRow(c) + next;
      && |s| > 0 && s[0] == '"'
      && s[1..] == EscapeQuotes(c.question) + "\"" + AfterQuestion(c, next)
  {
    var s := CsvRow(c) + next;
    assert s == "\"" + (EscapeQuotes(c.question) + "\"" + AfterQuestion(c, next));
  }

  /** What follows the question is a comma, the opening quote of the answer,
      the escaped answer, its closing quote, a newline and `next`. */
  lemma AfterQuestionShape(c: Flashcard, next: string)
    ensures var t := AfterQuestion(c, next);
      && |t| >= 2 && t[0] == ',' && t[1] == '"'
      && t[2..] == EscapeQuotes(c.answer) + "\"" + ("\n" + next)
  {
  }

  /** One record in front of records that read back reads back in front of them. */
  lemma ReadRowThen(c: Flashcard, next: string, rows: seq<Flashcard>)
    requires ReadRows(next) == Some(rows)
    ensures ReadRows(CsvRow(c) + next) == Some([c] + rows)
  {
    var afterQ := AfterQuestion(c, next);
    var afterA := "\n" + next;
    RowShape(c, next);
    AfterQuestionShape(c, next);
    ReadQuotedEscaped(c.question, afterQ);
    ReadQuotedEscaped(c.answer, afterA);
    assert afterA[1..] == next;
  }

  lemma {:induction false} ReadRowsOfRows(cards: seq<Flashcard>)
    ensures ReadRows(CsvRows(cards)) == Some(cards)
    decreases |cards|
  {
    if |cards| > 0 {
      ReadRowsOfRows(cards[1..]);
      ReadRowThen(cards[0], CsvRows(cards[1..]), cards[1..]);
      assert [cards[0]] + cards[1..] == cards;
    }
  }

  /** Reading an exported CSV file gives back exactly the cards exported. */
  lemma CsvRoundTrip(cards: seq<Flashcard>)
    ensures ParseCsv(ExportAsCsv(cards)) == Some(cards)
  {
    var s := ExportAsCsv(cards);
    assert s[|CsvHeader|..] == CsvRows(cards);
    ReadRowsOfRows(cards);
  }

  // ---------------------------------------------------------------------------
  // dispatch

  /** `export_flashcards`: "csv" and "json" select those formats, every other
      format name gives the text format. `dumps` stands for `json.dumps`. */
  function ExportFlashcards(cards: seq<Flashcard>, format: string, dumps: seq<Flashcard> -> string): (r: string)
    ensures format == "csv" ==> ParseCsv(r) == Some(cards)
    ensures format == "json" ==> r == dumps(cards)
    ensures format != "csv" && format != "json" ==> r == ExportAsText(cards)
  {
    if format == "text" then ExportAsText(cards)
    else if format == "csv" then
      CsvRoundTrip(cards);
      ExportAsCsv(cards)
    else if format == "json" then dumps(cards)
    else ExportAsText(cards)
  }
}

=== FILE: flashcard_topics.dfy ===
/** `organize_flashcards_by_topic`: each card goes to the first topic whose cue
    words its lower-cased question contains, and empty topics are dropped. The
    source's `text` argument is unused and left out. */
module FlashcardTopics {
  import opened PyStr
  import opened Flashcards

  datatype Topic = Definitions | Concepts | Processes | General

  /** The dictionary key the source uses for each topic. */
  function TopicName(t: Topic): string {
    match t
    case Definitions => "Definitions"
    case Concepts => "Concepts"
    case Processes => "Processes"
    case General => "General"
  }

  const DefinitionCues: seq<string> := ["what is", "define", "definition"]
  const ProcessCues: seq<string> := ["how does", "how do", "process"]
  const ConceptCues: seq<string> := ["why", "explain", "concept"]

  /** `any(word in question for word in cues)`. */
  predicate ContainsAny(question: string, cues: seq<string>) {
    exists k :: 0 <= k < |cues| && Contains(question, cues[k])
  }

  /** The topic of one card: definition cues win over process cues, which win
      over concept cues; a question with none is general. */
  function TopicOf(card: Flashcard): (t: Topic)
    ensures t == Definitions <==> ContainsAny(Lower(card.question), DefinitionCues)
    ensures t == Processes <==>
      !ContainsAny(Lower(card.question), DefinitionCues) && ContainsAny(Lower(card.question), ProcessCues)
    ensures t == Concepts <==>
      && !ContainsAny(Lower(card.question), DefinitionCues) && !ContainsAny(Lower(card.question), ProcessCues)
      && ContainsAny(Lower(card.question), ConceptCues)
  {
    var q := Lower(card.question);
    if ContainsAny(q, DefinitionCues) then Definitions
    else if ContainsAny(q, ProcessCues) then Processes
    else if ContainsAny(q, ConceptCues) then Concepts
    else General
  }

  /** The test for one topic. */
  function HasTopic(t: Topic): Flashcard -> bool {
    InClass(TopicOf, t)
  }

  /** The cards of one topic, in their original order. */
  function Bucket(cards: seq<Flashcard>, t: Topic): seq<Flashcard> {
    Filter(cards, HasTopic(t))
  }

  /** `organize_flashcards_by_topic`: the non-empty buckets. */
  function OrganizeByTopic(cards: seq<Flashcard>): (r: map<Topic, seq<Flashcard>>)
    ensures cards == [] ==> r == map[]
    ensures forall t | t in r :: r[t] != [] && forall c | c in r[t] :: TopicOf(c) == t
    ensures forall c | c in cards :: TopicOf(c) in r && c in r[TopicOf(c)]
    ensures forall t | t in r :: IsSubsequence(r[t], cards)
  {
    if cards == [] then map[]
    else
      var r := map t | t in [Definitions, Concepts, Processes, General] && Bucket(cards, t) != [] :: Bucket(cards, t);
      forall t | t in r ensures forall c | c in r[t] :: TopicOf(c) == t {
        var b := Bucket(cards, t);
        forall c | c in b ensures TopicOf(c) == t {
          var i :| 0 <= i < |b| && b[i] == c;
        }
      }
      forall c | c in cards ensures TopicOf(c) in r && c in r[TopicOf(c)] {
        var t := TopicOf(c);
        FilterKeepsKept(cards, HasTopic(t));
        var i :| 0 <= i < |cards| && cards[i] == c;
        assert c in Bucket(cards, t);
      }
      forall t | t in r ensures IsSubsequence(r[t], cards) {
        FilterIsSubsequence(cards, HasTopic(t));
      }
      r
  }

  /** The bucket of a topic, or nothing when the topic was dropped. */
  function Organized(r: map<Topic, seq<Flashcard>>, t: Topic): seq<Flashcard> {
    if t in r then r[t] else []
  }

  /** The four buckets of a card list together hold exactly its cards. */
  lemma BucketsPartition(cards: seq<Flashcard>)
    ensures multiset(Bucket(cards, Definitions)) + multiset(Bucket(cards, Concepts))
          + multiset(Bucket(cards, Processes)) + multiset(Bucket(cards, General)) == multiset(cards)
  {
    FilterByClass(cards, TopicOf, Definitions, Concepts, Processes, General);
  }

  /** A topic's entry after organising is its bucket, or absent when empty. */
  lemma OrganizedIsBucket(cards: seq<Flashcard>, t: Topic)
    ensures Organized(OrganizeByTopic(cards), t) == Bucket(cards, t)
  {
    if cards != [] {
      assert t in [Definitions, Concepts, Processes, General];
    }
  }

  /** Organising by topic loses no card and duplicates none: the kept buckets
      together hold exactly the cards given. */
  lemma OrganizeIsPartition(cards: seq<Flashcard>)
    ensures multiset(Organized(OrganizeByTopic(cards), Definitions)) + multiset(Organized(OrganizeByTopic(cards), Concepts))
          + multiset(Organized(OrganizeByTopic(cards), Processes)) + multiset(Organized(OrganizeByTopic(cards), General))
          == multiset(cards)
  {
    BucketsPartition(cards);
    OrganizedIsBucket(cards, Definitions);
    OrganizedIsBucket(cards, Concepts);
    OrganizedIsBucket(cards, Processes);
    OrganizedIsBucket(cards, General);
  }
}

=== FILE: flashcards.dfy ===
/** `FlashcardGenerator` post-processing of model output: card validation, text
    normalisation, the JSON filter stage, the regex fallback and the final trim of
    `generate_flashcards`. The model call, `json.loads` and the shuffle are
    oracles supplied by the caller. */
module Flashcards {
  import opened PyStr
  import opened Json
  import opened Wrappers
  import opened LlmOutput
  import opened KeyTerms

  datatype Flashcard = Flashcard(question: string, answer: string)

  const MinQuestionLength: nat := 5
  const MaxQuestionLength: nat := 200
  const MinAnswerLength: nat := 5
  const MaxAnswerLength: nat := 500

  /** The length bounds `validate_flashcard` puts on a stripped question and answer. */
  predicate LengthsAcceptable(question: string, answer: string) {
    && MinQuestionLength <= |Strip(question)| <= MaxQuestionLength
    && MinAnswerLength <= |Strip(answer)| <= MaxAnswerLength
  }

  /** A decoded value with a string under both `question` and `answer`. */
  predicate HasStringFields(card: Json) {
    && card.JObject?
    && HasKey(card.entries, "question") && HasKey(card.entries, "answer")
    && Lookup(card.entries, "question").JString?
    && Lookup(card.entries, "answer").JString?
  }

  /** The question and answer of a card that has both as strings. */
  function RawCard(card: Json): Flashcard
    requires HasStringFields(card)
  {
    Flashcard(Lookup(card.entries, "question").s, Lookup(card.entries, "answer").s)
  }

  /** `validate_flashcard`. A dict missing a key, or anything that is not a dict,
      is rejected; a dict whose `question` or `answer` is not a str makes
      `.strip()` raise; otherwise the stripped lengths decide. */
  function ValidateFlashcard(card: Json): (r: Result<bool, PyError>)
    ensures r == Success(true) <==>
      HasStringFields(card) && LengthsAcceptable(RawCard(card).question, RawCard(card).answer)
    ensures r.Failure? <==>
      && card.JObject? && HasKey(card.entries, "question") && HasKey(card.entries, "answer")
      && !(Lookup(card.entries, "question").JString? && Lookup(card.entries, "answer").JString?)
  {
    if !card.JObject? then Success(false)
    else if !HasKey(card.entries, "question") || !HasKey(card.entries, "answer") then Success(false)
    else
      match PyStrip(Lookup(card.entries, "question"))
      case Failure(e) => Failure(e)
      case Success(question) =>
        match PyStrip(Lookup(card.entries, "answer"))
        case Failure(e) => Failure(e)
        case Success(answer) =>
          if |question| < MinQuestionLength || |answer| < MinAnswerLength then Success(false)
          else if |question| > MaxQuestionLength || |answer| > MaxAnswerLength then Success(false)
          else Success(true)
  }

  // ---------------------------------------------------------------------------
  // clean_text

  predicate IsQuote(c: char) {
    c == '"' || c == '\''
  }

  /** `re.sub(r'\s+', ' ', s)`: every maximal run of whitespace becomes one space. */
  function CollapseSpace(s: string): string
    decreases |s|
  {
    if |s| == 0 then []
    else if IsSpace(s[0]) then " " + CollapseSpace(TrimLeft(s, IsSpace))
    else [s[0]] + CollapseSpace(s[1..])
  }

  /** Collapsing whitespace keeps every other character. */
  lemma {:induction false} CollapseSpaceKeepsChar(s: string, c: char)
    requires !IsSpace(c)
    ensures c in CollapseSpace(s) <==> c in s
    decreases |s|
  {
    if |s| == 0 {
    } else if IsSpace(s[0]) {
      var rest := TrimLeft(s, IsSpace);
      CollapseSpaceKeepsChar(rest, c);
      assert s == s[..|s| - |rest|] + rest;
      assert c !in s[..|s| - |rest|];
    } else {
      CollapseSpaceKeepsChar(s[1..], c);
      assert s == [s[0]] + s[1..];
    }
  }

  /** Every whitespace character is a plain space and no two stand side by side. */
  predicate SingleSpaced(s: string) {
    && (forall i :: 0 <= i < |s| && IsSpace(s[i]) ==> s[i] == ' ')
    && (forall i :: 0 <= i < |s| - 1 ==> !(IsSpace(s[i]) && IsSpace(s[i + 1])))
  }

  /** Collapsing whitespace leaves no two spaces side by side and no other
      whitespace character. */
  lemma {:induction false} CollapseSpaceSingleSpaces(s: string)
    ensures SingleSpaced(CollapseSpace(s))
    decreases |s|
  {
    if |s| == 0 {
    } else if IsSpace(s[0]) {
      var rest := TrimLeft(s, IsSpace);
      CollapseSpaceSingleSpaces(rest);
      assert rest == [] || !IsSpace(rest[0]);
      assert rest != [] ==> CollapseSpace(rest)[0] == rest[0];
    } else {
      CollapseSpaceSingleSpaces(s[1..]);
    }
  }

  /** `s.strip(chars)` keeps every character it is not allowed to strip. */
  lemma TrimKeepsChar(s: string, drop: char -> bool, c: char)
    requires !drop(c)
    ensures c in Trim(s, drop) <==> c in s
  {
    TrimLeftKeepsChar(s, drop, c);
    TrimRightKeepsChar(TrimLeft(s, drop), drop, c);
  }

  lemma TrimLeftKeepsChar(s: string, drop: char -> bool, c: char)
    requires !drop(c)
    ensures c in TrimLeft(s, drop) <==> c in s
  {
    var l := TrimLeft(s, drop);
    var pre := s[..|s| - |l|];
    assert s == pre + l;
    forall i | 0 <= i < |pre| ensures pre[i] != c {
      assert drop(s[i]);
    }
  }

  lemma TrimRightKeepsChar(s: string, drop: char -> bool, c: char)
    requires !drop(c)
    ensures c in TrimRight(s, drop) <==> c in s
  {
    var r := TrimRight(s, drop);
    var post := s[|r|..];
    assert s == r + post;
    forall i | 0 <= i < |post| ensures post[i] != c {
      assert drop(s[|r| + i]);
    }
  }

  /** A leading lower-case letter made upper-case. */
  function CapitalizeFirst(u: string): (r: string)
    ensures |r| == |u| && (|u| > 0 ==> r[1..] == u[1..])
  {
    if |u| > 0 && IsLowerChar(u[0]) then [UpperChar(u[0])] + u[1..] else u
  }

  lemma CapitalizeFirstKeepsChar(u: string, c: char)
    requires !IsAsciiLetter(c)
    ensures c in CapitalizeFirst(u) <==> c in u
  {
    if |u| > 0 {
      assert u == [u[0]] + u[1..];
      assert CapitalizeFirst(u) == [CapitalizeFirst(u)[0]] + u[1..];
    }
  }

  /** `clean_text` up to its handling of `?`: whitespace runs collapsed, the ends
      stripped of whitespace and then of quote characters, a leading lower-case
      letter made upper-case. The result is single-spaced, neither starts nor
      ends with a quote, and does not start with a lower-case letter. A space
      may still stand at an end, where stripping a quote uncovered it. */
  function Normalize(text: string): (r: string)
    ensures SingleSpaced(r)
    ensures |r| > 0 ==> !IsQuote(r[0]) && !IsQuote(r[|r| - 1]) && !IsLowerChar(r[0])
  {
    var collapsed := CollapseSpace(text);
    CollapseSpaceSingleSpaces(text);
    var stripped := Strip(collapsed);
    TrimSingleSpaced(collapsed, IsSpace);
    var unquoted := Trim(stripped, IsQuote);
    TrimSingleSpaced(stripped, IsQuote);
    CapitalizeFirstShape(unquoted);
    CapitalizeFirst(unquoted)
  }

  /** A slice of a single-spaced text is single-spaced. */
  lemma SliceSingleSpaced(s: string, i: nat, j: nat)
    requires SingleSpaced(s) && i <= j <= |s|
    ensures SingleSpaced(s[i..j])
  {
    var t := s[i..j];
    forall k | 0 <= k < |t| ensures t[k] == s[i + k] {}
  }

  /** Stripping keeps a text single-spaced. */
  lemma TrimSingleSpaced(s: string, drop: char -> bool)
    requires SingleSpaced(s)
    ensures SingleSpaced(Trim(s, drop))
  {
    TrimLeftSingleSpaced(s, drop);
    TrimRightSingleSpaced(TrimLeft(s, drop), drop);
  }

  lemma TrimLeftSingleSpaced(s: string, drop: char -> bool)
    requires SingleSpaced(s)
    ensures SingleSpaced(TrimLeft(s, drop))
  {
    var a := TrimLeft(s, drop);
    SliceSingleSpaced(s, |s| - |a|, |s|);
    assert a == s[|s| - |a|..|s|];
  }

  lemma TrimRightSingleSpaced(s: string, drop: char -> bool)
    requires SingleSpaced(s)
    ensures SingleSpaced(TrimRight(s, drop))
  {
    var b := TrimRight(s, drop);
    SliceSingleSpaced(s, 0, |b|);
    assert b == s[0..|b|];
  }

  /** Upper-casing a leading letter keeps a stripped, single-spaced text so,
      and leaves no lower-case letter in front. */
  lemma CapitalizeFirstShape(u: string)
    requires SingleSpaced(u)
    requires u == [] || (!IsQuote(u[0]) && !IsQuote(u[|u| - 1]))
    ensures var r := CapitalizeFirst(u);
      SingleSpaced(r) && (|r| > 0 ==> !IsQuote(r[0]) && !IsQuote(r[|r| - 1]) && !IsLowerChar(r[0]))
  {
    var r := CapitalizeFirst(u);
    if |u| > 0 && IsLowerChar(u[0]) {
      assert r[0] == UpperChar(u[0]);
      assert !IsSpace(r[0]);
      forall k | 0 < k < |r| ensures r[k] == u[k] {
        assert r[1..][k - 1] == u[1..][k - 1];
      }
    }
  }

  /** Normalising keeps every character that is not whitespace, a quote or an
      ASCII letter. */
  lemma NormalizeKeepsChar(text: string, c: char)
    requires !IsSpace(c) && !IsQuote(c) && !IsAsciiLetter(c)
    ensures c in Normalize(text) <==> c in text
  {
    var collapsed := CollapseSpace(text);
    var stripped := Strip(collapsed);
    var unquoted := Trim(stripped, IsQuote);
    CollapseSpaceKeepsChar(text, c);
    TrimKeepsChar(collapsed, IsSpace, c);
    TrimKeepsChar(stripped, IsQuote, c);
    CapitalizeFirstKeepsChar(unquoted, c);
  }

  /** Whitespace on either side of a text adds nothing to its non-space characters. */
  lemma DropSpacesFilter(a: string, b: string)
    requires forall i :: 0 <= i < |a| ==> IsSpace(a[i])
    ensures Filter(a + b, NotSpace) == Filter(b, NotSpace)
    ensures Filter(b + a, NotSpace) == Filter(b, NotSpace)
  {
    FilterAppend(a, b, NotSpace);
    FilterAppend(b, a, NotSpace);
    FilterNone(a, NotSpace);
  }

  /** Collapsing whitespace keeps the non-space characters, in order. */
  lemma {:induction false} CollapseSpaceKeepsText(s: string)
    ensures Filter(CollapseSpace(s), NotSpace) == Filter(s, NotSpace)
    decreases |s|
  {
    if |s| == 0 {
    } else if IsSpace(s[0]) {
      var rest := TrimLeft(s, IsSpace);
      CollapseSpaceKeepsText(rest);
      DropSpacesFilter(" ", CollapseSpace(rest));
      assert s == s[..|s| - |rest|] + rest;
      DropSpacesFilter(s[..|s| - |rest|], rest);
    } else {
      CollapseSpaceKeepsText(s[1..]);
      FilterAppend([s[0]], CollapseSpace(s[1..]), NotSpace);
      assert s == [s[0]] + s[1..];
      FilterAppend([s[0]], s[1..], NotSpace);
    }
  }

  /** Dropping leading whitespace keeps the non-space characters. */
  lemma TrimLeftKeepsText(s: string)
    ensures Filter(TrimLeft(s, IsSpace), NotSpace) == Filter(s, NotSpace)
  {
    var left := TrimLeft(s, IsSpace);
    var dropped := s[..|s| - |left|];
    assert s == dropped + left;
    DropSpacesFilter(dropped, left);
  }

  /** Dropping trailing whitespace keeps the non-space characters. */
  lemma TrimRightKeepsText(s: string)
    ensures Filter(TrimRight(s, IsSpace), NotSpace) == Filter(s, NotSpace)
  {
    var right := TrimRight(s, IsSpace);
    var dropped := s[|right|..];
    assert s == right + dropped;
    DropSpacesFilter(dropped, right);
  }

  /** Stripping whitespace keeps the non-space characters, in order. */
  lemma StripKeepsText(s: string)
    ensures Filter(Strip(s), NotSpace) == Filter(s, NotSpace)
  {
    TrimLeftKeepsText(s);
    TrimRightKeepsText(TrimLeft(s, IsSpace));
  }

  /** Capitalising a text that does not start with whitespace capitalises its
      non-space characters. */
  lemma CapitalizeKeepsText(u: string)
    requires u == [] || !IsSpace(u[0])
    ensures Filter(CapitalizeFirst(u), NotSpace) == CapitalizeFirst(Filter(u, NotSpace))
  {
    if |u| > 0 {
      var c := CapitalizeFirst(u);
      assert c == [c[0]] + u[1..];
      FilterAppend([c[0]], u[1..], NotSpace);
      assert u == [u[0]] + u[1..];
      FilterAppend([u[0]], u[1..], NotSpace);
    }
  }

  /** A text holding no quote character. */
  predicate QuoteFree(s: string) {
    forall i :: 0 <= i < |s| ==> !IsQuote(s[i])
  }

  /** Collapsing whitespace brings in no quote character. */
  lemma CollapseQuoteFree(text: string)
    requires QuoteFree(text)
    ensures QuoteFree(CollapseSpace(text))
  {
    CollapseSpaceKeepsChar(text, '"');
    CollapseSpaceKeepsChar(text, '\'');
  }

  /** Dropping leading whitespace brings in no quote character. */
  lemma TrimLeftQuoteFree(s: string)
    requires QuoteFree(s)
    ensures QuoteFree(TrimLeft(s, IsSpace))
  {
    var left := TrimLeft(s, IsSpace);
    assert forall i :: 0 <= i < |left| ==> left[i] == s[|s| - |left| + i];
  }

  /** Dropping trailing whitespace brings in no quote character. */
  lemma TrimRightQuoteFree(s: string)
    requires QuoteFree(s)
    ensures QuoteFree(TrimRight(s, IsSpace))
  {
    var right := TrimRight(s, IsSpace);
    assert forall i :: 0 <= i < |right| ==> right[i] == s[i];
  }

  /** Stripping whitespace brings in no quote character. */
  lemma StripQuoteFree(s: string)
    requires QuoteFree(s)
    ensures QuoteFree(Strip(s))
  {
    TrimLeftQuoteFree(s);
    TrimRightQuoteFree(TrimLeft(s, IsSpace));
  }

  /** Stripping quotes from a text with none is the identity. */
  lemma TrimQuoteFree(s: string)
    requires QuoteFree(s)
    ensures Trim(s, IsQuote) == s
  {
    assert TrimLeft(s, IsQuote) == s;
  }

  /** For a text holding no quote character, normalising keeps every
      non-space character in order and only upper-cases a leading lower-case
      letter: what changes is the whitespace alone. */
  lemma NormalizeKeepsText(text: string)
    requires QuoteFree(text)
    ensures Filter(Normalize(text), NotSpace) == CapitalizeFirst(Filter(text, NotSpace))
  {
    var collapsed := CollapseSpace(text);
    var stripped := Strip(collapsed);
    CollapseQuoteFree(text);
    StripQuoteFree(collapsed);
    TrimQuoteFree(stripped);
    assert Normalize(text) == CapitalizeFirst(stripped);
    CollapseSpaceKeepsText(text);
    StripKeepsText(collapsed);
    CapitalizeKeepsText(stripped);
  }

  /** The last step of `clean_text`: a text holding a `?` anywhere but at its end
      loses every `?` and gains one at the end. */
  function MoveQuestionMark(t: string): (r: string)
    ensures '?' in r <==> '?' in t
    ensures '?' in r ==> EndsWith(r, "?")
    ensures !EndsWith(t, "?") ==> CountChar(r, '?') <= 1
    ensures '?' in t && !EndsWith(t, "?") ==> CountChar(r, '?') == 1
    ensures RemoveChar(r, '?') == RemoveChar(t, '?')
    ensures !('?' in t && !EndsWith(t, "?")) ==> r == t
  {
    if '?' in t && !EndsWith(t, "?") then
      var kept := RemoveChar(t, '?');
      CountCharZero(kept, '?');
      CountCharAppend(kept, "?", '?');
      RemoveCharAppend(kept, "?", '?');
      RemoveCharAbsent(kept, '?');
      kept + "?"
    else
      CountCharZero(t, '?');
      t
  }

  /** `clean_text`: empty input gives ""; otherwise the normalised text with its
      question marks moved to the end, where a misplaced one leaves exactly one
      behind, and nothing else changed. */
  function CleanText(text: string): (r: string)
    ensures text == [] ==> r == []
    ensures '?' in r <==> '?' in text
    ensures '?' in r ==> EndsWith(r, "?")
    ensures text != [] && '?' in r && !EndsWith(Normalize(text), "?") ==> CountChar(r, '?') == 1
    ensures text != [] ==> RemoveChar(r, '?') == RemoveChar(Normalize(text), '?')
    ensures text != [] && !('?' in Normalize(text) && !EndsWith(Normalize(text), "?")) ==> r == Normalize(text)
  {
    if text == [] then []
    else
      NormalizeKeepsChar(text, '?');
      MoveQuestionMark(Normalize(text))
  }

  // ---------------------------------------------------------------------------
  // parse_flashcard_response

  /** A card `validate_flashcard` accepts. */
  predicate Accepted(card: Json) {
    ValidateFlashcard(card) == Success(true)
  }

  /** The validated card with both fields passed through `clean_text`. */
  function CleanedCard(card: Json): Flashcard
    requires HasStringFields(card)
  {
    Flashcard(CleanText(RawCard(card).question), CleanText(RawCard(card).answer))
  }

  /** The cleaned forms of the accepted cards, in order. */
  function CleanAccepted(cards: seq<Json>): (r: seq<Flashcard>)
    ensures |r| <= |cards|
  {
    if |cards| == 0 then []
    else (if Accepted(cards[0]) then [CleanedCard(cards[0])] else []) + CleanAccepted(cards[1..])
  }

  /** Validating the card raises. */
  predicate Raises(card: Json) {
    ValidateFlashcard(card).Failure?
  }

  /** The loop of `parse_flashcard_response` over the decoded items: each card is
      validated and, if accepted, cleaned; a card whose fields are not strings
      makes validation raise, which ends the whole parse. */
  function FilterCards(items: seq<Json>): (r: Result<seq<Flashcard>, PyError>)
    ensures r.Failure? <==> exists i :: 0 <= i < |items| && Raises(items[i])
    ensures r.Success? ==> r.value == CleanAccepted(items)
  {
    if |items| == 0 then Success([])
    else
      var head := ValidateFlashcard(items[0]);
      var tail := FilterCards(items[1..]);
      assert forall i :: 1 <= i < |items| ==> items[1..][i - 1] == items[i];
      if head.Failure? then Failure(head.error)
      else if tail.Failure? then Failure(tail.error)
      else Success((if head.value then [CleanedCard(items[0])] else []) + tail.value)
  }

  /** The length test of `extract_flashcards_with_regex`: both stripped texts
      longer than five characters. */
  predicate RegexPairKept(pair: (string, string)) {
    |Strip(pair.0)| > 5 && |Strip(pair.1)| > 5
  }

  /** A regex capture turned into a card, both parts cleaned. */
  function CleanedPair(pair: (string, string)): Flashcard {
    Flashcard(CleanText(pair.0), CleanText(pair.1))
  }

  /** `extract_flashcards_with_regex`, given the (question, answer) captures its
      three patterns find, in order: the cards are the cleaned forms of exactly
      the pairs that pass the length test, in their order. */
  function ExtractFlashcardsWithRegex(pairs: seq<(string, string)>): (r: seq<Flashcard>)
    ensures |r| == |Filter(pairs, RegexPairKept)|
    ensures forall i :: 0 <= i < |r| ==> r[i] == CleanedPair(Filter(pairs, RegexPairKept)[i])
  {
    MapFilterIsMapOfFilter(pairs, RegexPairKept, CleanedPair);
    MapFilter(pairs, RegexPairKept, CleanedPair)
  }

  /** Every item is a string, as when the decoded value is a dict and iteration
      yields its keys: no item is a card, so nothing is kept and nothing raises. */
  lemma {:induction false} NoCardsAmongStrings(items: seq<Json>)
    requires forall i :: 0 <= i < |items| ==> items[i].JString?
    ensures FilterCards(items) == Success([])
  {
    if |items| > 0 {
      assert ValidateFlashcard(items[0]) == Success(false);
      NoCardsAmongStrings(items[1..]);
    }
  }

  /** `parse_flashcard_response`, with `decode` standing for `json.loads` (None on
      a decoding error) and `regexPairs` for what the fallback patterns capture
      in the raw response. A decoded list goes through the validation filter, a
      decoded dict yields no cards, and a decoded number or boolean raises. */
  function ParseFlashcardResponse(responseText: string, decode: string -> Option<Json>,
                                  regexPairs: seq<(string, string)>): (r: Result<seq<Flashcard>, PyError>)
    ensures var d := decode(CleanJsonResponse(responseText));
      && (d.None? ==> r == Success(ExtractFlashcardsWithRegex(regexPairs)))
      && (d.Some? && d.value.JArray? ==> r == FilterCards(d.value.items))
      && (d.Some? && d.value.JObject? ==> r == Success([]))
      && (d.Some? && d.value.JString? ==> r == Success([]))
      && (d.Some? && (d.value.JNumber? || d.value.JBool? || d.value.JNull?) ==> r == Failure(TypeError))
  {
    match decode(CleanJsonResponse(responseText))
    case None => Success(ExtractFlashcardsWithRegex(regexPairs))
    case Some(value) =>
      match PyIter(value)
      case Failure(e) => Failure(e)
      case Success(items) =>
        if value.JArray? then FilterCards(items)
        else
          NoCardsAmongStrings(items);
          FilterCards(items)
  }

  /** Validation and the regex fallback's length test disagree on a pair of
      texts exactly at the edges: validation accepts a stripped text of five
      characters, which the regex fallback drops, and the regex fallback keeps
      texts longer than 200 or 500 characters, which validation rejects. A pair
      such as ("Why x", "Since") passes `validate_flashcard` as a card but is
      dropped by `extract_flashcards_with_regex`. */
  lemma RegexStricterThanValidation(q: string, a: string)
    ensures Accepted(CardObject(q, a)) && !RegexPairKept((q, a)) <==>
      LengthsAcceptable(q, a) && (|Strip(q)| == 5 || |Strip(a)| == 5)
    ensures RegexPairKept((q, a)) && !Accepted(CardObject(q, a)) <==>
      |Strip(q)| > 5 && |Strip(a)| > 5 && (|Strip(q)| > 200 || |Strip(a)| > 500)
  {
    CardObjectAccepted(q, a);
  }

  /** A text without whitespace is left alone by the whitespace collapse. */
  lemma {:induction false} CollapseSpaceNoSpace(s: string)
    requires forall i :: 0 <= i < |s| ==> !IsSpace(s[i])
    ensures CollapseSpace(s) == s
    decreases |s|
  {
    if |s| > 0 {
      CollapseSpaceNoSpace(s[1..]);
      assert s == [s[0]] + s[1..];
    }
  }

  /** Stripping quotes from a quoted word leaves the word. */
  lemma TrimQuotedWord(w: string)
    requires |w| > 0 && !IsQuote(w[0]) && !IsQuote(w[|w| - 1])
    ensures Trim("\"" + w + "\"", IsQuote) == w
  {
    var q := "\"" + w + "\"";
    var l := w + "\"";
    assert q[1..] == l;
    assert TrimLeft(l, IsQuote) == l;
    assert l[..|l| - 1] == w;
    assert TrimRight(w, IsQuote) == w;
  }

  /** A quoted word has no whitespace when the word has none. */
  lemma QuotedWordHasNoSpace(w: string)
    requires forall i :: 0 <= i < |w| ==> !IsSpace(w[i])
    ensures forall i :: 0 <= i < |"\"" + w + "\""| ==> !IsSpace(("\"" + w + "\"")[i])
  {
    var q := "\"" + w + "\"";
    forall i | 0 <= i < |q| ensures !IsSpace(q[i]) {
      if 0 < i < |q| - 1 { assert q[i] == w[i - 1]; }
    }
  }

  /** Normalising a quoted word drops the quotes and capitalises the word. */
  lemma NormalizeQuotedWord(w: string)
    requires |w| > 0 && !IsQuote(w[0]) && !IsQuote(w[|w| - 1])
    requires forall i :: 0 <= i < |w| ==> !IsSpace(w[i])
    ensures Normalize("\"" + w + "\"") == CapitalizeFirst(w)
  {
    var q := "\"" + w + "\"";
    QuotedWordHasNoSpace(w);
    CollapseSpaceNoSpace(q);
    TrimUnchanged(q, IsSpace);
    TrimQuotedWord(w);
  }

  /** Cleaning a quoted word without `?` drops the quotes and capitalises the word. */
  lemma CleanQuotedWord(w: string)
    requires |w| > 0 && IsLowerChar(w[0]) && !IsQuote(w[|w| - 1])
    requires forall i :: 0 <= i < |w| ==> !IsSpace(w[i]) && w[i] != '?'
    ensures CleanText("\"" + w + "\"") == [UpperChar(w[0])] + w[1..]
  {
    NormalizeQuotedWord(w);
    var n := CapitalizeFirst(w);
    assert '?' !in n by {
      forall i | 0 <= i < |n| ensures n[i] != '?' {
        if i > 0 { assert n[i] == w[i]; }
      }
    }
  }

  /** The dict `{"question": q, "answer": a}`. */
  function CardObject(q: string, a: string): Json {
    JObject([("question", JString(q)), ("answer", JString(a))])
  }

  /** A two-key card is accepted exactly when its texts meet the length bounds. */
  lemma CardObjectAccepted(q: string, a: string)
    ensures HasStringFields(CardObject(q, a)) && RawCard(CardObject(q, a)) == Flashcard(q, a)
    ensures Accepted(CardObject(q, a)) <==> LengthsAcceptable(q, a)
  {
    var card := CardObject(q, a);
    assert card.entries[0].0 == "question";
    assert card.entries[1].0 == "answer";
  }

  /** Cards are validated before they are cleaned, and cleaning can shorten
      them: a quoted three-letter question has five characters and passes
      validation, and leaves the parse as a three-character question, which
      validation would reject. */
  lemma CleaningAfterValidation(w: string, answer: string)
    requires |w| == 3 && IsLowerChar(w[0]) && !IsQuote(w[2])
    requires forall i :: 0 <= i < |w| ==> !IsSpace(w[i]) && w[i] != '?'
    requires MinAnswerLength <= |Strip(answer)| <= MaxAnswerLength
    ensures var card := CardObject("\"" + w + "\"", answer);
      && Accepted(card)
      && |CleanedCard(card).question| == 3
      && !LengthsAcceptable(CleanedCard(card).question, CleanedCard(card).answer)
  {
    QuotedCardAccepted(w, answer);
    QuotedCardCleanedShort(w, answer);
  }

  lemma QuotedCardAccepted(w: string, answer: string)
    requires |w| == 3
    requires forall i :: 0 <= i < |w| ==> !IsSpace(w[i])
    requires MinAnswerLength <= |Strip(answer)| <= MaxAnswerLength
    ensures Accepted(CardObject("\"" + w + "\"", answer))
  {
    var q := "\"" + w + "\"";
    QuotedWordHasNoSpace(w);
    TrimUnchanged(q, IsSpace);
    CardObjectAccepted(q, answer);
  }

  lemma QuotedCardCleanedShort(w: string, answer: string)
    requires |w| == 3 && IsLowerChar(w[0]) && !IsQuote(w[2])
    requires forall i :: 0 <= i < |w| ==> !IsSpace(w[i]) && w[i] != '?'
    ensures HasStringFields(CardObject("\"" + w + "\"", answer))
    ensures var c := CleanedCard(CardObject("\"" + w + "\"", answer));
      |c.question| == 3 && !LengthsAcceptable(c.question, c.answer)
  {
    var q := "\"" + w + "\"";
    CardObjectAccepted(q, answer);
    CleanQuotedWord(w);
    var c := CleanedCard(CardObject(q, answer));
    assert c.question == CleanText(q);
    assert |Strip(c.question)| <= 3;
  }

  // ---------------------------------------------------------------------------
  // create_fallback_flashcards and generate_flashcards

  // The long literals below are written in pieces: the verifier reads a
  // character near the start of one long literal only with difficulty.

  /** The card that fills the slots no key term covers. */
  const GenericCard := Flashcard(
    "What are the main topics " + "covered in this material?",
    "Please regenerate flashcards " + "for specific content-based questions and answers.")

  /** The fallback card for one key term. */
  function DefinitionCard(term: string): Flashcard {
    Flashcard("What is " + term + "?",
      "Please refer to the source material " + "for the definition of " + term + ". Consider regenerating flashcards for detailed answers.")
  }

  /** `create_fallback_flashcards`, given the key terms in the order the set of
      key terms yields them: one definition card per term of `terms[:num_cards]`,
      then generic cards until there are `num_cards`. */
  function CreateFallbackFlashcards(terms: seq<string>, numCards: int): (r: seq<Flashcard>)
    ensures numCards >= 0 ==> |r| == numCards
    ensures numCards < 0 ==> |r| == |Take(terms, numCards)|
    ensures forall i :: 0 <= i < |r| ==>
      r[i] == if i < |Take(terms, numCards)| then DefinitionCard(terms[i]) else GenericCard
  {
    var k := |Take(terms, numCards)|;
    var n := if numCards > k then numCards else k;
    seq(n, i requires 0 <= i < n => if i < k then DefinitionCard(terms[i]) else GenericCard)
  }

  /** Fallback cards built from key terms (3 to 30 characters) all pass the
      length bounds of `validate_flashcard`, so padding never produces a card
      the parser would have dropped. */
  lemma {:induction false} FallbackCardsAcceptable(terms: seq<string>, numCards: int)
    requires forall t :: t in terms ==> KeptTerm(t)
    ensures forall i :: 0 <= i < |CreateFallbackFlashcards(terms, numCards)| ==>
      LengthsAcceptable(CreateFallbackFlashcards(terms, numCards)[i].question,
                        CreateFallbackFlashcards(terms, numCards)[i].answer)
  {
    var r := CreateFallbackFlashcards(terms, numCards);
    forall i | 0 <= i < |r| ensures LengthsAcceptable(r[i].question, r[i].answer) {
      if i < |Take(terms, numCards)| {
        assert terms[i] in terms;
        DefinitionCardAcceptable(terms[i]);
      } else {
        GenericCardAcceptable();
      }
    }
  }

  /** The generic card passes the length bounds. */
  lemma GenericCardAcceptable()
    ensures LengthsAcceptable(GenericCard.question, GenericCard.answer)
  {
    var c := GenericCard;
    assert c.question[0] == 'W' && c.question[|c.question| - 1] == '?';
    assert c.answer[0] == 'P' && c.answer[|c.answer| - 1] == '.';
    CardAcceptable(c);
  }

  /** The definition card for a term of at most 30 characters passes the length bounds. */
  lemma DefinitionCardAcceptable(term: string)
    requires |term| <= 30
    ensures LengthsAcceptable(DefinitionCard(term).question, DefinitionCard(term).answer)
  {
    var c := DefinitionCard(term);
    assert c.question[0] == 'W' && c.question[|c.question| - 1] == '?';
    assert c.answer[0] == 'P';
    assert c.answer[|c.answer| - 1] == '.';
    CardAcceptable(c);
  }

  /** A card whose texts have non-blank ends and lengths within the bounds passes them. */
  lemma CardAcceptable(c: Flashcard)
    requires c.question != [] && !IsSpace(c.question[0]) && !IsSpace(c.question[|c.question| - 1])
    requires c.answer != [] && !IsSpace(c.answer[0]) && !IsSpace(c.answer[|c.answer| - 1])
    requires MinQuestionLength <= |c.question| <= MaxQuestionLength
    requires MinAnswerLength <= |c.answer| <= MaxAnswerLength
    ensures LengthsAcceptable(c.question, c.answer)
  {
    TrimUnchanged(c.question, IsSpace);
    TrimUnchanged(c.answer, IsSpace);
  }

  /** The outcome of one request and its parse, as `generate_flashcards` sees it:
      `None` when the request or `response.text` raised (`response` is `None`) or
      the parse raised. */
  function RequestCards(response: Option<string>, decode: string -> Option<Json>,
                        regexPairs: seq<(string, string)>): (r: Option<seq<Flashcard>>)
    ensures response.None? ==> r.None?
    ensures response.Some? ==> (r.None? <==> ParseFlashcardResponse(response.value, decode, regexPairs).Failure?)
  {
    match response
    case None => None
    case Some(t) =>
      match ParseFlashcardResponse(t, decode, regexPairs)
      case Failure(_) => None
      case Success(cards) => Some(cards)
  }

  /** `generate_additional_flashcards`: any exception gives no cards. */
  function GenerateAdditionalFlashcards(response: Option<string>, decode: string -> Option<Json>,
                                        regexPairs: seq<(string, string)>): (r: seq<Flashcard>)
    ensures RequestCards(response, decode, regexPairs).None? ==> r == []
    ensures RequestCards(response, decode, regexPairs).Some? ==> r == RequestCards(response, decode, regexPairs).value
  {
    match RequestCards(response, decode, regexPairs)
    case None => []
    case Some(cards) => cards
  }

  /** The cards `generate_flashcards` shuffles: the parsed ones, extended by the
      additional batch only when fewer than `num_cards` were parsed. */
  function Collected(parsed: seq<Flashcard>, additional: seq<Flashcard>, numCards: int): (r: seq<Flashcard>)
    ensures parsed <= r
    ensures |parsed| >= numCards ==> r == parsed
  {
    if |parsed| < numCards then parsed + additional else parsed
  }

  /** The terms are an enumeration of the set: each once, nothing else. */
  predicate Enumerates(terms: seq<string>, termSet: set<string>) {
    && (forall i, j :: 0 <= i < j < |terms| ==> terms[i] != terms[j])
    && (forall t | t in terms :: t in termSet)
    && (forall t | t in termSet :: t in terms)
  }

  /** `generate_flashcards`. `first` is the outcome of the main request
      (`RequestCards`), `additional` what `generate_additional_flashcards`
      returned, `shuffled` the order `random.shuffle` left the collected cards
      in, and `termOrder` the order in which the set of key terms is listed. An
      exception anywhere in the main path gives the fallback cards; otherwise
      the first `num_cards` shuffled cards. */
  function GenerateFlashcards(text: string, numCards: int, first: Option<seq<Flashcard>>,
                              additional: seq<Flashcard>, shuffled: seq<Flashcard>,
                              termOrder: seq<string>): (r: seq<Flashcard>)
    requires first.Some? ==> multiset(shuffled) == multiset(Collected(first.value, additional, numCards))
    requires first.None? ==> Enumerates(termOrder, ExtractKeyTerms(text))
    ensures first.None? ==> r == CreateFallbackFlashcards(termOrder, numCards)
    ensures first.Some? ==> multiset(r) <= multiset(Collected(first.value, additional, numCards))
    ensures first.Some? && numCards >= 0 ==> |r| == if numCards <= |Collected(first.value, additional, numCards)| then numCards else |Collected(first.value, additional, numCards)|
  {
    match first
    case None => CreateFallbackFlashcards(termOrder, numCards)
    case Some(parsed) =>
      var r := Take(shuffled, numCards);
      assert shuffled == r + shuffled[|r|..];
      assert |shuffled| == |Collected(parsed, additional, numCards)| by {
        assert |multiset(shuffled)| == |multiset(Collected(parsed, additional, numCards))|;
      }
      r
  }

  /** With a non-negative count, `generate_flashcards` returns exactly that many
      cards when the main request fails, and when the collected cards suffice. */
  lemma GenerateFlashcardsCount(text: string, numCards: int, first: Option<seq<Flashcard>>,
                                additional: seq<Flashcard>, shuffled: seq<Flashcard>,
                                termOrder: seq<string>)
    requires numCards >= 0
    requires first.Some? ==> multiset(shuffled) == multiset(Collected(first.value, additional, numCards))
    requires first.None? ==> Enumerates(termOrder, ExtractKeyTerms(text))
    requires first.Some? ==> |first.value| + |additional| >= numCards
    ensures |GenerateFlashcards(text, numCards, first, additional, shuffled, termOrder)| == numCards
  {
  }
}

=== FILE: json.dfy ===
/** The JSON values `json.loads` hands to the generators, and the few Python
    operations the generators apply to them: `in`, `len`, indexing by a string and
    iteration. Operations Python rejects for a value's type raise; the model
    returns the exception as a `Failure`. */
module Json {
  import opened Wrappers
  import opened PyStr

  /** A decoded JSON value. An object is kept as its entries in document order.
      A document may repeat a key, and `json.loads` then keeps the last value;
      `Lookup` reads the first, so the two agree on objects whose keys are
      distinct (`UniqueKeys`), which is what the modelled code is given. */
  datatype Json =
    | JNull
    | JBool(b: bool)
    | JNumber(n: int)
    | JString(s: string)
    | JArray(items: seq<Json>)
    | JObject(entries: seq<(string, Json)>)

  /** The Python exceptions the modelled code can raise on unexpected JSON. */
  datatype PyError = TypeError | AttributeError | KeyError

  /** `key` is the key of some entry. */
  predicate HasKey(entries: seq<(string, Json)>, key: string) {
    exists i :: 0 <= i < |entries| && entries[i].0 == key
  }

  /** The value stored under `key`. */
  function Lookup(entries: seq<(string, Json)>, key: string): (v: Json)
    requires HasKey(entries, key)
    ensures exists i :: 0 <= i < |entries| && entries[i] == (key, v)
  {
    if entries[0].0 == key then entries[0].1
    else
      assert HasKey(entries[1..], key) by {
        var i :| 0 <= i < |entries| && entries[i].0 == key;
        assert entries[1..][i - 1] == entries[i];
      }
      var v := Lookup(entries[1..], key);
      ghost var i :| 0 <= i < |entries[1..]| && entries[1..][i] == (key, v);
      assert entries[i + 1] == (key, v);
      v
  }

  /** The value under `key` is the one stored with its first occurrence. */
  lemma {:induction false} LookupFirst(entries: seq<(string, Json)>, i: nat, key: string)
    requires i < |entries| && entries[i].0 == key
    requires forall j :: 0 <= j < i ==> entries[j].0 != key
    ensures HasKey(entries, key) && Lookup(entries, key) == entries[i].1
    decreases i
  {
    if i > 0 {
      var tail := entries[1..];
      assert tail[i - 1] == entries[i];
      forall j | 0 <= j < i - 1 ensures tail[j].0 != key {
        assert tail[j] == entries[j + 1];
      }
      LookupFirst(tail, i - 1, key);
      assert entries[0].0 != key;
    }
  }

  /** No key stands in two entries. */
  predicate UniqueKeys(entries: seq<(string, Json)>) {
    forall i, j :: 0 <= i < j < |entries| ==> entries[i].0 != entries[j].0
  }

  /** With distinct keys, the value under a key is the one stored in its entry,
      wherever that entry stands. */
  lemma LookupUnique(entries: seq<(string, Json)>, i: nat, key: string)
    requires UniqueKeys(entries) && i < |entries| && entries[i].0 == key
    ensures HasKey(entries, key) && Lookup(entries, key) == entries[i].1
  {
    LookupFirst(entries, i, key);
  }

  /** `key in v` for a string `key`: a key test on a dict, a membership test on a
      list, a substring test on a str, and a `TypeError` on anything else. */
  function PyIn(key: string, v: Json): (r: Result<bool, PyError>)
    ensures v.JObject? ==> r == Success(HasKey(v.entries, key))
    ensures (v.JNull? || v.JBool? || v.JNumber?) <==> r == Failure(TypeError)
  {
    match v
    case JObject(entries) => Success(HasKey(entries, key))
    case JArray(items) => Success(JString(key) in items)
    case JString(s) => Success(Contains(s, key))
    case _ => Failure(TypeError)
  }

  /** `len(v)`. */
  function PyLen(v: Json): Result<nat, PyError> {
    match v
    case JString(s) => Success(|s|)
    case JArray(items) => Success(|items|)
    case JObject(entries) => Success(|entries|)
    case _ => Failure(TypeError)
  }

  /** `v[key]` for a string `key`. */
  function PyGetItem(v: Json, key: string): Result<Json, PyError> {
    match v
    case JObject(entries) => if HasKey(entries, key) then Success(Lookup(entries, key)) else Failure(KeyError)
    case _ => Failure(TypeError)
  }

  /** `for x in v`: a list yields its items, a dict its keys, a str its
      characters; anything else is not iterable. */
  function PyIter(v: Json): (r: Result<seq<Json>, PyError>)
    ensures v.JArray? ==> r == Success(v.items)
    ensures v.JObject? ==>
      && r.Success? && |r.value| == |v.entries|
      && forall i :: 0 <= i < |v.entries| ==> r.value[i] == JString(v.entries[i].0)
    ensures v.JString? ==>
      && r.Success? && |r.value| == |v.s|
      && forall i :: 0 <= i < |v.s| ==> r.value[i] == JString([v.s[i]])
    ensures r.Success? <==> v.JArray? || v.JObject? || v.JString?
  {
    match v
    case JArray(items) => Success(items)
    case JObject(entries) => Success(seq(|entries|, i requires 0 <= i < |entries| => JString(entries[i].0)))
    case JString(s) => Success(seq(|s|, i requires 0 <= i < |s| => JString([s[i]])))
    case _ => Failure(TypeError)
  }

  /** `v.strip()`: only a str has the method. */
  function PyStrip(v: Json): (r: Result<string, PyError>)
    ensures r.Success? <==> v.JString?
  {
    match v
    case JString(s) => Success(Strip(s))
    case _ => Failure(AttributeError)
  }
}

=== FILE: key_terms.dfy ===
/** `extract_key_terms`: the capitalised phrases `re.findall` finds with the
    pattern `\b[A-Z][a-z]+(?:\s+[A-Z][a-z]+)*\b`, filtered by length and a
    stop-word list, collected into a set. The regular expression is modelled
    by the match it produces: every `[a-z]+` and `\s+` takes its whole run, and
    the repetition backs off one phrase word when the closing `\b` fails. */
module KeyTerms {
  import opened PyStr
  import opened Wrappers
  import opened Findall

  /** The end of the whitespace run that starts at `i`. */
  function SpaceEnd(t: string, i: nat): (e: nat)
    requires i <= |t|
    ensures i <= e <= |t|
    ensures forall k :: i <= k < e ==> IsSpace(t[k])
    ensures e == |t| || !IsSpace(t[e])
    decreases |t| - i
  {
    if i < |t| && IsSpace(t[i]) then SpaceEnd(t, i + 1) else i
  }

  /** The end of the run of lower-case letters that starts at `i`. */
  function LowerEnd(t: string, i: nat): (e: nat)
    requires i <= |t|
    ensures i <= e <= |t|
    ensures forall k :: i <= k < e ==> IsLowerChar(t[k])
    ensures e == |t| || !IsLowerChar(t[e])
    decreases |t| - i
  {
    if i < |t| && IsLowerChar(t[i]) then LowerEnd(t, i + 1) else i
  }

  /** The characters of `t[a..b]` are letters or whitespace. */
  predicate PhraseChars(t: string, a: nat, b: nat)
    requires a <= b <= |t|
  {
    forall j :: a <= j < b ==> IsAsciiLetter(t[j]) || IsSpace(t[j])
  }

  /** `[A-Z][a-z]+` at `i`; the lower-case run is taken whole. */
  function CapWordEnd(t: string, i: nat): (r: Option<nat>)
    requires i <= |t|
    ensures r.Some? ==> i + 2 <= r.value <= |t| && IsUpperChar(t[i]) && IsLowerChar(t[r.value - 1])
    ensures r.Some? ==> PhraseChars(t, i, r.value)
    ensures r.Some? ==> r.value == |t| || !IsLowerChar(t[r.value])
    ensures r.None? <==> !(i + 1 < |t| && IsUpperChar(t[i]) && IsLowerChar(t[i + 1]))
  {
    if i + 1 < |t| && IsUpperChar(t[i]) && IsLowerChar(t[i + 1]) then Some(LowerEnd(t, i + 1)) else None
  }

  /** The character at `j` may follow the one before it inside a match of
      `[A-Z][a-z]+(?:\s+[A-Z][a-z]+)*`: a capital after whitespace, a lower-case
      letter after a letter, whitespace after a lower-case letter or whitespace. */
  predicate Follows(t: string, j: nat)
    requires 0 < j < |t|
  {
    || (IsUpperChar(t[j]) && IsSpace(t[j - 1]))
    || (IsLowerChar(t[j]) && IsAsciiLetter(t[j - 1]))
    || (IsSpace(t[j]) && (IsLowerChar(t[j - 1]) || IsSpace(t[j - 1])))
  }

  /** `t[i..e]` is in the language of `[A-Z][a-z]+(?:\s+[A-Z][a-z]+)*`. */
  predicate PhraseShape(t: string, i: nat, e: nat)
    requires i <= e <= |t|
  {
    i < e && IsUpperChar(t[i]) && IsLowerChar(t[e - 1]) && forall j :: i < j < e ==> Follows(t, j)
  }

  /** The whole key-term pattern, both `\b` included, matches `t[i..e]`. */
  predicate PatternMatches(t: string, i: nat, e: nat)
    requires i <= e <= |t|
  {
    Boundary(t, i) && PhraseShape(t, i, e) && Boundary(t, e)
  }

  /** The end of the next capitalised word reached from `e` over a whitespace
      run, as one more round of `(?:\s+[A-Z][a-z]+)` does it. */
  function NextEnd(t: string, e: nat): (r: Option<nat>)
    requires e <= |t|
    ensures r.Some? ==> e < r.value <= |t| && IsLowerChar(t[r.value - 1])
    ensures r.Some? ==> r.value == |t| || !IsLowerChar(t[r.value])
    ensures r.Some? ==> e < |t| && IsSpace(t[e])
  {
    var s := SpaceEnd(t, e);
    if s > e then CapWordEnd(t, s) else None
  }

  /** The end the pattern settles on for a phrase whose words so far end at
      `e`: the greedy repetition takes every further word it can, and backs
      off one word at a time until the closing `\b` holds. */
  function PickEnd(t: string, e: nat): (r: Option<nat>)
    requires 0 < e <= |t| && IsLowerChar(t[e - 1])
    ensures r.Some? ==> e <= r.value <= |t| && IsLowerChar(t[r.value - 1]) && Boundary(t, r.value)
    decreases |t| - e
  {
    match NextEnd(t, e)
    case Some(e2) =>
      if PickEnd(t, e2).Some? then PickEnd(t, e2)
      else if Boundary(t, e) then Some(e) else None
    case None =>
      if Boundary(t, e) then Some(e) else None
  }

  lemma SpaceIsNotWordChar(c: char)
    requires IsSpace(c)
    ensures !IsWordChar(c)
  {
  }

  /** A capitalised word is a phrase. */
  lemma FirstWordShape(t: string, i: nat, first: nat)
    requires i <= |t| && CapWordEnd(t, i) == Some(first)
    ensures PhraseShape(t, i, first)
  {
    forall j | i < j < first ensures Follows(t, j) {
    }
  }

  /** A phrase followed by one more round of the repetition is a phrase. */
  lemma ShapeExtends(t: string, i: nat, e: nat, e2: nat)
    requires i < e <= |t| && PhraseShape(t, i, e) && NextEnd(t, e) == Some(e2)
    ensures PhraseShape(t, i, e2)
  {
    var s := SpaceEnd(t, e);
    forall j | i < j < e2 ensures Follows(t, j) {
      assert j < e ==> Follows(t, j);
    }
  }

  /** A phrase holds only letters and whitespace. */
  lemma ShapeChars(t: string, i: nat, e: nat)
    requires i <= e <= |t| && PhraseShape(t, i, e)
    ensures PhraseChars(t, i, e)
  {
    forall j | i < e && i <= j < e ensures IsAsciiLetter(t[j]) || IsSpace(t[j]) {
      assert j > i ==> Follows(t, j);
    }
  }

  /** The end picked for a phrase from `i` closes a phrase from `i`. */
  lemma {:induction false} PickEndIsSound(t: string, i: nat, e: nat)
    requires i < e <= |t| && PhraseShape(t, i, e)
    ensures PickEnd(t, e).Some? ==> PhraseShape(t, i, PickEnd(t, e).value)
    decreases |t| - e
  {
    match NextEnd(t, e)
    case Some(e2) =>
      if PickEnd(t, e2).Some? {
        ShapeExtends(t, i, e, e2);
        PickEndIsSound(t, i, e2);
      }
    case None =>
  }

  /** The end of the match of the key-term pattern at `i`, if the pattern
      matches there: the longest phrase that closes on a word boundary. */
  function MatchEnd(t: string, i: nat): (r: Option<nat>)
    requires i <= |t|
    ensures r.Some? ==> i + 2 <= r.value <= |t| && IsUpperChar(t[i]) && IsLowerChar(t[r.value - 1])
    ensures r.Some? ==> Boundary(t, i) && Boundary(t, r.value) && PhraseChars(t, i, r.value)
  {
    if !Boundary(t, i) then None
    else
      match CapWordEnd(t, i)
      case None => None
      case Some(first) =>
        var r := PickEnd(t, first);
        if r.None? then None
        else
          FirstWordShape(t, i, first);
          PickEndIsSound(t, i, first);
          ShapeChars(t, i, r.value);
          r
  }

  /** A phrase that goes on past the end `e` of a word continues with
      whitespace and a further capitalised word that ends no later than it. */
  lemma NextWord(t: string, e: nat, x: nat)
    requires 0 < e < x <= |t| && IsLowerChar(t[e - 1]) && !IsLowerChar(t[e])
    requires IsLowerChar(t[x - 1]) && (x == |t| || !IsLowerChar(t[x]))
    requires forall j :: e <= j < x ==> Follows(t, j)
    ensures NextEnd(t, e).Some? && NextEnd(t, e).value <= x
  {
    assert Follows(t, e);
    assert IsSpace(t[e]);
    var s := SpaceEnd(t, e);
    assert !IsSpace(t[x - 1]);
    assert s <= x - 1;
    assert Follows(t, s);
    assert IsUpperChar(t[s]);
    assert Follows(t, s + 1);
    assert IsLowerChar(t[s + 1]);
  }

  /** A lower-case letter next to a boundary is the last of its run. */
  lemma BoundaryEndsRun(t: string, x: nat)
    requires 0 < x <= |t| && IsLowerChar(t[x - 1]) && Boundary(t, x)
    ensures x == |t| || !IsLowerChar(t[x])
  {
  }

  /** Every phrase from `i` that runs on from a word end `e` and closes on a
      boundary ends no later than the end picked for `e`. */
  lemma {:induction false} PickEndIsComplete(t: string, i: nat, e: nat, x: nat)
    requires i < e <= x <= |t| && PhraseShape(t, i, e) && (e == |t| || !IsLowerChar(t[e]))
    requires PhraseShape(t, i, x) && Boundary(t, x)
    ensures PickEnd(t, e).Some? && x <= PickEnd(t, e).value
    decreases |t| - e
  {
    if x > e {
      BoundaryEndsRun(t, x);
      assert forall j :: e <= j < x ==> Follows(t, j);
      NextWord(t, e, x);
      var e2 := NextEnd(t, e).value;
      ShapeExtends(t, i, e, e2);
      PickEndIsComplete(t, i, e2, x);
    } else if NextEnd(t, e).Some? {
      var e2 := NextEnd(t, e).value;
      assert PickEnd(t, e2).Some? || Boundary(t, e);
    }
  }

  /** A match from `i` runs at least to the end of its first word. */
  lemma MatchCoversFirstWord(t: string, i: nat, first: nat, x: nat)
    requires i <= x <= |t| && CapWordEnd(t, i) == Some(first) && PatternMatches(t, i, x)
    ensures first <= x
  {
    assert IsLowerChar(t[x - 1]);
    assert i + 1 < x;
  }

  /** Without a capitalised word at `i` the pattern matches nowhere from `i`. */
  lemma NoCapWordNoMatch(t: string, i: nat, x: nat)
    requires i <= x <= |t| && CapWordEnd(t, i).None?
    ensures !PatternMatches(t, i, x)
  {
    assert PatternMatches(t, i, x) ==> Follows(t, i + 1);
  }

  /** The match `MatchEnd` finds is the one `re` finds: the pattern matches
      `t[i..e]` for the end it reports and for no later end, and it reports
      nothing exactly when the pattern matches no `t[i..x]`. */
  lemma MatchEndIsLongest(t: string, i: nat)
    requires i <= |t|
    ensures MatchEnd(t, i).Some? ==> PatternMatches(t, i, MatchEnd(t, i).value)
    ensures MatchEnd(t, i).Some? ==> forall x :: i <= x <= |t| && PatternMatches(t, i, x) ==> x <= MatchEnd(t, i).value
    ensures MatchEnd(t, i).None? <==> forall x :: i <= x <= |t| ==> !PatternMatches(t, i, x)
  {
    if !Boundary(t, i) {
    } else if CapWordEnd(t, i).None? {
      forall x | i <= x <= |t| ensures !PatternMatches(t, i, x) {
        NoCapWordNoMatch(t, i, x);
      }
    } else {
      var first := CapWordEnd(t, i).value;
      assert MatchEnd(t, i) == PickEnd(t, first);
      FirstWordShape(t, i, first);
      PickEndIsSound(t, i, first);
      forall x | i <= x <= |t| && PatternMatches(t, i, x)
        ensures PickEnd(t, first).Some? && x <= PickEnd(t, first).value
      {
        MatchCoversFirstWord(t, i, first, x);
        PickEndIsComplete(t, i, first, x);
      }
      if PickEnd(t, first).Some? {
        assert PatternMatches(t, i, PickEnd(t, first).value);
      }
    }
  }

  /** `m` occurs in `t` at or after `i`, with a word boundary on both sides. */
  predicate FoundFrom(t: string, m: string, i: nat) {
    exists p | i <= p <= |t| - |m| :: OccursAt(t, m, p) && Boundary(t, p) && Boundary(t, p + |m|)
  }

  /** A capitalised phrase: an upper-case first letter, a lower-case last
      letter, nothing but letters and whitespace. */
  predicate IsPhrase(m: string) {
    && |m| >= 2 && IsUpperChar(m[0]) && IsLowerChar(m[|m| - 1])
    && forall j :: 0 <= j < |m| ==> IsAsciiLetter(m[j]) || IsSpace(m[j])
  }

  lemma FoundFromEarlier(t: string, m: string, i: nat, e: nat)
    requires i <= e && FoundFrom(t, m, e)
    ensures FoundFrom(t, m, i)
  {
    var p :| e <= p <= |t| - |m| && OccursAt(t, m, p) && Boundary(t, p) && Boundary(t, p + |m|);
  }

  /** The text of a match is a capitalised phrase found at its start. */
  lemma MatchIsPhrase(t: string, i: nat, e: nat)
    requires i <= |t| && MatchEnd(t, i) == Some(e)
    ensures IsPhrase(t[i..e]) && FoundFrom(t, t[i..e], i)
  {
    var m := t[i..e];
    assert OccursAt(t, m, i);
    forall j | 0 <= j < |m| ensures IsAsciiLetter(m[j]) || IsSpace(m[j]) {
      assert m[j] == t[i + j];
    }
  }

  /** The match of the key-term pattern at each position of `t`. */
  function MatchTable(t: string): (m: seq<Option<nat>>)
    ensures |m| == |t| && ValidTable(m)
    ensures forall p :: 0 <= p < |t| ==> m[p] == MatchEnd(t, p)
  {
    seq(|t|, p requires 0 <= p < |t| => MatchEnd(t, p))
  }

  /** The matches `re.findall` makes from position `i` on. */
  function MatchSpans(t: string, i: nat): (r: seq<Span>)
    requires i <= |t|
    ensures forall k :: 0 <= k < |r| ==> i <= r[k].start < r[k].end <= |t|
  {
    Scan(MatchTable(t), i)
  }

  /** `MatchSpans` is `re.findall`: each span is the longest match at its
      start, the spans come in order without overlapping, and every position
      where the pattern matches starts a span or lies inside one. */
  lemma MatchSpansAreFindall(t: string, i: nat)
    requires i <= |t|
    ensures var r := MatchSpans(t, i);
      && (forall k :: 0 <= k < |r| ==> MatchEnd(t, r[k].start) == Some(r[k].end))
      && (forall j, k :: 0 <= j < k < |r| ==> r[j].end <= r[k].start)
      && (forall p :: i <= p <= |t| && MatchEnd(t, p).Some? ==> Covered(r, p))
  {
    var m := MatchTable(t);
    var r := MatchSpans(t, i);
    forall k | 0 <= k < |r| ensures MatchEnd(t, r[k].start) == Some(r[k].end) {
      ScanIsMatch(m, i, k);
    }
    forall j, k | 0 <= j < k < |r| ensures r[j].end <= r[k].start {
      ScanInOrder(m, i, j, k);
    }
    forall p | i <= p <= |t| && MatchEnd(t, p).Some? ensures Covered(r, p) {
      ScanCovers(m, i, p);
    }
  }

  /** The text of each span from `i` on is a capitalised phrase found there. */
  lemma SpansArePhrases(t: string, i: nat)
    requires i <= |t|
    ensures var spans := MatchSpans(t, i);
      forall k :: 0 <= k < |spans| ==>
        IsPhrase(t[spans[k].start..spans[k].end]) && FoundFrom(t, t[spans[k].start..spans[k].end], i)
  {
    var spans := MatchSpans(t, i);
    forall k | 0 <= k < |spans|
      ensures IsPhrase(t[spans[k].start..spans[k].end]) && FoundFrom(t, t[spans[k].start..spans[k].end], i)
    {
      ScanIsMatch(MatchTable(t), i, k);
      MatchIsPhrase(t, spans[k].start, spans[k].end);
      FoundFromEarlier(t, t[spans[k].start..spans[k].end], i, spans[k].start);
    }
  }

  /** `re.findall` of the key-term pattern from position `i` on: the texts of
      the matched spans, in order. */
  function MatchesFrom(t: string, i: nat): (r: seq<string>)
    requires i <= |t|
    ensures |r| == |MatchSpans(t, i)|
    ensures forall k :: 0 <= k < |r| ==> r[k] == t[MatchSpans(t, i)[k].start..MatchSpans(t, i)[k].end]
    ensures forall k :: 0 <= k < |r| ==> IsPhrase(r[k]) && FoundFrom(t, r[k], i)
  {
    var spans := MatchSpans(t, i);
    SpansArePhrases(t, i);
    seq(|spans|, k requires 0 <= k < |spans| => t[spans[k].start..spans[k].end])
  }

  /** `re.findall(r'\b[A-Z][a-z]+(?:\s+[A-Z][a-z]+)*\b', text)`. */
  function KeyTermMatches(text: string): seq<string> {
    MatchesFrom(text, 0)
  }

  /** A word whose lower-case form is one of the four stop words. */
  predicate IsStopWord(w: string) {
    var l := Lower(w);
    l == "the" || l == "and" || l == "for" || l == "with"
  }

  /** The filter `extract_key_terms` applies to each match. */
  predicate KeptTerm(w: string) {
    3 <= |w| <= 30 && !IsStopWord(w)
  }

  /** `extract_key_terms`: the distinct matches passing the filter. The source
      returns them as a list in the iteration order of a set, which the model
      leaves to the caller. */
  function ExtractKeyTerms(text: string): (r: set<string>)
    ensures forall w :: w in r <==> w in KeyTermMatches(text) && KeptTerm(w)
    ensures forall w | w in r :: IsPhrase(w) && FoundFrom(text, w, 0)
  {
    var matches := KeyTermMatches(text);
    set w | w in matches && KeptTerm(w)
  }
}

=== FILE: llm_output.dfy ===
/** Post-processing of raw model output before JSON decoding, shared by the quiz
    and flashcard generators (their `clean_json_response` methods are the same
    code): remove Markdown code fences, then cut the text down to the span from
    the first `[` to the last `]`. */
module LlmOutput {
  import opened PyStr
  import opened Wrappers

  /** `re.sub(marker + '\n?', '', s)` for a literal `marker`: every occurrence,
      scanning left to right without overlap, is deleted together with one
      newline right after it. */
  function RemoveMarker(s: string, marker: string): string
    requires |marker| > 0
    decreases |s|
  {
    if |s| == 0 then []
    else if StartsWith(s, marker) then
      var rest := s[|marker|..];
      RemoveMarker(if |rest| > 0 && rest[0] == '\n' then rest[1..] else rest, marker)
    else [s[0]] + RemoveMarker(s[1..], marker)
  }

  const Fence: string := "```"
  const JsonFence: string := "```json"

  /** The two substitutions at the head of `clean_json_response`. */
  function StripFences(s: string): string {
    RemoveMarker(RemoveMarker(s, JsonFence), Fence)
  }

  /** The first `[` and the last `]` of `t`, when that `]` comes after that `[`. */
  function BracketBounds(t: string): (r: Option<(nat, nat)>)
    ensures r.Some? ==>
      && r.value.0 < r.value.1 < |t|
      && t[r.value.0] == '[' && t[r.value.1] == ']'
      && (forall k :: 0 <= k < r.value.0 ==> t[k] != '[')
      && (forall k :: r.value.1 < k < |t| ==> t[k] != ']')
    ensures r.None? <==> forall i, j :: 0 <= i < j < |t| && t[i] == '[' ==> t[j] != ']'
  {
    var start := Find(t, '[');
    var end := RFind(t, ']') + 1;
    if start != -1 && end > start then
      Some((start, end - 1))
    else
      assert forall i, j :: 0 <= i < j < |t| && t[i] == '[' ==> t[j] != ']' by {
        forall i, j | 0 <= i < j < |t| && t[i] == '[' ensures t[j] != ']' {
          assert HasChar(t, '[');
        }
      }
      None
  }

  /** `clean_json_response`: the fence-free text, cut to the span from its first
      `[` to its last `]` when such a span exists, and otherwise left whole. */
  function CleanJsonResponse(text: string): (r: string)
    ensures var t := StripFences(text);
      match BracketBounds(t)
      case Some((i, j)) => r == t[i..j + 1] && r[0] == '[' && r[|r| - 1] == ']'
      case None => r == t
  {
    var t := StripFences(text);
    match BracketBounds(t)
    case Some((i, j)) =>
      SliceEnds(t, i, j);
      t[i..j + 1]
    case None => t
  }

  /** A slice from `i` through `j` starts with `t[i]` and ends with `t[j]`. */
  lemma SliceEnds(t: string, i: nat, j: nat)
    requires i <= j < |t|
    ensures |t[i..j + 1]| == j + 1 - i && t[i..j + 1][0] == t[i] && t[i..j + 1][j - i] == t[j]
  {
  }

  // ---------------------------------------------------------------------------
  // Facts about fence removal

  /** Deleting a marker from a text that does not contain it changes nothing. */
  lemma {:induction false} RemoveMarkerAbsent(s: string, marker: string)
    requires |marker| > 0 && !Contains(s, marker)
    ensures RemoveMarker(s, marker) == s
    decreases |s|
  {
    if |s| > 0 {
      assert !StartsWith(s, marker) by {
        if |marker| <= |s| {
          assert !OccursAt(s, marker, 0);
        }
      }
      forall p | 0 <= p <= |s[1..]| - |marker|
        ensures !OccursAt(s[1..], marker, p)
      {
        assert s[1..][p..p + |marker|] == s[p + 1..p + 1 + |marker|];
        assert !OccursAt(s, marker, p + 1);
      }
      RemoveMarkerAbsent(s[1..], marker);
    }
  }

  /** When the backtick-fence pass leaves two backticks in front, the text it was
      applied to started with two backticks. */
  lemma FenceRemovalHead(t: string)
    ensures var r := RemoveMarker(t, Fence);
      |r| >= 2 && r[0] == '`' && r[1] == '`' ==> |t| >= 2 && t[0] == '`' && t[1] == '`'
  {
    var r := RemoveMarker(t, Fence);
    if |r| >= 2 && r[0] == '`' && r[1] == '`' && !StartsWith(t, Fence) {
      assert r == [t[0]] + RemoveMarker(t[1..], Fence);
      var u := t[1..];
      assert |RemoveMarker(u, Fence)| >= 1;
      if !StartsWith(u, Fence) {
        assert RemoveMarker(u, Fence) == [u[0]] + RemoveMarker(u[1..], Fence);
      }
    }
  }

  /** No "```" survives the second substitution, whatever the input. */
  lemma {:induction false} NoFenceSurvives(s: string)
    ensures !Contains(RemoveMarker(s, Fence), Fence)
    decreases |s|
  {
    if |s| == 0 {
    } else if StartsWith(s, Fence) {
      var rest := s[|Fence|..];
      NoFenceSurvives(if |rest| > 0 && rest[0] == '\n' then rest[1..] else rest);
    } else {
      var tail := RemoveMarker(s[1..], Fence);
      NoFenceSurvives(s[1..]);
      var r := RemoveMarker(s, Fence);
      assert r == [s[0]] + tail;
      forall p | 0 <= p <= |r| - |Fence|
        ensures !OccursAt(r, Fence, p)
      {
        if p > 0 {
          assert r[p..p + 3] == tail[p - 1..p + 2];
          assert !OccursAt(tail, Fence, p - 1);
        } else {
          FenceRemovalHead(s[1..]);
        }
      }
    }
  }

  /** Every "```json" starts with "```". */
  lemma JsonFenceStartsWithFence(s: string, p: int)
    ensures OccursAt(s, JsonFence, p) ==> OccursAt(s, Fence, p)
  {
    if OccursAt(s, JsonFence, p) {
      assert s[p..p + 3] == s[p..p + 7][..3];
    }
  }

  /** A text without "```" has no "```json" either. */
  lemma NoJsonFenceWithoutFence(s: string)
    requires !Contains(s, Fence)
    ensures !Contains(s, JsonFence)
  {
    forall p | 0 <= p <= |s| - |JsonFence|
      ensures !OccursAt(s, JsonFence, p)
    {
      JsonFenceStartsWithFence(s, p);
    }
  }

  /** A slice of a text without `sub` does not contain `sub` either. */
  lemma AbsentFromSlice(t: string, a: nat, b: nat, sub: string)
    requires a <= b <= |t| && !Contains(t, sub)
    ensures !Contains(t[a..b], sub)
  {
    forall p | 0 <= p <= |t[a..b]| - |sub|
      ensures !OccursAt(t[a..b], sub, p)
    {
      var u := t[a..b];
      assert a + p + |sub| <= b;
      var v, w := u[p..p + |sub|], t[a + p..a + p + |sub|];
      forall k | 0 <= k < |sub|
        ensures v[k] == w[k]
      {
        assert u[p + k] == t[a + p + k];
      }
      assert v == w;
      assert !OccursAt(t, sub, a + p);
    }
  }

  /** The cleaned text never contains a code fence. */
  lemma CleanJsonResponseHasNoFence(text: string)
    ensures !Contains(CleanJsonResponse(text), Fence)
  {
    NoFenceSurvives(RemoveMarker(text, JsonFence));
    var a, b := CleanIsSlice(text);
    AbsentFromSlice(StripFences(text), a, b, Fence);
  }

  /** The cleaned text is a slice of the fence-free text. */
  lemma CleanIsSlice(text: string) returns (a: nat, b: nat)
    ensures a <= b <= |StripFences(text)| && CleanJsonResponse(text) == StripFences(text)[a..b]
  {
    var t := StripFences(text);
    match BracketBounds(t)
    case Some((i, j)) =>
      a, b := i, j + 1;
    case None =>
      a, b := 0, |t|;
      assert t[0..|t|] == t;
  }

  /** Cleaning is idempotent: cleaning its own output changes nothing. */
  lemma CleanJsonResponseIdempotent(text: string)
    ensures CleanJsonResponse(CleanJsonResponse(text)) == CleanJsonResponse(text)
  {
    var r := CleanJsonResponse(text);
    CleanHasNoFences(text);
    var t := StripFences(text);
    match BracketBounds(t)
    case Some((i, j)) =>
      BracketedIsFixed(r);
    case None =>
      assert r == t;
  }

  /** The fence substitutions leave cleaned text alone. */
  lemma CleanHasNoFences(text: string)
    ensures StripFences(CleanJsonResponse(text)) == CleanJsonResponse(text)
  {
    var r := CleanJsonResponse(text);
    CleanJsonResponseHasNoFence(text);
    NoJsonFenceWithoutFence(r);
    RemoveMarkerAbsent(r, JsonFence);
    RemoveMarkerAbsent(r, Fence);
  }

  /** A text that starts with `[` and ends with `]` is its own bracket span. */
  lemma BracketedIsFixed(r: string)
    requires StripFences(r) == r
    requires |r| > 0 && r[0] == '[' && r[|r| - 1] == ']'
    ensures CleanJsonResponse(r) == r
  {
    var b := BracketBounds(r);
    assert b.Some? by {
      assert r[0] == '[' && r[|r| - 1] == ']';
      if |r| == 1 {
        assert r[0] != ']';
      }
    }
    assert b.value.0 == 0;
    assert b.value.1 == |r| - 1;
    assert r[0..|r|] == r;
  }
}

=== FILE: pystr.dfy ===
/** The small part of Python's `str` behaviour the modelled code relies on:
    whitespace, `strip`, `split`, `join`, ASCII case mapping, substring search,
    prefix slicing with Python's negative-index rule, and decimal rendering. */
module PyStr {

  /** The characters for which Python's `str.isspace()` holds; the `\s` class of
      the `re` module on `str` patterns matches exactly these. */
  predicate IsSpace(c: char) {
    if c <= ' ' then c == ' ' || ('\t' <= c <= '\r') || ('\U{1C}' <= c <= '\U{1F}')
    else '\U{85}' <= c && IsWideSpace(c)
  }

  /** The whitespace characters beyond ASCII. */
  predicate IsWideSpace(c: char) {
    || c == '\U{85}' || c == '\U{A0}' || c == '\U{1680}' || ('\U{2000}' <= c <= '\U{200A}')
    || c == '\U{2028}' || c == '\U{2029}' || c == '\U{202F}' || c == '\U{205F}' || c == '\U{3000}'
  }

  predicate NotSpace(c: char) {
    !IsSpace(c)
  }

  predicate AllSpace(s: string) {
    forall i :: 0 <= i < |s| ==> IsSpace(s[i])
  }

  // ---------------------------------------------------------------------------
  // strip

  /** `s.lstrip(chars)` where `drop` says which characters are stripped. */
  function TrimLeft(s: string, drop: char -> bool): (r: string)
    ensures |r| <= |s| && r == s[|s| - |r|..]
    ensures r == [] || !drop(r[0])
    ensures forall i :: 0 <= i < |s| - |r| ==> drop(s[i])
    decreases |s|
  {
    if |s| > 0 && drop(s[0]) then TrimLeft(s[1..], drop) else s
  }

  /** `s.rstrip(chars)` where `drop` says which characters are stripped. */
  function TrimRight(s: string, drop: char -> bool): (r: string)
    ensures |r| <= |s| && r == s[..|r|]
    ensures r == [] || !drop(r[|r| - 1])
    ensures forall i :: |r| <= i < |s| ==> drop(s[i])
    decreases |s|
  {
    if |s| > 0 && drop(s[|s| - 1]) then TrimRight(s[..|s| - 1], drop) else s
  }

  /** `s.strip(chars)`. */
  function Trim(s: string, drop: char -> bool): string {
    TrimRight(TrimLeft(s, drop), drop)
  }

  /** `s.strip()` with no argument: strips Python whitespace. */
  function Strip(s: string): string {
    Trim(s, IsSpace)
  }

  /** Stripping whitespace leaves nothing exactly when the text is all whitespace. */
  lemma StripEmptyIffAllSpace(s: string)
    ensures Strip(s) == [] <==> AllSpace(s)
  {
    var l := TrimLeft(s, IsSpace);
    if l != [] {
      assert !IsSpace(l[0]);
      assert s[|s| - |l|] == l[0];
    }
  }

  /** Stripping does not touch a text whose ends are not strippable. */
  lemma TrimUnchanged(s: string, drop: char -> bool)
    requires s != [] ==> !drop(s[0]) && !drop(s[|s| - 1])
    ensures Trim(s, drop) == s
  {
  }

  // ---------------------------------------------------------------------------
  // split

  /** A token of `str.split()`: non-empty and free of whitespace. */
  predicate IsWord(w: string) {
    |w| > 0 && forall i :: 0 <= i < |w| ==> !IsSpace(w[i])
  }

  /** Length of the longest prefix of `s` with no whitespace. */
  function RunLength(s: string): (k: nat)
    ensures k <= |s|
    ensures forall i :: 0 <= i < k ==> !IsSpace(s[i])
    ensures k < |s| ==> IsSpace(s[k])
  {
    if |s| == 0 || IsSpace(s[0]) then 0 else 1 + RunLength(s[1..])
  }

  /** `s.split()`: the maximal runs of non-whitespace characters, in order. */
  function Words(s: string): (ws: seq<string>)
    decreases |s|
  {
    var t := TrimLeft(s, IsSpace);
    if t == [] then []
    else
      var k := RunLength(t);
      assert k > 0;
      [t[..k]] + Words(t[k..])
  }

  /** Every piece of `s.split()` is a word. */
  lemma {:induction false} WordsAreWords(s: string)
    ensures forall i :: 0 <= i < |Words(s)| ==> IsWord(Words(s)[i])
    decreases |s|
  {
    var t := TrimLeft(s, IsSpace);
    if t != [] {
      var k := RunLength(t);
      WordAtFront(t);
      WordsAreWords(t[k..]);
      var rest := Words(t[k..]);
      var ws := [t[..k]] + rest;
      assert Words(s) == ws;
      forall i | 0 <= i < |ws| ensures IsWord(ws[i]) {
        if i > 0 {
          assert ws[i] == rest[i - 1];
        }
      }
    }
  }

  /** A text that starts with a non-space character starts with a word. */
  lemma WordAtFront(t: string)
    requires t != [] && !IsSpace(t[0])
    ensures RunLength(t) > 0 && IsWord(t[..RunLength(t)])
  {
    var k := RunLength(t);
    forall i | 0 <= i < k ensures !IsSpace(t[..k][i]) {
      assert t[..k][i] == t[i];
    }
  }

  /** `s.split()` is empty exactly when `s` is all whitespace. */
  lemma WordsEmptyIffAllSpace(s: string)
    ensures Words(s) == [] <==> AllSpace(s)
  {
    var t := TrimLeft(s, IsSpace);
    if t != [] {
      assert s[|s| - |t|] == t[0];
    }
  }

  // ---------------------------------------------------------------------------
  // join

  /** `sep.join(ws)`. */
  function Join(sep: string, ws: seq<string>): string
    decreases |ws|
  {
    if |ws| == 0 then []
    else if |ws| == 1 then ws[0]
    else ws[0] + sep + Join(sep, ws[1..])
  }

  /** Where part `i` starts in `sep.join(ws)`: after each earlier part and
      its separator. */
  function JoinOffset(sep: string, ws: seq<string>, i: nat): nat
    requires i <= |ws|
    decreases i
  {
    if i == 0 then 0 else |ws[0]| + |sep| + JoinOffset(sep, ws[1..], i - 1)
  }

  /** Each part of a join sits at its offset, and later parts start after the
      earlier ones end. */
  lemma {:induction false} JoinPlacesParts(sep: string, ws: seq<string>, i: nat)
    requires i < |ws|
    ensures OccursAt(Join(sep, ws), ws[i], JoinOffset(sep, ws, i))
    ensures i + 1 < |ws| ==> JoinOffset(sep, ws, i) + |ws[i]| + |sep| == JoinOffset(sep, ws, i + 1)
    decreases i
  {
    if i == 0 {
      if |ws| > 1 {
        OccursAtFront(ws[0], sep + Join(sep, ws[1..]));
        assert Join(sep, ws) == ws[0] + (sep + Join(sep, ws[1..]));
      } else {
        OccursAtFront(ws[0], []);
        assert ws[0] + [] == ws[0];
      }
    } else {
      var pre := ws[0] + sep;
      var rest := Join(sep, ws[1..]);
      JoinPlacesParts(sep, ws[1..], i - 1);
      assert ws[1..][i - 1] == ws[i];
      OccursAfter(pre, rest, ws[i], JoinOffset(sep, ws[1..], i - 1));
      assert Join(sep, ws) == pre + rest;
    }
  }

  /** A text occurs at the front of itself followed by anything. */
  lemma OccursAtFront(a: string, b: string)
    ensures OccursAt(a + b, a, 0)
  {
    assert (a + b)[..|a|] == a;
  }

  /** An occurrence in `rest` is one in `pre + rest`, shifted by `pre`. */
  lemma OccursAfter(pre: string, rest: string, sub: string, off: int)
    requires OccursAt(rest, sub, off)
    ensures OccursAt(pre + rest, sub, |pre| + off)
  {
    assert (pre + rest)[|pre| + off..|pre| + off + |sub|] == rest[off..off + |sub|];
  }

  /** Joining a part in front of at least one more. */
  lemma JoinCons(sep: string, w: string, ws: seq<string>)
    requires |ws| > 0
    ensures Join(sep, [w] + ws) == w + sep + Join(sep, ws)
  {
    assert ([w] + ws)[1..] == ws;
  }

  /** A join of words with single spaces neither starts nor ends with whitespace
      and is non-empty, so `.strip()` returns it unchanged. */
  lemma {:induction false} JoinWordsIsStripped(ws: seq<string>)
    requires |ws| > 0
    requires forall i :: 0 <= i < |ws| ==> IsWord(ws[i])
    ensures var j := Join(" ", ws);
      |j| > 0 && !IsSpace(j[0]) && !IsSpace(j[|j| - 1]) && Strip(j) == j
    decreases |ws|
  {
    var j := Join(" ", ws);
    if |ws| == 1 {
      assert j == ws[0];
    } else {
      JoinWordsIsStripped(ws[1..]);
      var rest := Join(" ", ws[1..]);
      assert j == ws[0] + " " + rest;
      assert j[0] == ws[0][0];
      assert j[|j| - 1] == rest[|rest| - 1];
    }
    TrimUnchanged(j, IsSpace);
  }

  /** `str.split()` undoes a single-space join of words. */
  lemma {:induction false} SplitJoinRoundTrip(ws: seq<string>)
    requires forall i :: 0 <= i < |ws| ==> IsWord(ws[i])
    ensures Words(Join(" ", ws)) == ws
    decreases |ws|
  {
    if |ws| == 0 {
      assert Words([]) == [];
    } else if |ws| == 1 {
      JoinOfOneWord(ws);
    } else {
      WordsOfTail(ws);
      SplitJoinRoundTrip(ws[1..]);
      JoinStepRoundTrip(ws);
    }
  }

  /** The round trip carries over from the tail to the whole sequence. */
  lemma JoinStepRoundTrip(ws: seq<string>)
    requires |ws| > 1 && IsWord(ws[0])
    requires Words(Join(" ", ws[1..])) == ws[1..]
    ensures Words(Join(" ", ws)) == ws
  {
    WordsOfJoinStep(ws);
    ConsOfTail(ws, Words(Join(" ", ws)), Words(Join(" ", ws[1..])));
  }

  /** A sequence is its head in front of its tail. */
  lemma ConsOfTail<T>(xs: seq<T>, a: seq<T>, b: seq<T>)
    requires |xs| > 0 && a == [xs[0]] + b && b == xs[1..]
    ensures a == xs
  {
    assert [xs[0]] + xs[1..] == xs;
  }

  lemma JoinOfOneWord(ws: seq<string>)
    requires |ws| == 1 && IsWord(ws[0])
    ensures Words(Join(" ", ws)) == ws
  {
    var w := ws[0];
    assert ws == [w];
    calc {
      Words(Join(" ", ws));
    == { JoinOfOne(" ", ws); }
      Words(w);
    == { WordsOfWord(w); }
      [w];
    }
  }

  /** Joining a single part gives that part. */
  lemma JoinOfOne(sep: string, ws: seq<string>)
    requires |ws| == 1
    ensures Join(sep, ws) == ws[0]
  {
  }

  lemma WordsOfTail(ws: seq<string>)
    requires |ws| > 0
    requires forall i :: 0 <= i < |ws| ==> IsWord(ws[i])
    ensures forall i :: 0 <= i < |ws| - 1 ==> IsWord(ws[1..][i])
  {
    forall i | 0 <= i < |ws| - 1 ensures IsWord(ws[1..][i]) {
      assert ws[1..][i] == ws[i + 1];
    }
  }

  lemma WordsOfWord(w: string)
    requires IsWord(w)
    ensures Words(w) == [w]
  {
    RunLengthOfSpaceless(w);
    assert TrimLeft(w, IsSpace) == w;
    assert w[..|w|] == w;
    assert w[|w|..] == [];
    assert Words([]) == [];
  }

  /** A text without whitespace is one run. */
  lemma {:induction false} RunLengthOfSpaceless(w: string)
    requires forall i :: 0 <= i < |w| ==> !IsSpace(w[i])
    ensures RunLength(w) == |w|
  {
    if |w| > 0 {
      assert forall i :: 0 <= i < |w| - 1 ==> w[1..][i] == w[i + 1];
      RunLengthOfSpaceless(w[1..]);
    }
  }

  lemma WordsOfJoinStep(ws: seq<string>)
    requires |ws| > 1 && IsWord(ws[0])
    ensures Words(Join(" ", ws)) == [ws[0]] + Words(Join(" ", ws[1..]))
  {
    var rest := Join(" ", ws[1..]);
    var tail := " " + rest;
    assert Join(" ", ws) == ws[0] + tail;
    WordsOfWordThen(ws[0], tail);
    WordsSkipsSpace(rest);
  }

  /** A word followed by text that starts with whitespace (or nothing) is split off whole. */
  lemma WordsOfWordThen(w: string, rest: string)
    requires IsWord(w)
    requires rest == [] || IsSpace(rest[0])
    ensures Words(w + rest) == [w] + Words(rest)
  {
    var s := w + rest;
    assert TrimLeft(s, IsSpace) == s;
    RunLengthOfWord(w, rest);
    assert s[..|w|] == w;
    assert s[|w|..] == rest;
  }

  lemma {:induction false} RunLengthOfWord(w: string, rest: string)
    requires forall i :: 0 <= i < |w| ==> !IsSpace(w[i])
    requires rest == [] || IsSpace(rest[0])
    ensures RunLength(w + rest) == |w|
    decreases |w|
  {
    if |w| > 0 {
      assert (w + rest)[1..] == w[1..] + rest;
      RunLengthOfWord(w[1..], rest);
    } else {
      assert w + rest == rest;
    }
  }

  lemma WordsSkipsSpace(rest: string)
    ensures Words(" " + rest) == Words(rest)
  {
    assert (" " + rest)[1..] == rest;
  }

  // ---------------------------------------------------------------------------
  // case mapping (ASCII letters only)

  function LowerChar(c: char): char {
    if 'A' <= c <= 'Z' then (c as int + 32) as char else c
  }

  function UpperChar(c: char): char {
    if 'a' <= c <= 'z' then (c as int - 32) as char else c
  }

  predicate IsLowerChar(c: char) {
    'a' <= c <= 'z'
  }

  predicate IsUpperChar(c: char) {
    'A' <= c <= 'Z'
  }

  predicate IsAsciiLetter(c: char) {
    IsLowerChar(c) || IsUpperChar(c)
  }

  /** The `\w` class of the `re` module, restricted to ASCII: letters, digits and `_`. */
  predicate IsWordChar(c: char) {
    IsAsciiLetter(c) || ('0' <= c <= '9') || c == '_'
  }

  /** `s.lower()`. */
  function Lower(s: string): (r: string)
    ensures |r| == |s|
    ensures forall i :: 0 <= i < |s| ==> r[i] == LowerChar(s[i])
  {
    seq(|s|, i requires 0 <= i < |s| => LowerChar(s[i]))
  }

  /** `s.capitalize()`: the first character upper-cased, the rest lower-cased. */
  function Capitalize(s: string): (r: string)
    ensures |r| == |s|
    ensures |s| > 0 ==> r[0] == UpperChar(s[0]) && r[1..] == Lower(s[1..])
  {
    if |s| == 0 then [] else [UpperChar(s[0])] + Lower(s[1..])
  }

  /** Capitalizing a capitalized text changes nothing. */
  lemma CapitalizeIdempotent(s: string)
    ensures Capitalize(Capitalize(s)) == Capitalize(s)
  {
    var c := Capitalize(s);
    if |s| > 0 {
      assert Lower(c[1..]) == c[1..];
      assert UpperChar(c[0]) == c[0];
      assert c == [c[0]] + c[1..];
    }
  }

  // ---------------------------------------------------------------------------
  // search

  predicate StartsWith(s: string, p: string) {
    |p| <= |s| && s[..|p|] == p
  }

  predicate EndsWith(s: string, p: string) {
    |p| <= |s| && s[|s| - |p|..] == p
  }

  /** `sub` occurs in `s` starting at index `i`. */
  predicate OccursAt(s: string, sub: string, i: int) {
    0 <= i && i + |sub| <= |s| && s[i..i + |sub|] == sub
  }

  /** `sub in s`. */
  predicate Contains(s: string, sub: string) {
    exists i | 0 <= i <= |s| - |sub| :: OccursAt(s, sub, i)
  }

  /** A text contains every text it is built around. */
  lemma ContainsMiddle(a: string, sub: string, b: string)
    ensures Contains(a + sub + b, sub)
  {
    var s := a + sub + b;
    assert OccursAt(s, sub, |a|);
  }

  predicate HasChar(s: string, c: char) {
    c in s
  }

  /** `s.find(c)`: the first index of `c`, or -1. */
  function Find(s: string, c: char): (r: int)
    ensures -1 <= r < |s|
    ensures r == -1 <==> !HasChar(s, c)
    ensures r >= 0 ==> s[r] == c && forall i :: 0 <= i < r ==> s[i] != c
  {
    if |s| == 0 then -1
    else if s[0] == c then 0
    else
      var k := Find(s[1..], c);
      assert forall i :: 0 <= i < |s| - 1 ==> s[1..][i] == s[i + 1];
      if k == -1 then -1 else k + 1
  }

  /** `s.rfind(c)`: the last index of `c`, or -1. */
  function RFind(s: string, c: char): (r: int)
    ensures -1 <= r < |s|
    ensures r == -1 <==> !HasChar(s, c)
    ensures r >= 0 ==> s[r] == c && forall i :: r < i < |s| ==> s[i] != c
  {
    if |s| == 0 then -1
    else if s[|s| - 1] == c then |s| - 1
    else RFind(s[..|s| - 1], c)
  }

  /** `s.split(sep)` for a one-character separator: the pieces between
      separators, empty ones included. */
  function SplitOn(s: string, sep: char): (r: seq<string>)
    ensures |r| >= 1
    ensures forall k :: 0 <= k < |r| ==> sep !in r[k]
    decreases |s|
  {
    var i := Find(s, sep);
    if i == -1 then [s]
    else
      assert sep !in s[..i] by {
        forall j | 0 <= j < i ensures s[..i][j] != sep {
        }
      }
      [s[..i]] + SplitOn(s[i + 1..], sep)
  }

  /** Joining the pieces of a split with the separator gives back the text. */
  lemma {:induction false} SplitOnJoin(s: string, sep: char)
    ensures Join([sep], SplitOn(s, sep)) == s
    decreases |s|
  {
    var i := Find(s, sep);
    if i == -1 {
      assert SplitOn(s, sep) == [s];
    } else {
      var head, tail := s[..i], s[i + 1..];
      assert s == head + [sep] + tail;
      SplitOnJoin(tail, sep);
      var rest := SplitOn(tail, sep);
      assert SplitOn(s, sep) == [head] + rest;
      JoinCons([sep], head, rest);
    }
  }

  /** `s.replace(c, '')`: every occurrence of `c` removed. */
  function RemoveChar(s: string, c: char): (r: string)
    ensures !HasChar(r, c)
    ensures |r| <= |s|
  {
    if |s| == 0 then []
    else if s[0] == c then RemoveChar(s[1..], c)
    else [s[0]] + RemoveChar(s[1..], c)
  }

  lemma RemoveCharAppend(a: string, b: string, c: char)
    ensures RemoveChar(a + b, c) == RemoveChar(a, c) + RemoveChar(b, c)
  {
    if |a| > 0 {
      assert (a + b)[1..] == a[1..] + b;
      RemoveCharAppend(a[1..], b, c);
    } else {
      assert a + b == b;
    }
  }

  lemma RemoveCharAbsent(s: string, c: char)
    requires c !in s
    ensures RemoveChar(s, c) == s
  {
  }

  /** The number of occurrences of `c` in `s`. */
  function CountChar(s: string, c: char): nat {
    if |s| == 0 then 0 else (if s[0] == c then 1 else 0) + CountChar(s[1..], c)
  }

  lemma CountCharZero(s: string, c: char)
    ensures CountChar(s, c) == 0 <==> !HasChar(s, c)
  {
    if |s| > 0 {
      CountCharZero(s[1..], c);
      if s[0] != c && HasChar(s, c) {
        var i :| 0 <= i < |s| && s[i] == c;
        assert s[1..][i - 1] == c;
      }
    }
  }

  lemma CountCharAppend(a: string, b: string, c: char)
    ensures CountChar(a + b, c) == CountChar(a, c) + CountChar(b, c)
  {
    if |a| > 0 {
      assert (a + b)[1..] == a[1..] + b;
      CountCharAppend(a[1..], b, c);
    } else {
      assert a + b == b;
    }
  }

  // ---------------------------------------------------------------------------
  // slicing

  /** The length of `s[:n]` for a sequence `s` of length `len`: `n` capped at
      `len`, or for a negative `n` that many fewer than `len`, but never less
      than none. */
  function SliceLength(len: nat, n: int): nat {
    if n >= 0 then (if n <= len then n else len)
    else (if len + n >= 0 then len + n else 0)
  }

  /** `s[:n]` with Python's rule that a negative `n` counts from the end. */
  function Take<T>(s: seq<T>, n: int): (r: seq<T>)
    ensures |r| == SliceLength(|s|, n)
    ensures n >= 0 ==> |r| == if n <= |s| then n else |s|
    ensures n < 0 ==> |r| == if |s| + n >= 0 then |s| + n else 0
    ensures r == s[..|r|]
  {
    if n >= 0 then (if n <= |s| then s[..n] else s)
    else (if |s| + n >= 0 then s[..|s| + n] else [])
  }

  // ---------------------------------------------------------------------------
  // decimal rendering

  function Digit(d: nat): char
    requires d < 10
  {
    "0123456789"[d]
  }

  /** `str(n)` for a natural number. */
  function NatToString(n: nat): (r: string)
    ensures |r| > 0
    ensures n < 10 <==> |r| == 1
    ensures forall i :: 0 <= i < |r| ==> '0' <= r[i] <= '9'
  {
    if n < 10 then [Digit(n)] else NatToString(n / 10) + [Digit(n % 10)]
  }

  /** Distinct numbers render as distinct texts. */
  lemma {:induction false} NatToStringInjective(a: nat, b: nat)
    requires NatToString(a) == NatToString(b)
    ensures a == b
  {
    if a >= 10 && b >= 10 {
      var sa, sb := NatToString(a), NatToString(b);
      assert sa[..|sa| - 1] == NatToString(a / 10);
      assert sb[..|sb| - 1] == NatToString(b / 10);
      NatToStringInjective(a / 10, b / 10);
      assert Digit(a % 10) == sa[|sa| - 1] == sb[|sb| - 1] == Digit(b % 10);
    } else if a < 10 && b < 10 {
      assert Digit(a) == Digit(b);
    }
  }

  // ---------------------------------------------------------------------------
  // filtering and subsequences

  function Filter<T>(s: seq<T>, keep: T -> bool): (r: seq<T>)
    ensures |r| <= |s|
    ensures forall i :: 0 <= i < |r| ==> keep(r[i])
  {
    if |s| == 0 then []
    else
      assert s == [s[0]] + s[1..];
      (if keep(s[0]) then [s[0]] else []) + Filter(s[1..], keep)
  }

  /** Filtering distributes over concatenation. */
  lemma {:induction false} FilterAppend<T>(a: seq<T>, b: seq<T>, keep: T -> bool)
    ensures Filter(a + b, keep) == Filter(a, keep) + Filter(b, keep)
  {
    if |a| > 0 {
      FilterAppend(a[1..], b, keep);
      var h := if keep(a[0]) then [a[0]] else [];
      assert (a + b)[0] == a[0];
      assert (a + b)[1..] == a[1..] + b;
      assert Filter(a + b, keep) == h + Filter(a[1..] + b, keep);
      assert Filter(a, keep) == h + Filter(a[1..], keep);
    } else {
      assert a + b == b;
    }
  }

  /** Filtering one more element of `s` adds that element when it is kept. */
  lemma FilterStep<T>(s: seq<T>, i: nat, keep: T -> bool)
    requires i < |s|
    ensures Filter(s[..i + 1], keep) == Filter(s[..i], keep) + (if keep(s[i]) then [s[i]] else [])
  {
    var a, b := s[..i], [s[i]];
    assert s[..i + 1] == a + b;
    FilterAppend(a, b, keep);
    assert b[1..] == [];
    assert Filter(b, keep) == (if keep(s[i]) then [s[i]] else []) + Filter([], keep);
  }

  /** Filtering drops everything when nothing is kept. */
  lemma {:induction false} FilterNone<T>(s: seq<T>, keep: T -> bool)
    requires forall i :: 0 <= i < |s| ==> !keep(s[i])
    ensures Filter(s, keep) == []
  {
    if |s| > 0 {
      FilterNone(s[1..], keep);
    }
  }

  /** Filtering only drops elements. */
  lemma {:induction false} FilterMultiset<T>(s: seq<T>, keep: T -> bool)
    ensures multiset(Filter(s, keep)) <= multiset(s)
  {
    if |s| > 0 {
      FilterMultiset(s[1..], keep);
      assert s == [s[0]] + s[1..];
    }
  }

  /** Filtering drops no element it keeps. */
  lemma {:induction false} FilterKeepsKept<T>(s: seq<T>, keep: T -> bool)
    ensures forall i :: 0 <= i < |s| && keep(s[i]) ==> s[i] in Filter(s, keep)
  {
    if |s| > 0 {
      FilterKeepsKept(s[1..], keep);
      assert forall i :: 1 <= i < |s| ==> s[i] == s[1..][i - 1];
    }
  }

  /** The test that an element falls in class `c`. */
  function InClass<T, C(==)>(cls: T -> C, c: C): T -> bool {
    x => cls(x) == c
  }

  /** Filtering by each of four distinct classes that cover every element
      splits the sequence: the four results together hold exactly its
      elements. */
  lemma {:induction false} FilterByClass<T, C>(s: seq<T>, cls: T -> C, a: C, b: C, c: C, d: C)
    requires a != b && a != c && a != d && b != c && b != d && c != d
    requires forall x :: cls(x) == a || cls(x) == b || cls(x) == c || cls(x) == d
    ensures multiset(Filter(s, InClass(cls, a))) + multiset(Filter(s, InClass(cls, b)))
          + multiset(Filter(s, InClass(cls, c))) + multiset(Filter(s, InClass(cls, d))) == multiset(s)
  {
    if |s| > 0 {
      var t := s[1..];
      FilterByClass(t, cls, a, b, c, d);
      var x := cls(s[0]);
      var one := multiset{s[0]};
      FilterHeadMultiset(s, InClass(cls, a));
      FilterHeadMultiset(s, InClass(cls, b));
      FilterHeadMultiset(s, InClass(cls, c));
      FilterHeadMultiset(s, InClass(cls, d));
      HeadMultiset(s);
      AddOne(one, multiset(Filter(t, InClass(cls, a))), multiset(Filter(t, InClass(cls, b))),
        multiset(Filter(t, InClass(cls, c))), multiset(Filter(t, InClass(cls, d))), x == a, x == b, x == c, x == d);
    }
  }

  /** The head of a sequence and its tail make up its elements. */
  lemma HeadMultiset<T>(s: seq<T>)
    requires |s| > 0
    ensures multiset(s) == multiset{s[0]} + multiset(s[1..])
  {
    assert s == [s[0]] + s[1..];
  }

  /** Adding one element to exactly one of four parts adds it to their sum. */
  lemma AddOne<T>(one: multiset<T>, p: multiset<T>, q: multiset<T>, r: multiset<T>, u: multiset<T>,
                  inP: bool, inQ: bool, inR: bool, inU: bool)
    requires (inP && !inQ && !inR && !inU) || (!inP && inQ && !inR && !inU)
          || (!inP && !inQ && inR && !inU) || (!inP && !inQ && !inR && inU)
    ensures ((if inP then one else multiset{}) + p) + ((if inQ then one else multiset{}) + q)
          + ((if inR then one else multiset{}) + r) + ((if inU then one else multiset{}) + u)
          == one + (p + q + r + u)
  {
  }

  /** The first element counts in a filtering exactly when it is kept. */
  lemma FilterHeadMultiset<T>(s: seq<T>, keep: T -> bool)
    requires |s| > 0
    ensures multiset(Filter(s, keep)) == (if keep(s[0]) then multiset{s[0]} else multiset{}) + multiset(Filter(s[1..], keep))
  {
  }

  /** `[f(x) for x in s if keep(x)]`. */
  function MapFilter<A, B>(s: seq<A>, keep: A -> bool, f: A -> B): (r: seq<B>)
    ensures |r| <= |s|
  {
    if |s| == 0 then []
    else (if keep(s[0]) then [f(s[0])] else []) + MapFilter(s[1..], keep, f)
  }

  /** A filtering comprehension maps exactly the kept elements, in order. */
  lemma {:induction false} MapFilterIsMapOfFilter<A, B>(s: seq<A>, keep: A -> bool, f: A -> B)
    ensures |MapFilter(s, keep, f)| == |Filter(s, keep)|
    ensures forall i :: 0 <= i < |MapFilter(s, keep, f)| ==> MapFilter(s, keep, f)[i] == f(Filter(s, keep)[i])
  {
    if |s| > 0 {
      MapFilterIsMapOfFilter(s[1..], keep, f);
    }
  }

  /** `r` is obtained from `s` by deleting some elements. */
  predicate IsSubsequence<T(==)>(r: seq<T>, s: seq<T>)
    decreases |s|
  {
    if |r| == 0 then true
    else if |s| == 0 then false
    else if r[0] == s[0] then IsSubsequence(r[1..], s[1..])
    else IsSubsequence(r, s[1..])
  }

  lemma {:induction false} FilterIsSubsequence<T>(s: seq<T>, keep: T -> bool)
    ensures IsSubsequence(Filter(s, keep), s)
  {
    if |s| > 0 {
      FilterIsSubsequence(s[1..], keep);
      if !keep(s[0]) {
        assert Filter(s, keep) == Filter(s[1..], keep);
        SubsequenceDropHead(Filter(s[1..], keep), s);
      } else {
        var f := Filter(s, keep);
        assert f == [s[0]] + Filter(s[1..], keep);
        assert f[1..] == Filter(s[1..], keep);
      }
    }
  }

  /** Allowing one more element in front keeps a subsequence a subsequence. */
  lemma {:induction false} SubsequenceDropHead<T>(r: seq<T>, s: seq<T>)
    requires |s| > 0 && IsSubsequence(r, s[1..])
    ensures IsSubsequence(r, s)
    decreases |s| + |r|, 1
  {
    if |r| > 0 && r[0] == s[0] {
      SubsequenceTail(r, s[1..]);
    }
  }

  lemma {:induction false} SubsequenceTail<T>(r: seq<T>, t: seq<T>)
    requires |r| > 0 && IsSubsequence(r, t)
    ensures IsSubsequence(r[1..], t)
    decreases |t| + |r|, 0
  {
    if r[0] == t[0] {
      if |t| > 0 {
        SubsequenceDropHead(r[1..], t);
      }
    } else {
      SubsequenceTail(r, t[1..]);
      SubsequenceDropHead(r[1..], t);
    }
  }
}

=== FILE: quiz.dfy ===
/** `QuizGenerator`: question validation, the JSON parse with its bracket-span
    fallback, the fallback question builders and the assembly of a quiz from the
    per-type batches. The model call, `json.loads` and the shuffle are oracles
    supplied by the caller; the difficulty setting only shapes the prompt and is
    left out. Questions stay JSON values, as the source keeps them as dicts. */
module Quiz {
  import opened PyStr
  import opened Json
  import opened Wrappers
  import opened LlmOutput

  // ---------------------------------------------------------------------------
  // validate_question

  const RequiredFields: seq<string> := ["question", "correct_answer", "type"]

  /** The loop `for field in required_fields: if field not in question: return
      False`: the first absent field answers no; an `in` test that raises ends
      the loop with that exception. */
  function FieldsPresent(q: Json, fields: seq<string>): (r: Result<bool, PyError>)
    ensures q.JObject? ==> r == Success(forall k :: 0 <= k < |fields| ==> HasKey(q.entries, fields[k]))
    ensures (q.JNull? || q.JBool? || q.JNumber?) && |fields| > 0 ==> r == Failure(TypeError)
  {
    if |fields| == 0 then Success(true)
    else
      match PyIn(fields[0], q)
      case Failure(e) => Failure(e)
      case Success(present) =>
        if !present then Success(false)
        else
          var rest := FieldsPresent(q, fields[1..]);
          assert forall k :: 1 <= k < |fields| ==> fields[1..][k - 1] == fields[k];
          rest
  }

  /** The option test: `'options' in question and len(question['options']) == 4`. */
  function HasFourOptions(q: Json): (r: Result<bool, PyError>)
    ensures q.JObject? && HasKey(q.entries, "options") ==>
      r == match Lookup(q.entries, "options")
           case JArray(items) => Success(|items| == 4)
           case JString(s) => Success(|s| == 4)
           case JObject(entries) => Success(|entries| == 4)
           case _ => Failure(TypeError)
    ensures q.JObject? && !HasKey(q.entries, "options") ==> r == Success(false)
  {
    match PyIn("options", q)
    case Failure(e) => Failure(e)
    case Success(present) =>
      if !present then Success(false)
      else
        match PyGetItem(q, "options")
        case Failure(e) => Failure(e)
        case Success(options) =>
          match PyLen(options)
          case Failure(e) => Failure(e)
          case Success(n) => Success(n == 4)
  }

  /** `validate_question`: a dict passes when it has the three required keys
      and, under the tag "multiple_choice" only, four options; a number,
      boolean or null makes the first `in` test raise. `generate_mcq` passes
      the tag "mcq", so the option test never runs on its questions. */
  function ValidateQuestion(q: Json, questionType: string): (r: Result<bool, PyError>)
    ensures questionType != "multiple_choice" ==> r == FieldsPresent(q, RequiredFields)
    ensures q.JObject? && questionType != "multiple_choice" ==> r == Success(HasRequiredKeys(q))
    ensures q.JObject? && questionType == "multiple_choice" && (!HasKey(q.entries, "options") || Lookup(q.entries, "options").JArray?) ==>
      r == Success(HasRequiredKeys(q) && HasFourOptionList(q))
    ensures q.JNull? || q.JBool? || q.JNumber? ==> r == Failure(TypeError)
  {
    RequiredFieldsOfObject(q);
    match FieldsPresent(q, RequiredFields)
    case Failure(e) => Failure(e)
    case Success(present) =>
      if !present then Success(false)
      else if questionType == "multiple_choice" then HasFourOptions(q)
      else Success(true)
  }

  /** The tags under which a question is a multiple-choice question: the one
      `generate_mcq` passes and the one `validate_question` tests for. */
  predicate IsMcqTag(questionType: string) {
    questionType == "mcq" || questionType == "multiple_choice"
  }

  /** A dict with the three required keys. */
  predicate HasRequiredKeys(q: Json)
    requires q.JObject?
  {
    HasKey(q.entries, "question") && HasKey(q.entries, "correct_answer") && HasKey(q.entries, "type")
  }

  lemma RequiredFieldsOfObject(q: Json)
    ensures q.JObject? ==> FieldsPresent(q, RequiredFields) == Success(HasRequiredKeys(q))
  {
    assert RequiredFields[0] == "question";
    assert RequiredFields[1] == "correct_answer";
    assert RequiredFields[2] == "type";
  }

  /** A dict whose `options` is a list of four. */
  predicate HasFourOptionList(q: Json)
    requires q.JObject?
  {
    HasKey(q.entries, "options") && Lookup(q.entries, "options").JArray? && |Lookup(q.entries, "options").items| == 4
  }

  /** The evidently intended `validate_question`: the option test applies to
      multiple-choice questions under either tag. It differs from the source
      only under the tag "mcq". */
  function ValidateQuestionIntended(q: Json, questionType: string): (r: Result<bool, PyError>)
    ensures questionType != "mcq" ==> r == ValidateQuestion(q, questionType)
    ensures questionType == "mcq" ==> r == ValidateQuestion(q, "multiple_choice")
    ensures q.JObject? && !IsMcqTag(questionType) ==> r == Success(HasRequiredKeys(q))
    ensures q.JObject? && IsMcqTag(questionType) && (!HasKey(q.entries, "options") || Lookup(q.entries, "options").JArray?) ==>
      r == Success(HasRequiredKeys(q) && HasFourOptionList(q))
    ensures q.JNull? || q.JBool? || q.JNumber? ==> r == Failure(TypeError)
  {
    RequiredFieldsOfObject(q);
    match FieldsPresent(q, RequiredFields)
    case Failure(e) => Failure(e)
    case Success(present) =>
      if !present then Success(false)
      else if IsMcqTag(questionType) then HasFourOptions(q)
      else Success(true)
  }

  /** The dict built from `entries`, for the examples below. */
  function Obj(entries: seq<(string, Json)>): Json {
    JObject(entries)
  }

  /** `generate_mcq` passes the tag "mcq", which `validate_question` does not
      treat as multiple choice: a question with the required keys and no
      options passes it, where the intended check rejects it. */
  lemma McqOptionsNeverChecked(q: Json)
    requires q.JObject? && HasRequiredKeys(q) && !HasKey(q.entries, "options")
    ensures ValidateQuestion(q, "mcq") == Success(true)
    ensures ValidateQuestionIntended(q, "mcq") == Success(false)
  {
  }

  /** Neither check asks that the correct answer be one of the options: four
      options and an answer outside them pass. */
  lemma AnswerOutsideOptionsAccepted(question: string, options: seq<string>, answer: string)
    requires |options| == 4 && answer !in options
    ensures var q := Obj([("question", JString(question)),
                          ("options", JArray(seq(4, i requires 0 <= i < 4 => JString(options[i])))),
                          ("correct_answer", JString(answer)),
                          ("type", JString("multiple_choice"))]);
      ValidateQuestion(q, "multiple_choice") == Success(true) && ValidateQuestionIntended(q, "mcq") == Success(true)
  {
    var q := Obj([("question", JString(question)),
                  ("options", JArray(seq(4, i requires 0 <= i < 4 => JString(options[i])))),
                  ("correct_answer", JString(answer)),
                  ("type", JString("multiple_choice"))]);
    assert q.entries[0].0 == "question";
    assert q.entries[1].0 == "options";
    assert q.entries[2].0 == "correct_answer";
    assert q.entries[3].0 == "type";
  }

  // ---------------------------------------------------------------------------
  // parse_json_response

  /** The loop keeping the questions that validate; a validation that raises
      ends it with that exception. */
  function KeepValid(items: seq<Json>, questionType: string): (r: Result<seq<Json>, PyError>)
    ensures r.Failure? <==> RaisesOn(items, questionType)
    ensures r.Success? ==> r.value == Filter(items, Accepts(questionType))
  {
    if |items| == 0 then Success([])
    else
      var head := ValidateQuestion(items[0], questionType);
      var tail := KeepValid(items[1..], questionType);
      assert forall i :: 1 <= i < |items| ==> items[1..][i - 1] == items[i];
      if head.Failure? then Failure(head.error)
      else if tail.Failure? then Failure(tail.error)
      else
        assert items == [items[0]] + items[1..];
        Success((if head.value then [items[0]] else []) + tail.value)
  }

  /** Validating some item raises. */
  predicate RaisesOn(items: seq<Json>, questionType: string) {
    exists i :: 0 <= i < |items| && ValidateQuestion(items[i], questionType).Failure?
  }

  /** Validation accepts the question. */
  function Accepts(questionType: string): Json -> bool {
    q => ValidateQuestion(q, questionType) == Success(true)
  }

  /** `re.search(r'\[.*\]', text, re.DOTALL).group()`: from the first `[` to
      the last `]`, when one follows the other. */
  function BracketSpan(text: string): (r: Option<string>)
    ensures r.Some? ==> |r.value| >= 2 && r.value[0] == '[' && r.value[|r.value| - 1] == ']' && Contains(text, r.value)
    ensures r.Some? ==>
      && BracketBounds(text).Some?
      && r.value == text[BracketBounds(text).value.0..BracketBounds(text).value.1 + 1]
    ensures r.None? <==> BracketBounds(text).None?
  {
    match BracketBounds(text)
    case None => None
    case Some((i, j)) =>
      assert OccursAt(text, text[i..j + 1], i);
      Some(text[i..j + 1])
  }

  /** The fallback of `parse_json_response` after a decoding error: the bracket
      span of the raw response is decoded and iterated, and the questions that
      validate are kept. When there is no span, the span does not decode, the
      decoded value cannot be iterated or a validation raises, the bare
      `except` gives no questions. */
  function ParseFallback(responseText: string, questionType: string, decode: string -> Option<Json>): (r: seq<Json>)
    ensures var span := BracketSpan(responseText);
      && (span.None? || decode(span.value).None? ==> r == [])
      && (span.Some? && decode(span.value).Some? ==>
            var items := PyIter(decode(span.value).value);
            && (items.Failure? ==> r == [])
            && (items.Success? && RaisesOn(items.value, questionType) ==> r == [])
            && (items.Success? && !RaisesOn(items.value, questionType) ==> r == Filter(items.value, Accepts(questionType))))
    ensures forall i :: 0 <= i < |r| ==> Accepts(questionType)(r[i])
  {
    match BracketSpan(responseText)
    case None => []
    case Some(span) =>
      match decode(span)
      case None => []
      case Some(value) =>
        match PyIter(value)
        case Failure(_) => []
        case Success(items) =>
          match KeepValid(items, questionType)
          case Failure(_) => []
          case Success(kept) => kept
  }

  /** `parse_json_response`, with `decode` standing for `json.loads` (None on a
      decoding error). After a decoding error nothing raises; otherwise the
      decoded value is iterated as Python iterates it, its items are filtered,
      and what raises on the way propagates. */
  function ParseJsonResponse(responseText: string, questionType: string, decode: string -> Option<Json>): (r: Result<seq<Json>, PyError>)
    ensures var d := decode(CleanJsonResponse(responseText));
      && (d.None? ==> r == Success(ParseFallback(responseText, questionType, decode)))
      && (d.Some? && PyIter(d.value).Success? ==> r == KeepValid(PyIter(d.value).value, questionType))
      && (d.Some? && (d.value.JNull? || d.value.JBool? || d.value.JNumber?) ==> r == Failure(TypeError))
    ensures r.Success? ==> forall i :: 0 <= i < |r.value| ==> Accepts(questionType)(r.value[i])
  {
    match decode(CleanJsonResponse(responseText))
    case None => Success(ParseFallback(responseText, questionType, decode))
    case Some(value) =>
      match PyIter(value)
      case Failure(e) => Failure(e)
      case Success(items) => KeepValid(items, questionType)
  }

  /** `"question" in s` is false for a one-character `s`, so a character never
      validates. */
  lemma CharacterIsNoQuestion(c: char, questionType: string)
    ensures ValidateQuestion(JString([c]), questionType) == Success(false)
  {
    assert !Contains([c], "question");
    assert RequiredFields[0] == "question";
  }

  /** A response that decodes to a str is iterated character by character, and
      no character validates: the parse gives no questions. */
  lemma DecodedStringGivesNoQuestions(responseText: string, questionType: string, decode: string -> Option<Json>)
    requires decode(CleanJsonResponse(responseText)).Some?
    requires decode(CleanJsonResponse(responseText)).value.JString?
    ensures ParseJsonResponse(responseText, questionType, decode) == Success([])
  {
    var v := decode(CleanJsonResponse(responseText)).value;
    var items := PyIter(v).value;
    forall i | 0 <= i < |items| ensures ValidateQuestion(items[i], questionType) == Success(false) {
      CharacterIsNoQuestion(v.s[i], questionType);
    }
    assert forall i :: 0 <= i < |items| ==> !Accepts(questionType)(items[i]);
    FilterNone(items, Accepts(questionType));
  }

  /** The key `k` contains each required field name: `field in k` is a
      substring test on a str. */
  predicate NamesAllFields(k: string) {
    Contains(k, "question") && Contains(k, "correct_answer") && Contains(k, "type")
  }

  /** A key of a decoded dict validates, under any tag but "multiple_choice",
      exactly when it contains the three field names. */
  lemma KeyAsQuestion(k: string, questionType: string)
    requires questionType != "multiple_choice"
    ensures ValidateQuestion(JString(k), questionType) == Success(NamesAllFields(k))
  {
    var q := JString(k);
    assert ["type"][1..] == [];
    assert FieldsPresent(q, ["type"]) == Success(Contains(k, "type"));
    assert ["correct_answer", "type"][1..] == ["type"];
    assert FieldsPresent(q, ["correct_answer", "type"]) == Success(Contains(k, "correct_answer") && Contains(k, "type"));
    assert RequiredFields[1..] == ["correct_answer", "type"];
    assert FieldsPresent(q, RequiredFields) == Success(NamesAllFields(k));
  }

  /** A response that decodes to a dict is iterated over its keys: under any
      tag but "multiple_choice" the parse returns, as str questions, the keys
      that contain all three field names. */
  lemma DecodedObjectGivesKeys(responseText: string, questionType: string, decode: string -> Option<Json>)
    requires questionType != "multiple_choice"
    requires decode(CleanJsonResponse(responseText)).Some?
    requires decode(CleanJsonResponse(responseText)).value.JObject?
    ensures var entries := decode(CleanJsonResponse(responseText)).value.entries;
      var r := ParseJsonResponse(responseText, questionType, decode);
      && r.Success?
      && (forall i :: 0 <= i < |r.value| ==> r.value[i].JString? && NamesAllFields(r.value[i].s))
      && (forall i :: 0 <= i < |entries| && NamesAllFields(entries[i].0) ==> JString(entries[i].0) in r.value)
  {
    var v := decode(CleanJsonResponse(responseText)).value;
    var items := PyIter(v).value;
    forall i | 0 <= i < |items| ensures ValidateQuestion(items[i], questionType) == Success(NamesAllFields(v.entries[i].0)) {
      KeyAsQuestion(v.entries[i].0, questionType);
    }
    var r := ParseJsonResponse(responseText, questionType, decode).value;
    assert r == Filter(items, Accepts(questionType));
    FilterMultiset(items, Accepts(questionType));
    forall i | 0 <= i < |r| ensures r[i].JString? && NamesAllFields(r[i].s) {
      assert r[i] in multiset(items);
      var j :| 0 <= j < |items| && items[j] == r[i];
    }
    FilterKeepsKept(items, Accepts(questionType));
  }

  // ---------------------------------------------------------------------------
  // fallback questions

  const FallbackMcqOptions: seq<string> := [
    "Option A: Analysis pending",
    "Option B: Content review needed",
    "Option C: Information being processed",
    "Option D: Please regenerate quiz"
  ]

  const FallbackMcqQuestion := "Based on the content, which statement is most accurate regarding the topic discussed?"
  const FallbackTrueFalseQuestion := "The content contains important educational information."
  const FallbackShortAnswerQuestion := "What are the main topics covered in this material?"
  const FallbackShortAnswerAnswer := "Please regenerate the quiz for specific answers."
  const FallbackExplanation := "This is a fallback question. Please try generating the quiz again."
  const FallbackShortAnswerExplanation := "This is a fallback question generated due to processing issues."

  /** The string items of a JSON list. */
  function StringItems(ss: seq<string>): (r: seq<Json>)
    ensures |r| == |ss| && forall i :: 0 <= i < |ss| ==> r[i] == JString(ss[i])
  {
    if |ss| == 0 then [] else [JString(ss[0])] + StringItems(ss[1..])
  }

  /** A multiple-choice question dict, keys in the order the fallback writes them. */
  function McqObject(question: string, options: seq<string>, answer: string, explanation: string): Json {
    JObject([
      ("question", JString(question)),
      ("options", JArray(StringItems(options))),
      ("correct_answer", JString(answer)),
      ("explanation", JString(explanation)),
      ("type", JString("multiple_choice"))
    ])
  }

  /** A question dict without options. */
  function PlainObject(question: string, answer: string, explanation: string, kind: string): Json {
    JObject([
      ("question", JString(question)),
      ("correct_answer", JString(answer)),
      ("explanation", JString(explanation)),
      ("type", JString(kind))
    ])
  }

  const FallbackMcq: Json := McqObject(FallbackMcqQuestion, FallbackMcqOptions, FallbackMcqOptions[3], FallbackExplanation)
  const FallbackTrueFalse: Json := PlainObject(FallbackTrueFalseQuestion, "True", FallbackExplanation, "true_false")
  const FallbackShortAnswer: Json :=
    PlainObject(FallbackShortAnswerQuestion, FallbackShortAnswerAnswer, FallbackShortAnswerExplanation, "short_answer")

  /** A piece of `text.split('.')` long enough to stand for a key sentence. */
  predicate IsKeySentence(s: string) {
    |Strip(s)| > 20
  }

  /** The pieces of `text.split('.')` long enough to be key sentences, in
      order. */
  function LongPieces(text: string): (r: seq<string>)
    ensures forall i :: 0 <= i < |r| ==> IsKeySentence(r[i])
  {
    Filter(SplitOn(text, '.'), IsKeySentence)
  }

  /** The key sentences of `create_fallback_mcq`, `[...][:num_questions]`: the
      leading long pieces, as many as the slice keeps. */
  function KeySentences(text: string, n: int): (r: seq<string>)
    ensures r <= LongPieces(text)
    ensures |r| == SliceLength(|LongPieces(text)|, n)
    ensures n >= 0 ==> |r| == Min(n, |LongPieces(text)|)
  {
    Take(LongPieces(text), n)
  }

  /** `create_fallback_mcq`: one copy of the fallback question per key
      sentence, so `min(n, #long pieces)` of them for a non-negative `n`. */
  function CreateFallbackMcq(text: string, n: int): (r: seq<Json>)
    ensures |r| == SliceLength(|LongPieces(text)|, n)
    ensures n >= 0 ==> |r| == Min(n, |LongPieces(text)|)
    ensures forall i :: 0 <= i < |r| ==> r[i] == FallbackMcq
  {
    var k := KeySentences(text, n);
    Copies(FallbackMcq, |k|)
  }

  /** `n` copies of `q`, none when `n` is negative, as `range(n)` gives. */
  function Copies(q: Json, n: int): (r: seq<Json>)
    ensures |r| == if n > 0 then n else 0
    ensures forall i :: 0 <= i < |r| ==> r[i] == q
  {
    seq(if n > 0 then n else 0, _ => q)
  }

  /** `create_fallback_true_false`. */
  function CreateFallbackTrueFalse(n: int): seq<Json> {
    Copies(FallbackTrueFalse, n)
  }

  /** `create_fallback_short_answer`. */
  function CreateFallbackShortAnswer(n: int): seq<Json> {
    Copies(FallbackShortAnswer, n)
  }

  /** A multiple-choice dict with four options passes validation under both
      multiple-choice tags, as written and as intended, and an answer drawn
      from the options is among them. */
  lemma McqObjectValidates(question: string, options: seq<string>, answer: string, explanation: string)
    requires |options| == 4
    ensures ValidateQuestion(McqObject(question, options, answer, explanation), "mcq") == Success(true)
    ensures ValidateQuestion(McqObject(question, options, answer, explanation), "multiple_choice") == Success(true)
    ensures ValidateQuestionIntended(McqObject(question, options, answer, explanation), "mcq") == Success(true)
    ensures var e := McqObject(question, options, answer, explanation).entries;
      answer in options ==> Lookup(e, "correct_answer") in Lookup(e, "options").items
  {
    McqObjectOptions(question, options, answer, explanation);
    McqObjectAnswer(question, options, answer, explanation);
    McqObjectKeys(question, options, answer, explanation);
    var q := McqObject(question, options, answer, explanation);
    assert IsMcqTag("mcq");
    assert HasFourOptionList(q);
    if answer in options {
      var k :| 0 <= k < |options| && options[k] == answer;
      assert StringItems(options)[k] == JString(answer);
    }
  }

  lemma McqObjectOptions(question: string, options: seq<string>, answer: string, explanation: string)
    ensures var e := McqObject(question, options, answer, explanation).entries;
      HasKey(e, "options") && Lookup(e, "options") == JArray(StringItems(options))
  {
    var e := McqObject(question, options, answer, explanation).entries;
    assert e[1].0 == "options";
    assert e[0].0 != "options";
  }

  lemma McqObjectAnswer(question: string, options: seq<string>, answer: string, explanation: string)
    ensures var e := McqObject(question, options, answer, explanation).entries;
      HasKey(e, "correct_answer") && Lookup(e, "correct_answer") == JString(answer)
  {
    var e := McqObject(question, options, answer, explanation).entries;
    assert e[2].0 == "correct_answer";
    assert e[0].0 != "correct_answer" && e[1].0 != "correct_answer";
  }

  lemma McqObjectKeys(question: string, options: seq<string>, answer: string, explanation: string)
    ensures var q := McqObject(question, options, answer, explanation); HasRequiredKeys(q)
  {
    var e := McqObject(question, options, answer, explanation).entries;
    assert e[0].0 == "question";
    assert e[2].0 == "correct_answer";
    assert e[4].0 == "type";
  }

  /** A dict without options passes validation under any tag but
      "multiple_choice", and the intended check under any tag that is not a
      multiple-choice one. */
  lemma PlainObjectValidates(question: string, answer: string, explanation: string, kind: string, tag: string)
    requires tag != "multiple_choice"
    ensures ValidateQuestion(PlainObject(question, answer, explanation, kind), tag) == Success(true)
    ensures !IsMcqTag(tag) ==> ValidateQuestionIntended(PlainObject(question, answer, explanation, kind), tag) == Success(true)
  {
    var e := PlainObject(question, answer, explanation, kind).entries;
    assert e[0].0 == "question";
    assert e[1].0 == "correct_answer";
    assert e[3].0 == "type";
  }

  /** The fallback multiple-choice question is well formed: it passes
      validation under the tag `generate_mcq` uses, and its answer is one of its
      options. */
  lemma FallbackMcqValidates()
    ensures ValidateQuestion(FallbackMcq, "mcq") == Success(true)
    ensures ValidateQuestionIntended(FallbackMcq, "mcq") == Success(true)
    ensures Lookup(FallbackMcq.entries, "correct_answer") in Lookup(FallbackMcq.entries, "options").items
  {
    McqObjectValidates(FallbackMcqQuestion, FallbackMcqOptions, FallbackMcqOptions[3], FallbackExplanation);
  }

  /** The fallback true/false question passes validation. */
  lemma FallbackTrueFalseValidates()
    ensures ValidateQuestion(FallbackTrueFalse, "true_false") == Success(true)
  {
    PlainObjectValidates(FallbackTrueFalseQuestion, "True", FallbackExplanation, "true_false", "true_false");
  }

  /** The fallback short-answer question passes validation. */
  lemma FallbackShortAnswerValidates()
    ensures ValidateQuestion(FallbackShortAnswer, "short_answer") == Success(true)
  {
    PlainObjectValidates(FallbackShortAnswerQuestion, FallbackShortAnswerAnswer, FallbackShortAnswerExplanation,
      "short_answer", "short_answer");
  }

  // ---------------------------------------------------------------------------
  // generate_quiz

  const DefaultNumQuestions: int := 15
  const DefaultQuestionTypes: seq<string> := ["Multiple Choice", "True/False"]

  /** The settings `generate_quiz` reads, each possibly absent. */
  datatype QuizSettings = QuizSettings(numQuestions: Option<int>, questionTypes: Option<seq<string>>)

  function NumQuestions(s: QuizSettings): int {
    if s.numQuestions.Some? then s.numQuestions.value else DefaultNumQuestions
  }

  function QuestionTypes(s: QuizSettings): seq<string> {
    if s.questionTypes.Some? then s.questionTypes.value else DefaultQuestionTypes
  }

  /** The exception `generate_quiz` lets escape. */
  datatype QuizError = ZeroDivisionError

  /** `max(1, num_questions // len(question_types))`; the divisor is positive, so
      Python's floor division and Dafny's division agree. */
  function QuestionsPerType(numQuestions: int, typeCount: nat): (r: int)
    requires typeCount > 0
    ensures r >= 1
    ensures r == 1 <==> numQuestions < 2 * typeCount
    ensures r > 1 ==> r * typeCount <= numQuestions < (r + 1) * typeCount
  {
    var q := numQuestions / typeCount;
    if q > 1 then q else 1
  }

  /** The outcome of one request and its parse: `None` when the request, reading
      the response (`response` is `None`) or the parse raised. */
  function RequestQuestions(response: Option<string>, questionType: string, decode: string -> Option<Json>): (r: Option<seq<Json>>)
    ensures r.Some? ==> forall i :: 0 <= i < |r.value| ==> Accepts(questionType)(r.value[i])
    ensures r.None? <==> response.None? || ParseJsonResponse(response.value, questionType, decode).Failure?
  {
    match response
    case None => None
    case Some(t) =>
      match ParseJsonResponse(t, questionType, decode)
      case Failure(_) => None
      case Success(qs) => Some(qs)
  }

  /** The question types `generate_quiz` knows. */
  datatype QuestionKind = MultipleChoice | TrueFalse | ShortAnswer

  function KindOf(typeName: string): Option<QuestionKind> {
    if typeName == "Multiple Choice" then Some(MultipleChoice)
    else if typeName == "True/False" then Some(TrueFalse)
    else if typeName == "Short Answer" then Some(ShortAnswer)
    else None
  }

  /** The tag each generator passes to `parse_json_response`. */
  function Tag(k: QuestionKind): string {
    match k
    case MultipleChoice => "mcq"
    case TrueFalse => "true_false"
    case ShortAnswer => "short_answer"
  }

  /** A question that passes validation under one of the generators' tags. */
  predicate Validated(q: Json) {
    Accepts("mcq")(q) || Accepts("true_false")(q) || Accepts("short_answer")(q)
  }

  /** The fallback question of each kind. */
  function FallbackQuestion(k: QuestionKind): Json {
    match k
    case MultipleChoice => FallbackMcq
    case TrueFalse => FallbackTrueFalse
    case ShortAnswer => FallbackShortAnswer
  }

  /** The fallback a generator returns when its request or parse raised:
      copies of the kind's fallback question, one per key sentence up to `n`
      for multiple choice and `n` of them for the other kinds. Each passes
      validation under the generator's own tag. */
  function Fallback(k: QuestionKind, text: string, n: int): (r: seq<Json>)
    ensures forall i :: 0 <= i < |r| ==> r[i] == FallbackQuestion(k)
    ensures k == MultipleChoice ==> |r| == SliceLength(|LongPieces(text)|, n)
    ensures k != MultipleChoice ==> |r| == if n > 0 then n else 0
    ensures forall i :: 0 <= i < |r| ==> Accepts(Tag(k))(r[i]) && Validated(r[i])
    ensures n >= 0 ==> |r| <= n
  {
    var r := match k
      case MultipleChoice => CreateFallbackMcq(text, n)
      case TrueFalse => CreateFallbackTrueFalse(n)
      case ShortAnswer => CreateFallbackShortAnswer(n);
    FallbackCopiesValidate(k, r);
    r
  }

  /** Copies of a kind's fallback question pass validation under its tag. */
  lemma FallbackCopiesValidate(k: QuestionKind, r: seq<Json>)
    requires forall i :: 0 <= i < |r| ==> r[i] == FallbackQuestion(k)
    ensures forall i :: 0 <= i < |r| ==> Accepts(Tag(k))(r[i]) && Validated(r[i])
  {
    FallbackQuestionValidates(k);
  }

  /** Each kind's fallback question passes validation under its own tag. */
  lemma FallbackQuestionValidates(k: QuestionKind)
    ensures Accepts(Tag(k))(FallbackQuestion(k)) && Validated(FallbackQuestion(k))
  {
    match k
    case MultipleChoice => FallbackMcqValidates();
    case TrueFalse => FallbackTrueFalseValidates();
    case ShortAnswer => FallbackShortAnswerValidates();
  }

  /** Copies of an element with a property all have it. */
  lemma AllCopies<T>(r: seq<T>, x: T, p: T -> bool)
    requires p(x) && forall i :: 0 <= i < |r| ==> r[i] == x
    ensures forall i :: 0 <= i < |r| ==> p(r[i])
  {
  }

  /** A prefix keeps a property every element has. */
  lemma AllTake<T>(s: seq<T>, n: int, p: T -> bool)
    requires forall i :: 0 <= i < |s| ==> p(s[i])
    ensures forall i :: 0 <= i < |Take(s, n)| ==> p(Take(s, n)[i])
  {
    var r := Take(s, n);
    forall i | 0 <= i < |r| ensures p(r[i]) {
      assert r[i] == s[i];
    }
  }

  /** Elements drawn from a sequence keep a property all of its elements have. */
  lemma AllDrawn<T>(a: seq<T>, b: seq<T>, p: T -> bool)
    requires multiset(a) <= multiset(b)
    requires forall i :: 0 <= i < |b| ==> p(b[i])
    ensures forall i :: 0 <= i < |a| ==> p(a[i])
  {
    forall i | 0 <= i < |a| ensures p(a[i]) {
      assert a[i] in multiset(b);
      var j :| 0 <= j < |b| && b[j] == a[i];
    }
  }

  /** The first `n` elements of a shuffle are drawn from what was shuffled,
      keep the properties all of those have, and are as many as asked for
      while there are enough. */
  lemma TakeShuffled<T>(shuffled: seq<T>, collected: seq<T>, n: int, p: T -> bool)
    requires multiset(shuffled) == multiset(collected)
    requires forall i :: 0 <= i < |collected| ==> p(collected[i])
    ensures multiset(Take(shuffled, n)) <= multiset(collected)
    ensures n >= 0 ==> |Take(shuffled, n)| == Min(n, |collected|)
    ensures forall i :: 0 <= i < |Take(shuffled, n)| ==> p(Take(shuffled, n)[i])
  {
    assert |shuffled| == |collected| by {
      assert |multiset(shuffled)| == |multiset(collected)|;
    }
    var r := Take(shuffled, n);
    assert shuffled == r + shuffled[|r|..];
    AllDrawn(r, collected, p);
  }

  /** What passes validation under a generator's own tag is validated. */
  lemma AcceptedAreValidated(k: QuestionKind, qs: seq<Json>)
    requires forall i :: 0 <= i < |qs| ==> Accepts(Tag(k))(qs[i])
    ensures forall i :: 0 <= i < |qs| ==> Validated(qs[i])
  {
  }

  /** `generate_mcq`, `generate_true_false` and `generate_short_answer`: the
      first `n` validated questions of the response, or the fallback when the
      request or its parse raised. Either way every question passes validation
      under the generator's own tag. */
  function GenerateKind(k: QuestionKind, text: string, n: int, response: Option<string>,
                        decode: string -> Option<Json>): (r: seq<Json>)
    requires n >= 1
    ensures var parsed := RequestQuestions(response, Tag(k), decode);
      && (parsed.Some? ==> r <= parsed.value && |r| == Min(n, |parsed.value|))
      && (parsed.None? ==> r == Fallback(k, text, n))
    ensures |r| <= n
    ensures forall i :: 0 <= i < |r| ==> Accepts(Tag(k))(r[i]) && Validated(r[i])
  {
    match RequestQuestions(response, Tag(k), decode)
    case Some(qs) =>
      AllTake(qs, n, Accepts(Tag(k)));
      AcceptedAreValidated(k, Take(qs, n));
      Take(qs, n)
    case None => Fallback(k, text, n)
  }

  /** What one entry of `question_types` contributes: nothing for a type name
      the generator does not know. */
  function TypeBlock(text: string, typeName: string, perType: int, response: Option<string>,
                     decode: string -> Option<Json>): (r: seq<Json>)
    requires perType >= 1
    ensures |r| <= perType
    ensures KindOf(typeName).None? ==> r == []
    ensures forall i :: 0 <= i < |r| ==> Validated(r[i])
  {
    match KindOf(typeName)
    case None => []
    case Some(k) => GenerateKind(k, text, perType, response, decode)
  }

  lemma AllConcat<T>(a: seq<T>, b: seq<T>, p: T -> bool)
    requires forall i :: 0 <= i < |a| ==> p(a[i])
    requires forall i :: 0 <= i < |b| ==> p(b[i])
    ensures forall i :: 0 <= i < |a + b| ==> p((a + b)[i])
  {
    forall i | 0 <= i < |a + b| ensures p((a + b)[i]) {
      if i >= |a| {
        assert (a + b)[i] == b[i - |a|];
      }
    }
  }

  /** The questions collected over all requested types, in order;
      `responses[k]` is the response to the request for the k-th type. */
  function Collect(text: string, types: seq<string>, perType: int, responses: seq<Option<string>>,
                   decode: string -> Option<Json>): (r: seq<Json>)
    requires perType >= 1 && |responses| == |types|
    ensures |r| <= |types| * perType
    ensures forall i :: 0 <= i < |r| ==> Validated(r[i])
  {
    if |types| == 0 then []
    else
      var block := TypeBlock(text, types[0], perType, responses[0], decode);
      var rest := Collect(text, types[1..], perType, responses[1..], decode);
      assert |types| * perType == perType + (|types| - 1) * perType;
      AllConcat(block, rest, Validated);
      block + rest
  }

  /** `generate_quiz`. `responses[k]` is the model's response to the request for
      the k-th question type (`None` when the request raised), `decode` stands
      for `json.loads`, and `shuffled` is the order in which `random.shuffle`
      leaves the collected questions. An empty type list makes the division
      raise. Otherwise the quiz holds at most the requested number of
      questions, each drawn from the collected ones and each well formed. */
  function GenerateQuiz(text: string, settings: QuizSettings, responses: seq<Option<string>>,
                        decode: string -> Option<Json>, shuffled: seq<Json>): (r: Result<seq<Json>, QuizError>)
    requires |responses| == |QuestionTypes(settings)|
    requires |QuestionTypes(settings)| > 0 ==>
      multiset(shuffled) == multiset(Collect(text, QuestionTypes(settings),
        QuestionsPerType(NumQuestions(settings), |QuestionTypes(settings)|), responses, decode))
    ensures r.Failure? <==> |QuestionTypes(settings)| == 0
    ensures r.Success? ==> multiset(r.value) <= multiset(Collect(text, QuestionTypes(settings),
        QuestionsPerType(NumQuestions(settings), |QuestionTypes(settings)|), responses, decode))
    ensures r.Success? && NumQuestions(settings) >= 0 ==>
      |r.value| == Min(NumQuestions(settings), |Collect(text, QuestionTypes(settings),
        QuestionsPerType(NumQuestions(settings), |QuestionTypes(settings)|), responses, decode)|)
    ensures r.Success? ==> forall i :: 0 <= i < |r.value| ==> Validated(r.value[i])
  {
    var types := QuestionTypes(settings);
    if |types| == 0 then Failure(ZeroDivisionError)
    else
      var n := NumQuestions(settings);
      var perType := QuestionsPerType(n, |types|);
      var collected := Collect(text, types, perType, responses, decode);
      TakeShuffled(shuffled, collected, n, Validated);
      Success(Take(shuffled, n))
  }

  function Min(a: int, b: int): int {
    if a <= b then a else b
  }
}

=== FILE: quiz_statistics.dfy ===
/** `QuizGenerator.get_quiz_statistics`: the score of a set of answers, keyed by
    question index, against a quiz. Python's float division is modelled on the
    reals. */
module QuizStatistics {
  import opened PyStr
  import opened Json
  import opened Wrappers

  datatype Statistics = Statistics(
    totalQuestions: nat,
    answeredQuestions: nat,
    correctAnswers: nat,
    scorePercentage: real,
    completionRate: real)

  /** Marks one answered question. Multiple-choice and true/false answers must
      equal the stored answer; a short answer is right when it contains the
      stored answer, ignoring case; any other type scores nothing. Reading a
      missing key, indexing a non-dict, or lower-casing a non-string answer
      raises. */
  function Mark(question: Json, userAnswer: string): (r: Result<bool, PyError>)
    ensures question.JObject? && HasKey(question.entries, "correct_answer") && HasKey(question.entries, "type") ==>
      var correct := Lookup(question.entries, "correct_answer");
      var kind := Lookup(question.entries, "type");
      && (kind == JString("multiple_choice") || kind == JString("true_false") ==> r == Success(correct == JString(userAnswer)))
      && (kind == JString("short_answer") && correct.JString? ==> r == Success(Contains(Lower(userAnswer), Lower(correct.s))))
      && (kind == JString("short_answer") && !correct.JString? ==> r == Failure(AttributeError))
      && (kind !in [JString("multiple_choice"), JString("true_false"), JString("short_answer")] ==> r == Success(false))
    ensures question.JObject? && HasKey(question.entries, "correct_answer") && !HasKey(question.entries, "type") ==>
      r == Failure(KeyError)
    ensures question.JObject? && !HasKey(question.entries, "correct_answer") ==> r == Failure(KeyError)
    ensures !question.JObject? ==> r == Failure(TypeError)
  {
    match PyGetItem(question, "correct_answer")
    case Failure(e) => Failure(e)
    case Success(correct) =>
      match PyGetItem(question, "type")
      case Failure(e) => Failure(e)
      case Success(kind) =>
        if kind == JString("multiple_choice") || kind == JString("true_false") then
          Success(correct == JString(userAnswer))
        else if kind == JString("short_answer") then
          if correct.JString? then Success(Contains(Lower(userAnswer), Lower(correct.s)))
          else Failure(AttributeError)
        else Success(false)
  }

  /** What marking question `i` gives: nothing when it is unanswered. */
  function Outcome(quiz: seq<Json>, answers: map<int, string>, i: int): Option<Result<bool, PyError>>
    requires 0 <= i < |quiz|
  {
    if i in answers then Some(Mark(quiz[i], answers[i])) else None
  }

  /** The outcomes of all questions, in order. */
  function Outcomes(quiz: seq<Json>, answers: map<int, string>): (r: seq<Option<Result<bool, PyError>>>)
    ensures |r| == |quiz|
    ensures forall i :: 0 <= i < |quiz| ==> r[i] == Outcome(quiz, answers, i)
  {
    seq(|quiz|, i requires 0 <= i < |quiz| => Outcome(quiz, answers, i))
  }

  predicate Raises(o: Option<Result<bool, PyError>>) {
    o.Some? && o.value.Failure?
  }

  predicate Right(o: Option<Result<bool, PyError>>) {
    o == Some(Success(true))
  }

  /** The positions of right answers among the first `n` outcomes. */
  function RightBelow(outcomes: seq<Option<Result<bool, PyError>>>, n: nat): set<int>
    requires n <= |outcomes|
  {
    set i | 0 <= i < n && Right(outcomes[i])
  }

  /** The loop over the first `n` questions: the number of right answers, or
      the exception of the first question whose marking raises. */
  function CountRight(outcomes: seq<Option<Result<bool, PyError>>>, n: nat): (r: Result<nat, PyError>)
    requires n <= |outcomes|
    ensures r.Failure? <==> exists i :: 0 <= i < n && Raises(outcomes[i])
    ensures r.Failure? ==>
      exists i :: (&& 0 <= i < n && outcomes[i] == Some(Failure(r.error))
                   && forall j :: 0 <= j < i ==> !Raises(outcomes[j]))
    ensures r.Success? ==> r.value == |RightBelow(outcomes, n)| <= n
  {
    if n == 0 then Success(0)
    else
      var i := n - 1;
      match CountRight(outcomes, i)
      case Failure(e) => Failure(e)
      case Success(c) =>
        if Raises(outcomes[i]) then
          Failure(outcomes[i].value.error)
        else if Right(outcomes[i]) then
          assert RightBelow(outcomes, n) == RightBelow(outcomes, i) + {i};
          Success(c + 1)
        else
          assert RightBelow(outcomes, n) == RightBelow(outcomes, i);
          Success(c)
  }

  /** `x / total * 100`, or 0 for an empty quiz. */
  function Percentage(x: nat, total: nat): real {
    if total > 0 then x as real / total as real * 100.0 else 0.0
  }

  /** A percentage scaled back by the total gives the count, and a count no
      larger than the total gives at most 100. */
  lemma PercentageOf(x: nat, total: nat)
    ensures total > 0 ==> Percentage(x, total) * total as real == 100.0 * x as real
    ensures x <= total ==> 0.0 <= Percentage(x, total) <= 100.0
    ensures total == 0 ==> Percentage(x, total) == 0.0
  {
    if total > 0 {
      var t := total as real;
      var q := x as real / t;
      assert q * t == x as real;
      assert Percentage(x, total) == q * 100.0;
      assert q * 100.0 * t == q * t * 100.0;
      if x <= total {
        assert q * t <= 1.0 * t;
      }
    }
  }

  /** The answered questions that exist in the quiz. */
  function AnsweredInQuiz(quiz: seq<Json>, answers: map<int, string>): set<int> {
    set i | i in answers && 0 <= i < |quiz|
  }

  /** `get_quiz_statistics`. The right answers are counted over the questions
      the quiz has; the answered count is the number of answers given, whatever
      their keys. */
  function GetQuizStatistics(quiz: seq<Json>, answers: map<int, string>): (r: Result<Statistics, PyError>)
    ensures r.Failure? <==> exists i :: 0 <= i < |quiz| && Raises(Outcome(quiz, answers, i))
    ensures r.Success? ==>
      && r.value.totalQuestions == |quiz|
      && r.value.answeredQuestions == |answers|
      && r.value.correctAnswers == |RightBelow(Outcomes(quiz, answers), |quiz|)|
      && r.value.correctAnswers <= |AnsweredInQuiz(quiz, answers)|
      && r.value.correctAnswers <= r.value.answeredQuestions
      && r.value.correctAnswers <= r.value.totalQuestions
      && 0.0 <= r.value.scorePercentage <= 100.0
      && r.value.scorePercentage == Percentage(r.value.correctAnswers, |quiz|)
      && r.value.completionRate == Percentage(|answers|, |quiz|)
  {
    var outcomes := Outcomes(quiz, answers);
    match CountRight(outcomes, |quiz|)
    case Failure(e) => Failure(e)
    case Success(correct) =>
      var total := |quiz|;
      assert RightBelow(outcomes, total) <= AnsweredInQuiz(quiz, answers);
      SubsetSize(RightBelow(outcomes, total), AnsweredInQuiz(quiz, answers));
      SubsetSize(AnsweredInQuiz(quiz, answers), answers.Keys);
      PercentageOf(correct, total);
      PercentageOf(|answers|, total);
      Success(Statistics(total, |answers|, correct, Percentage(correct, total), Percentage(|answers|, total)))
  }

  /** A subset is no larger than its superset. */
  lemma {:induction false} SubsetSize<T>(a: set<T>, b: set<T>)
    requires a <= b
    ensures |a| <= |b|
    decreases |a|
  {
    if a != {} {
      var x :| x in a;
      SubsetSize(a - {x}, b - {x});
    }
  }

  /** Answers keyed by indices the quiz does not have still count as answered,
      so the completion rate can pass 100: one question and two such answers
      give 200. */
  lemma CompletionCanExceedHundred(q: Json, a: string, b: string)
    ensures var r := GetQuizStatistics([q], map[1 := a, 2 := b]);
      r.Success? && r.value.completionRate == 200.0 && r.value.correctAnswers == 0
  {
    var answers := map[1 := a, 2 := b];
    assert answers.Keys == {1, 2};
    assert |answers| == 2;
    assert Outcomes([q], answers) == [None];
    assert RightBelow([None], 1) == {};
  }
}

=== FILE: rag_chat.dfy ===
/** `RAGChat` of `rag_chat.py`: text chunks are embedded and stored in a
    vector collection, the chunks most similar to a question are retrieved,
    and a prompt built around them goes to the language model.

    The embedder, the id generator, the collection's similarity query and the
    language model are parameters: `embed` gives `None` where
    `get_embedding` raises, `freshIds` are the values `uuid.uuid4()` hands
    out in turn, `query` gives `None` where the collection's query raises, and
    `generate` is `GeminiClient.generate`, which never raises. */
module RagChat {
  import opened Wrappers
  import opened PyStr

  type Vector = seq<real>

  /** One stored chunk: its id, the text, its embedding and the metadata
      `{"source": source_name}`. */
  datatype Entry = Entry(id: string, document: string, embedding: Vector, source: string)

  /** The collection "edugen_documents", its entries in insertion order. */
  datatype Store = Store(entries: seq<Entry>)

  /** `top_k` of `retrieve`. */
  const DefaultTopK: int := 5

  /** The temperature `chat` asks the model for. */
  const ChatTemperature: real := 0.3

  /** How many past messages the context prompt shows. */
  const HistoryWindow: nat := 6

  /** `document_count`. */
  function DocumentCount(store: Store): nat {
    |store.entries|
  }

  /** The stored texts, in insertion order. */
  function Documents(entries: seq<Entry>): (r: seq<string>)
    ensures |r| == |entries|
    ensures forall k :: 0 <= k < |entries| ==> r[k] == entries[k].document
  {
    seq(|entries|, k requires 0 <= k < |entries| => entries[k].document)
  }

  predicate UniqueIds(entries: seq<Entry>) {
    forall k, m :: 0 <= k < m < |entries| ==> entries[k].id != entries[m].id
  }

  predicate UniqueStrings(s: seq<string>) {
    forall k, m :: 0 <= k < m < |s| ==> s[k] != s[m]
  }

  /** None of `ids` is already the id of a stored entry. */
  predicate Unused(ids: seq<string>, entries: seq<Entry>) {
    forall k, m :: 0 <= k < |ids| && 0 <= m < |entries| ==> ids[k] != entries[m].id
  }

  // ---------------------------------------------------------------------------
  // add_chunks

  /** The chunks whose embedding succeeds. */
  function Embeds(embed: string -> Option<Vector>): string -> bool {
    c => embed(c).Some?
  }

  /** The entries `collection.add` stores for the surviving chunks. */
  function NewEntries(ids: seq<string>, chunks: seq<string>, embeddings: seq<Vector>, source: string): (r: seq<Entry>)
    requires |ids| == |chunks| == |embeddings|
    ensures |r| == |chunks|
    ensures forall k :: 0 <= k < |r| ==> r[k] == Entry(ids[k], chunks[k], embeddings[k], source)
  {
    seq(|chunks|, k requires 0 <= k < |chunks| => Entry(ids[k], chunks[k], embeddings[k], source))
  }

  /** `add_chunks`: every chunk is embedded in turn; a chunk whose embedding
      fails is skipped, the others are stored in their order, each under the
      next fresh id and with `source_name` as its source. The number of
      chunks stored is returned; no chunk at all, or none embedded, leaves the
      collection as it was. Fresh ids keep the ids of the collection unique. */
  method AddChunks(store: Store, chunks: seq<string>, sourceName: string,
                   embed: string -> Option<Vector>, freshIds: seq<string>)
    returns (updated: Store, added: nat)
    requires |freshIds| >= |chunks|
    ensures added == |Filter(chunks, Embeds(embed))|
    ensures DocumentCount(updated) == DocumentCount(store) + added
    ensures updated.entries[..|store.entries|] == store.entries
    ensures Documents(updated.entries[|store.entries|..]) == Filter(chunks, Embeds(embed))
    ensures forall k :: |store.entries| <= k < |updated.entries| ==>
      && updated.entries[k].id == freshIds[k - |store.entries|]
      && updated.entries[k].source == sourceName
      && embed(updated.entries[k].document) == Some(updated.entries[k].embedding)
    ensures added == 0 ==> updated == store
    ensures UniqueIds(store.entries) && UniqueStrings(freshIds) && Unused(freshIds, store.entries) ==>
      UniqueIds(updated.entries)
  {
    if |chunks| == 0 {
      return store, 0;
    }
    var valid, embeddings, ids := EmbedChunks(chunks, embed, freshIds);
    added := |valid|;
    if |valid| > 0 {
      updated := Store(store.entries + NewEntries(ids, valid, embeddings, sourceName));
      StoredEntries(store, ids, valid, embeddings, sourceName, embed, freshIds);
    } else {
      updated := store;
    }
  }

  /** The loop of `add_chunks`: the chunks whose embedding succeeds, in order,
      with their embeddings and one fresh id each. */
  method EmbedChunks(chunks: seq<string>, embed: string -> Option<Vector>, freshIds: seq<string>)
    returns (valid: seq<string>, embeddings: seq<Vector>, ids: seq<string>)
    requires |freshIds| >= |chunks|
    ensures valid == Filter(chunks, Embeds(embed))
    ensures |embeddings| == |valid| == |ids| <= |freshIds|
    ensures forall k :: 0 <= k < |valid| ==> embed(valid[k]) == Some(embeddings[k])
    ensures ids == freshIds[..|ids|]
  {
    var ok := Embeds(embed);
    embeddings, valid := [], [];
    for i := 0 to |chunks|
      invariant valid == Filter(chunks[..i], ok)
      invariant |embeddings| == |valid| <= i
      invariant forall k :: 0 <= k < |valid| ==> embed(valid[k]) == Some(embeddings[k])
    {
      FilterStep(chunks, i, ok);
      var e := embed(chunks[i]);
      if e.Some? {
        embeddings := embeddings + [e.value];
        valid := valid + [chunks[i]];
      }
    }
    assert chunks[..|chunks|] == chunks;
    // one `uuid.uuid4()` per stored chunk, in turn
    ids := freshIds[..|valid|];
  }

  /** What `collection.add` leaves in the collection: the old entries, then
      one entry per surviving chunk under the next fresh id. */
  lemma StoredEntries(store: Store, ids: seq<string>, valid: seq<string>, embeddings: seq<Vector>,
                      sourceName: string, embed: string -> Option<Vector>, freshIds: seq<string>)
    requires |ids| == |valid| == |embeddings| <= |freshIds| && ids == freshIds[..|ids|]
    requires forall k :: 0 <= k < |valid| ==> embed(valid[k]) == Some(embeddings[k])
    ensures var updated := store.entries + NewEntries(ids, valid, embeddings, sourceName);
      && updated[..|store.entries|] == store.entries
      && Documents(updated[|store.entries|..]) == valid
      && (forall k :: |store.entries| <= k < |updated| ==>
            && updated[k].id == freshIds[k - |store.entries|]
            && updated[k].source == sourceName
            && embed(updated[k].document) == Some(updated[k].embedding))
      && (UniqueIds(store.entries) && UniqueStrings(freshIds) && Unused(freshIds, store.entries) ==>
            UniqueIds(updated))
  {
    var stored := NewEntries(ids, valid, embeddings, sourceName);
    var updated := store.entries + stored;
    assert updated[|store.entries|..] == stored;
    forall k | |store.entries| <= k < |updated|
      ensures updated[k] == stored[k - |store.entries|]
      ensures updated[k].id == freshIds[k - |store.entries|]
    {
    }
    if UniqueIds(store.entries) && UniqueStrings(freshIds) && Unused(freshIds, store.entries) {
      forall k, m | 0 <= k < m < |updated| ensures updated[k].id != updated[m].id {
        if m >= |store.entries| {
          if k >= |store.entries| {
            assert updated[k].id == freshIds[k - |store.entries|];
          } else {
            assert updated[k] == store.entries[k];
          }
        }
      }
    }
  }

  // ---------------------------------------------------------------------------
  // retrieve

  /** `min(top_k, self.collection.count())`. */
  function ResultCount(topK: int, count: nat): (n: int)
    ensures n <= topK && n <= count
    ensures n == topK || n == count
  {
    if topK <= count then topK else count
  }

  /** `retrieve`: the query's first list of documents when the question is
      embedded and the query for `min(top_k, count)` results succeeds, and no
      chunk otherwise. */
  function Retrieve(store: Store, question: string, topK: int,
                    embed: string -> Option<Vector>,
                    query: (seq<Entry>, Vector, int) -> Option<seq<seq<string>>>): (r: seq<string>)
    ensures embed(question).None? ==> r == []
    ensures embed(question).Some? ==>
      var answer := query(store.entries, embed(question).value, ResultCount(topK, DocumentCount(store)));
      r == if answer.Some? && |answer.value| > 0 then answer.value[0] else []
  {
    match embed(question)
    case None => []
    case Some(v) =>
      match query(store.entries, v, ResultCount(topK, DocumentCount(store)))
      case None => []
      case Some(documents) => if |documents| > 0 then documents[0] else []
  }

  /** A query answer that keeps to what was asked: at most `n` documents, all
      of them stored. */
  predicate AnswerWithin(answer: Option<seq<seq<string>>>, entries: seq<Entry>, n: int) {
    answer.None? || |answer.value| == 0 ||
    (|answer.value[0]| <= n && forall k :: 0 <= k < |answer.value[0]| ==> answer.value[0][k] in Documents(entries))
  }

  /** A collection whose query always keeps to what was asked. */
  ghost predicate FaithfulQuery(query: (seq<Entry>, Vector, int) -> Option<seq<seq<string>>>) {
    forall entries, v, n :: AnswerWithin(query(entries, v, n), entries, n)
  }

  /** With a faithful collection, `retrieve` gives no more than `top_k` chunks
      and no more than are stored, all of them stored chunks. */
  lemma RetrieveBounded(store: Store, question: string, topK: int,
                        embed: string -> Option<Vector>,
                        query: (seq<Entry>, Vector, int) -> Option<seq<seq<string>>>)
    requires FaithfulQuery(query)
    ensures var r := Retrieve(store, question, topK, embed, query);
      && |r| <= DocumentCount(store)
      && (|r| <= topK || r == [])
      && forall k :: 0 <= k < |r| ==> r[k] in Documents(store.entries)
  {
    if embed(question).Some? {
      var n := ResultCount(topK, DocumentCount(store));
      assert AnswerWithin(query(store.entries, embed(question).value, n), store.entries, n);
    }
  }

  // ---------------------------------------------------------------------------
  // chat

  /** One message of the chat history: `{"role": ..., "content": ...}`. */
  datatype Message = Message(role: string, content: string)

  /** `f"{msg['role'].capitalize()}: {msg['content']}"`. */
  function RenderMessage(m: Message): (r: string)
    ensures StartsWith(r, Capitalize(m.role))
    ensures OccursAt(r, ": ", |m.role|)
    ensures EndsWith(r, m.content)
    ensures |r| == |m.role| + 2 + |m.content|
  {
    var r := Capitalize(m.role) + ": " + m.content;
    assert r[..|m.role|] == Capitalize(m.role);
    assert r[|m.role|..|m.role| + 2] == ": ";
    assert r[|r| - |m.content|..] == m.content;
    r
  }

  /** `chat_history[-6:]`: the last six messages, or all of them when there
      are fewer. */
  function RecentMessages(history: seq<Message>): (r: seq<Message>)
    ensures |r| == if |history| < HistoryWindow then |history| else HistoryWindow
    ensures r == history[|history| - |r|..]
  {
    if |history| <= HistoryWindow then history else history[|history| - HistoryWindow..]
  }

  /** The lines of the conversation history, one per message. */
  function HistoryLines(messages: seq<Message>): (r: seq<string>)
    ensures |r| == |messages|
    ensures forall k :: 0 <= k < |r| ==> r[k] == RenderMessage(messages[k])
  {
    seq(|messages|, k requires 0 <= k < |messages| => RenderMessage(messages[k]))
  }

  /** `history_text`: empty for a missing or empty history, else the rendered
      recent messages, one per line. */
  function HistoryText(history: Option<seq<Message>>): string {
    if history.None? || |history.value| == 0 then "" else Join("\n", HistoryLines(RecentMessages(history.value)))
  }

  /** Each of the last six messages shows, rendered, at its place in the
      history text, one line after another. */
  lemma HistoryTextShowsRecent(history: seq<Message>, k: nat)
    requires |history| > 0 && k < |RecentMessages(history)|
    ensures var lines := HistoryLines(RecentMessages(history));
      OccursAt(HistoryText(Some(history)), RenderMessage(RecentMessages(history)[k]), JoinOffset("\n", lines, k))
  {
    JoinPlacesParts("\n", HistoryLines(RecentMessages(history)), k);
  }

  /** Messages older than the last six do not reach the prompt. */
  lemma OlderMessagesIgnored(older: seq<Message>, recent: seq<Message>)
    requires |recent| >= HistoryWindow
    ensures HistoryText(Some(older + recent)) == HistoryText(Some(recent))
  {
    var h := older + recent;
    assert h[|h| - HistoryWindow..] == recent[|recent| - HistoryWindow..];
    assert RecentMessages(h) == RecentMessages(recent);
  }

  const PromptHeader: string := "You are EduGen, a helpful AI learning assistant.\n"

  /** The prompt without document context: the question alone. */
  function GeneralPrompt(question: string): string {
    PromptHeader + GeneralIntro + question + GeneralNote
  }

  const GeneralIntro: string := "Answer the following question clearly and educationally:\n\nQuestion: "
  const GeneralNote: string := "\n\nNote: No document context is available. Answer from your general knowledge."

  const ContextIntro: string :=
    "Use the context below to answer the student's question accurately and clearly.\n"
    + "If the answer is not in the context, say so and answer from general knowledge.\n\n"
    + "=== DOCUMENT CONTEXT ===\n"
  const HistoryHeading: string := "\n\n=== CONVERSATION HISTORY ===\n"
  const QuestionHeading: string := "\n\n=== STUDENT QUESTION ===\n"
  const AnswerHeading: string := "\n\n=== YOUR ANSWER ===\nProvide a clear, well-structured, educational answer:"

  /** The prompt with document context: the context, the history text and the
      question under their headings. */
  function ContextPrompt(context: string, historyText: string, question: string): string {
    PromptHeader + ContextIntro + context + HistoryHeading + historyText + QuestionHeading + question + AnswerHeading
  }

  /** The text under "=== DOCUMENT CONTEXT ===": the chunks separated by blank
      lines. */
  function ContextText(chunks: seq<string>): string {
    Join("\n\n", chunks)
  }

  /** The general prompt carries the question. */
  lemma GeneralPromptCarriesQuestion(question: string)
    ensures Contains(GeneralPrompt(question), question)
  {
    var g1 := PromptHeader + GeneralIntro;
    assert GeneralPrompt(question) == g1 + question + GeneralNote;
    ContainsMiddle(g1, question, GeneralNote);
  }

  /** A text built as `a + x + b + y + c + z + d` contains `x`, `y` and `z`. */
  lemma ContainsEachPart(a: string, x: string, b: string, y: string, c: string, z: string, d: string)
    ensures var t := a + x + b + y + c + z + d;
      Contains(t, x) && Contains(t, y) && Contains(t, z)
  {
    var t := a + x + b + y + c + z + d;
    assert t == a + x + (b + y + c + z + d);
    ContainsMiddle(a, x, b + y + c + z + d);
    assert t == (a + x + b) + y + (c + z + d);
    ContainsMiddle(a + x + b, y, c + z + d);
    ContainsMiddle(a + x + b + y + c, z, d);
  }

  /** The context prompt carries the context, the history text and the
      question. */
  lemma ContextPromptCarriesInputs(context: string, historyText: string, question: string)
    ensures var p := ContextPrompt(context, historyText, question);
      Contains(p, context) && Contains(p, historyText) && Contains(p, question)
  {
    ContainsEachPart(PromptHeader + ContextIntro, context, HistoryHeading, historyText, QuestionHeading, question, AnswerHeading);
  }

  /** The retrieved chunks stand in the context text in the order they were
      retrieved, each at its offset. */
  lemma ContextKeepsOrder(chunks: seq<string>, k: nat)
    requires k < |chunks|
    ensures OccursAt(ContextText(chunks), chunks[k], JoinOffset("\n\n", chunks, k))
    ensures k + 1 < |chunks| ==> JoinOffset("\n\n", chunks, k) + |chunks[k]| < JoinOffset("\n\n", chunks, k + 1)
  {
    JoinPlacesParts("\n\n", chunks, k);
  }

  /** An occurrence in `t` is one in `pre + t + post`, shifted by `pre`. */
  lemma OccursInMiddle(pre: string, t: string, post: string, sub: string, off: int)
    requires OccursAt(t, sub, off)
    ensures Contains(pre + t + post, sub)
  {
    assert (t + post)[off..off + |sub|] == t[off..off + |sub|];
    OccursAfter(pre, t + post, sub, off);
    assert pre + t + post == pre + (t + post);
    assert OccursAt(pre + t + post, sub, |pre| + off);
  }

  /** A text built as `a + b + x + c + d + e + f + g` is `(a + b) + x + (c + d + e + f + g)`. */
  lemma RegroupAroundThird(a: string, b: string, x: string, c: string, d: string, e: string, f: string, g: string)
    ensures a + b + x + c + d + e + f + g == (a + b) + x + (c + d + e + f + g)
  {
  }

  /** Every retrieved chunk stands in the context prompt. */
  lemma ContextPromptCarriesChunks(chunks: seq<string>, historyText: string, question: string)
    ensures forall k :: 0 <= k < |chunks| ==> Contains(ContextPrompt(ContextText(chunks), historyText, question), chunks[k])
  {
    var ct := ContextText(chunks);
    var pre := PromptHeader + ContextIntro;
    var post := HistoryHeading + historyText + QuestionHeading + question + AnswerHeading;
    RegroupAroundThird(PromptHeader, ContextIntro, ct, HistoryHeading, historyText, QuestionHeading, question, AnswerHeading);
    forall k | 0 <= k < |chunks| ensures Contains(pre + ct + post, chunks[k]) {
      ContextKeepsOrder(chunks, k);
      OccursInMiddle(pre, ct, post, chunks[k], JoinOffset("\n\n", chunks, k));
    }
  }

  /** The prompt `chat` sends. It always carries the question; when chunks are
      retrieved for the question it carries each of them, the context text and
      the history text; when none are, it is the general prompt. */
  function ChatPrompt(store: Store, question: string, history: Option<seq<Message>>,
                      embed: string -> Option<Vector>,
                      query: (seq<Entry>, Vector, int) -> Option<seq<seq<string>>>): (p: string)
    ensures Contains(p, question)
    ensures var chunks := Retrieve(store, question, DefaultTopK, embed, query);
      chunks != [] ==>
        && Contains(p, ContextText(chunks)) && Contains(p, HistoryText(history))
        && forall k :: 0 <= k < |chunks| ==> Contains(p, chunks[k])
    ensures Retrieve(store, question, DefaultTopK, embed, query) == [] ==> p == GeneralPrompt(question)
  {
    var chunks := Retrieve(store, question, DefaultTopK, embed, query);
    if |chunks| == 0 then
      GeneralPromptCarriesQuestion(question);
      GeneralPrompt(question)
    else
      var ct := ContextText(chunks);
      ContextPromptCarriesInputs(ct, HistoryText(history), question);
      ContextPromptCarriesChunks(chunks, HistoryText(history), question);
      ContextPrompt(ct, HistoryText(history), question)
  }

  /** `chat`: the model's answer to the chat prompt at temperature 0.3,
      returned as it is. */
  function Chat(store: Store, question: string, history: Option<seq<Message>>,
                embed: string -> Option<Vector>,
                query: (seq<Entry>, Vector, int) -> Option<seq<seq<string>>>,
                generate: (string, real) -> string): string
  {
    generate(ChatPrompt(store, question, history, embed, query), ChatTemperature)
  }

  /** Without retrieved context the history plays no part in the answer: the
      model is asked the general prompt at temperature 0.3. */
  lemma ChatIgnoresHistoryWithoutContext(store: Store, question: string,
                                         h1: Option<seq<Message>>, h2: Option<seq<Message>>,
                                         embed: string -> Option<Vector>,
                                         query: (seq<Entry>, Vector, int) -> Option<seq<seq<string>>>,
                                         generate: (string, real) -> string)
    requires Retrieve(store, question, DefaultTopK, embed, query) == []
    ensures Chat(store, question, h1, embed, query, generate) == Chat(store, question, h2, embed, query, generate)
    ensures Chat(store, question, h1, embed, query, generate) == generate(GeneralPrompt(question), 0.3)
  {
  }

  // ---------------------------------------------------------------------------
  // clear_collection

  /** `clear_collection`: the collection is dropped and made anew, empty. */
  function ClearCollection(store: Store): (r: Store)
    ensures DocumentCount(r) == 0
  {
    Store([])
  }

  /** After the collection is cleared, a faithful collection retrieves
      nothing, so `chat` falls back to the general prompt. */
  lemma ClearedChatIsGeneral(store: Store, question: string, history: Option<seq<Message>>,
                             embed: string -> Option<Vector>,
                             query: (seq<Entry>, Vector, int) -> Option<seq<seq<string>>>)
    requires FaithfulQuery(query)
    ensures Retrieve(ClearCollection(store), question, DefaultTopK, embed, query) == []
    ensures ChatPrompt(ClearCollection(store), question, history, embed, query) == GeneralPrompt(question)
  {
    RetrieveBounded(ClearCollection(store), question, DefaultTopK, embed, query);
    assert |Retrieve(ClearCollection(store), question, DefaultTopK, embed, query)| == 0;
  }
}

=== FILE: study_schedule.dfy ===
/** `create_study_schedule` of `utils.py`: topics are dealt out in order,
    `max(1, len(topics) // days)` to a day, over at most `days` days; the
    topics left over then go one by one to the first of the least loaded days.
    The schedule is a map from "Day k" to that day's topics; the model also
    keeps it as the sequence of days in order. */
module StudySchedule {
  import opened PyStr

  const DefaultDays: int := 7

  /** `max(1, len(topics) // days)`, for a positive `days`. */
  function TopicsPerDay(topicCount: nat, days: nat): (p: nat)
    requires days > 0
    ensures p >= 1
  {
    if topicCount / days > 1 then topicCount / days else 1
  }

  /** The first loop: from topic `index` on, one day after another while topics
      and days remain, each day takes the next `perDay` topics or what is left. */
  function DealOut(topics: seq<string>, index: nat, daysLeft: nat, perDay: nat): (r: seq<seq<string>>)
    requires index <= |topics| && perDay >= 1
    ensures index < |topics| && daysLeft > 0 ==> |r| > 0
    ensures index + |Concat(r)| <= |topics|
    decreases daysLeft
  {
    if index < |topics| && daysLeft > 0 then
      var next := if index + perDay <= |topics| then index + perDay else |topics|;
      var rest := DealOut(topics, next, daysLeft - 1, perDay);
      assert ([topics[index..next]] + rest)[1..] == rest;
      [topics[index..next]] + rest
    else []
  }

  /** All topics of a schedule, day after day. */
  function Concat(days: seq<seq<string>>): seq<string> {
    if |days| == 0 then [] else days[0] + Concat(days[1..])
  }

  /** The number of topics the first loop hands out. */
  function Dealt(days: seq<seq<string>>): nat {
    |Concat(days)|
  }

  /** When the topics suffice for every day, each day gets exactly `perDay`
      topics, in order. */
  lemma {:induction false} DealOutFull(topics: seq<string>, index: nat, daysLeft: nat, perDay: nat)
    requires perDay >= 1 && index + daysLeft * perDay <= |topics|
    ensures var r := DealOut(topics, index, daysLeft, perDay);
      && |r| == daysLeft
      && (forall d :: 0 <= d < |r| ==> |r[d]| == perDay)
      && Concat(r) == topics[index..index + daysLeft * perDay]
    decreases daysLeft
  {
    if daysLeft > 0 {
      MulPred(daysLeft, perDay);
      DealOutFull(topics, index + perDay, daysLeft - 1, perDay);
      DealOutFullStep(topics, index, daysLeft, perDay, index + daysLeft * perDay);
    }
  }

  lemma MulPred(a: nat, b: nat)
    requires a > 0
    ensures (a - 1) * b + b == a * b
  {
  }

  /** One day of `DealOutFull`: a full first day ahead of full remaining days. */
  lemma DealOutFullStep(topics: seq<string>, index: nat, daysLeft: nat, perDay: nat, end: nat)
    requires perDay >= 1 && daysLeft > 0 && index + perDay <= end <= |topics|
    requires var rest := DealOut(topics, index + perDay, daysLeft - 1, perDay);
      && |rest| == daysLeft - 1
      && (forall d :: 0 <= d < |rest| ==> |rest[d]| == perDay)
      && Concat(rest) == topics[index + perDay..end]
    ensures var r := DealOut(topics, index, daysLeft, perDay);
      && |r| == daysLeft
      && (forall d :: 0 <= d < |r| ==> |r[d]| == perDay)
      && Concat(r) == topics[index..end]
  {
    var mid := index + perDay;
    var rest := DealOut(topics, mid, daysLeft - 1, perDay);
    var r := DealOut(topics, index, daysLeft, perDay);
    var first := topics[index..mid];
    assert r == [first] + rest;
    ConcatCons(first, rest);
    SliceSplit(topics, index, mid, end);
    forall d | 0 <= d < |r| ensures |r[d]| == perDay {
      if d > 0 { assert r[d] == rest[d - 1]; }
    }
  }

  /** The topics of a day list that starts with `first`. */
  lemma ConcatCons(first: seq<string>, rest: seq<seq<string>>)
    ensures Concat([first] + rest) == first + Concat(rest)
  {
    assert ([first] + rest)[1..] == rest;
  }

  /** A slice is the slices on either side of any point within it. */
  lemma SliceSplit<T>(s: seq<T>, a: nat, b: nat, c: nat)
    requires a <= b <= c <= |s|
    ensures s[a..c] == s[a..b] + s[b..c]
  {
  }

  /** With one topic a day and at least as many days as topics left, each topic
      gets a day of its own. */
  lemma {:induction false} DealOutSingles(topics: seq<string>, index: nat, daysLeft: nat)
    requires index <= |topics| && |topics| - index <= daysLeft
    ensures var r := DealOut(topics, index, daysLeft, 1);
      && |r| == |topics| - index
      && (forall d :: 0 <= d < |r| ==> |r[d]| == 1)
      && Concat(r) == topics[index..]
    decreases daysLeft
  {
    if index < |topics| {
      DealOutSingles(topics, index + 1, daysLeft - 1);
      var r := DealOut(topics, index, daysLeft, 1);
      assert r[1..] == DealOut(topics, index + 1, daysLeft - 1, 1);
      assert topics[index..] == topics[index..index + 1] + topics[index + 1..];
    }
  }

  /** `min(schedule.keys(), key=lambda k: len(schedule[k]))`: the first day,
      in insertion order, among those with the fewest topics. */
  function FirstLeastLoaded(days: seq<seq<string>>): (m: nat)
    requires |days| > 0
    ensures m < |days|
    ensures forall d :: 0 <= d < |days| ==> |days[m]| <= |days[d]|
    ensures forall d :: 0 <= d < m ==> |days[d]| > |days[m]|
  {
    if |days| == 1 then 0
    else
      var k := FirstLeastLoaded(days[1..]) + 1;
      assert forall d :: 1 <= d < |days| ==> days[1..][d - 1] == days[d];
      if |days[0]| <= |days[k]| then 0 else k
  }

  /** The second loop: each leftover topic is appended to the first least
      loaded day. */
  function Distribute(days: seq<seq<string>>, rest: seq<string>): (r: seq<seq<string>>)
    requires |days| > 0
    ensures |r| == |days|
    decreases |rest|
  {
    if |rest| == 0 then days
    else
      var m := FirstLeastLoaded(days);
      Distribute(days[m := days[m] + [rest[0]]], rest[1..])
  }

  /** Days of `perDay` topics, except the first `extra`, which have one more. */
  predicate Staircase(days: seq<seq<string>>, perDay: nat, extra: nat) {
    extra <= |days| && forall d :: 0 <= d < |days| ==> |days[d]| == if d < extra then perDay + 1 else perDay
  }

  /** Adding a topic to one day adds it to the whole schedule. */
  lemma {:induction false} ConcatUpdate(days: seq<seq<string>>, m: nat, t: string)
    requires m < |days|
    ensures multiset(Concat(days[m := days[m] + [t]])) == multiset(Concat(days)) + multiset{t}
  {
    var u := days[m := days[m] + [t]];
    if m == 0 {
      assert u[1..] == days[1..];
    } else {
      ConcatUpdate(days[1..], m - 1, t);
      assert u[1..] == days[1..][m - 1 := days[1..][m - 1] + [t]];
    }
  }

  /** On a staircase the first least loaded day is the first short one, and
      adding to it extends the staircase by one day. */
  lemma {:induction false} DistributeStaircase(days: seq<seq<string>>, rest: seq<string>, perDay: nat, extra: nat)
    requires |days| > 0 && Staircase(days, perDay, extra) && extra + |rest| <= |days|
    ensures Staircase(Distribute(days, rest), perDay, extra + |rest|)
    ensures multiset(Concat(Distribute(days, rest))) == multiset(Concat(days)) + multiset(rest)
    decreases |rest|
  {
    if |rest| > 0 {
      var m := FirstLeastLoaded(days);
      assert |days[extra]| == perDay;
      assert m == extra;
      var u := days[m := days[m] + [rest[0]]];
      ConcatUpdate(days, m, rest[0]);
      DistributeStaircase(u, rest[1..], perDay, extra + 1);
      assert rest == [rest[0]] + rest[1..];
    }
  }

  /** On a staircase the `j`-th leftover topic goes to the end of day
      `extra + j`, and every other day is left as it was. */
  lemma {:induction false} DistributeStaircaseDays(days: seq<seq<string>>, rest: seq<string>, perDay: nat, extra: nat)
    requires |days| > 0 && Staircase(days, perDay, extra) && extra + |rest| <= |days|
    ensures var r := Distribute(days, rest);
      && (forall j :: 0 <= j < |rest| ==> r[extra + j] == days[extra + j] + [rest[j]])
      && (forall d :: 0 <= d < |days| && !(extra <= d < extra + |rest|) ==> r[d] == days[d])
    decreases |rest|
  {
    if |rest| > 0 {
      var m := FirstLeastLoaded(days);
      assert |days[extra]| == perDay;
      assert m == extra;
      var u := days[m := days[m] + [rest[0]]];
      assert Staircase(u, perDay, extra + 1);
      DistributeStaircaseDays(u, rest[1..], perDay, extra + 1);
      var r := Distribute(days, rest);
      assert r == Distribute(u, rest[1..]);
      forall j | 0 <= j < |rest|
        ensures r[extra + j] == days[extra + j] + [rest[j]]
      {
        if j > 0 {
          assert rest[1..][j - 1] == rest[j];
        }
      }
    }
  }

  /** The schedule as the sequence of its days: the two loops of the source,
      and no day at all for no topics or no days. */
  function ScheduleDays(topics: seq<string>, days: int): (r: seq<seq<string>>)
    ensures |topics| == 0 || days <= 0 ==> r == []
  {
    if |topics| == 0 || days <= 0 then []
    else
      var dealt := DealOut(topics, 0, days, TopicsPerDay(|topics|, days));
      Distribute(dealt, topics[|Concat(dealt)|..])
  }

  /** Fewer topics than days: one topic a day, nothing left over. */
  lemma ScheduleFewTopics(topics: seq<string>, days: int)
    requires 0 < |topics| < days
    ensures var r := ScheduleDays(topics, days);
      && |r| == |topics| && Staircase(r, 1, 0) && multiset(Concat(r)) == multiset(topics)
  {
    assert TopicsPerDay(|topics|, days) == 1;
    DealOutSingles(topics, 0, days);
    var dealt := DealOut(topics, 0, days, 1);
    assert topics[0..] == topics;
    assert topics[|Concat(dealt)|..] == [];
  }

  /** The arithmetic of the case with at least as many topics as days. */
  lemma PerDayBounds(n: nat, days: nat)
    requires 0 < days <= n
    ensures TopicsPerDay(n, days) == n / days
    ensures days * (n / days) <= n < days * (n / days) + days
  {
  }

  /** At least as many topics as days: `n // days` topics a day, and the first
      `n % days` days take one leftover topic each. */
  lemma ScheduleManyTopics(topics: seq<string>, days: int)
    requires 0 < days <= |topics|
    ensures var r := ScheduleDays(topics, days);
      && |r| == days && Staircase(r, |topics| / days, |topics| - days * (|topics| / days))
      && multiset(Concat(r)) == multiset(topics)
  {
    var n := |topics|;
    var perDay := n / days;
    PerDayBounds(n, days);
    DealOutFull(topics, 0, days, perDay);
    var dealt := DealOut(topics, 0, days, perDay);
    var rest := topics[days * perDay..];
    assert topics[|Concat(dealt)|..] == rest;
    assert topics == topics[0..days * perDay] + rest;
    assert Staircase(dealt, perDay, 0);
    DistributeStaircase(dealt, rest, perDay, 0);
  }

  /** Day sizes on a staircase differ by at most one and never grow later on. */
  lemma StaircaseBalanced(days: seq<seq<string>>, perDay: nat, extra: nat)
    requires Staircase(days, perDay, extra)
    ensures forall d, e :: 0 <= d < e < |days| ==> |days[e]| <= |days[d]| <= |days[e]| + 1
  {
  }

  /** `create_study_schedule` schedules every topic exactly once over
      min(len(topics), days) days, none of them empty; day sizes differ by at
      most one, and the larger days come first. */
  lemma ScheduleShape(topics: seq<string>, days: int)
    requires |topics| > 0 && days > 0
    ensures var r := ScheduleDays(topics, days);
      && |r| == (if |topics| < days then |topics| else days)
      && multiset(Concat(r)) == multiset(topics)
      && (forall d :: 0 <= d < |r| ==> |r[d]| > 0)
      && (forall d, e :: 0 <= d < e < |r| ==> |r[e]| <= |r[d]| <= |r[e]| + 1)
  {
    var r := ScheduleDays(topics, days);
    if |topics| < days {
      ScheduleFewTopics(topics, days);
      StaircaseBalanced(r, 1, 0);
    } else {
      ScheduleManyTopics(topics, days);
      PerDayBounds(|topics|, days);
      StaircaseBalanced(r, |topics| / days, |topics| - days * (|topics| / days));
    }
  }

  /** With the default of seven days, a list of topics is spread over at most
      a week, one day per topic while there are fewer than seven, and still
      every topic is scheduled exactly once. */
  lemma DefaultWeek(topics: seq<string>)
    requires |topics| > 0
    ensures var r := ScheduleDays(topics, DefaultDays);
      && |r| == (if |topics| < 7 then |topics| else 7)
      && multiset(Concat(r)) == multiset(topics)
  {
    ScheduleShape(topics, DefaultDays);
  }

  /** The key of day `d`. */
  function DayKey(d: nat): string {
    "Day " + NatToString(d)
  }

  lemma DayKeyInjective(a: nat, b: nat)
    requires DayKey(a) == DayKey(b)
    ensures a == b
  {
    assert NatToString(a) == DayKey(a)[4..];
    assert NatToString(b) == DayKey(b)[4..];
    NatToStringInjective(a, b);
  }

  /** The day a key names. */
  ghost function DayOf(k: string): nat {
    if exists d: nat :: DayKey(d) == k then var d: nat :| DayKey(d) == k; d else 0
  }

  /** Each key names its own day, so different days have different keys. */
  lemma DayKeysDistinct()
    ensures forall d: nat :: DayOf(DayKey(d)) == d
  {
    forall d: nat ensures DayOf(DayKey(d)) == d {
      var e: nat :| DayKey(e) == DayKey(d) && DayOf(DayKey(d)) == e;
      DayKeyInjective(d, e);
    }
  }

  /** The days of a schedule keyed by "Day d", counting from 1. */
  function KeyedDays(s: seq<seq<string>>): (r: map<string, seq<string>>)
    ensures forall d :: 1 <= d <= |s| ==> DayKey(d) in r && r[DayKey(d)] == s[d - 1]
    ensures forall k :: k in r ==> exists d :: 1 <= d <= |s| && k == DayKey(d)
  {
    DayKeysDistinct();
    map d: nat | 1 <= d <= |s| :: DayKey(d) := s[d - 1]
  }

  /** `create_study_schedule`: day `d` (counting from 1) is stored under
      "Day d", and no other key is present. */
  function CreateStudySchedule(topics: seq<string>, days: int): (r: map<string, seq<string>>)
    ensures |topics| == 0 || days <= 0 ==> r == map[]
    ensures forall d :: 1 <= d <= |ScheduleDays(topics, days)| ==>
      DayKey(d) in r && r[DayKey(d)] == ScheduleDays(topics, days)[d - 1]
    ensures forall k :: k in r ==> exists d :: 1 <= d <= |ScheduleDays(topics, days)| && k == DayKey(d)
  {
    var r := KeyedDays(ScheduleDays(topics, days));
    if |topics| == 0 || days <= 0 then
      assert forall k :: k !in r;
      map[]
    else r
  }
}

=== FILE: utils.dfy ===
/** Two string helpers of `utils.py`: `clean_filename`, which makes a name
    safe for the file system, and `validate_api_key`, the shape check on a
    Google API key. */
module Utils {
  import opened PyStr

  // ---------------------------------------------------------------------------
  // clean_filename

  /** The characters of the class `[<>:"/\\|?*]`. */
  predicate IsInvalidFileChar(c: char) {
    c == '<' || c == '>' || c == ':' || c == '"' || c == '/' || c == '\\' || c == '|' || c == '?' || c == '*'
  }

  predicate IsUnderscore(c: char) {
    c == '_'
  }

  predicate NotUnderscore(c: char) {
    c != '_'
  }

  /** The characters `clean_filename` keeps as they are: neither invalid nor `_`. */
  predicate IsKeptFileChar(c: char) {
    !IsInvalidFileChar(c) && c != '_'
  }

  /** No two underscores stand next to each other. */
  predicate NoDoubleUnderscore(s: string) {
    forall i :: 0 <= i < |s| - 1 ==> !(s[i] == '_' && s[i + 1] == '_')
  }

  /** What the substitution makes of one character. */
  function ReplaceChar(c: char): char {
    if IsInvalidFileChar(c) then '_' else c
  }

  /** `re.sub(r'[<>:"/\\|?*]', '_', s)`. */
  function ReplaceInvalid(s: string): (r: string)
    ensures |r| == |s|
    ensures forall i :: 0 <= i < |s| ==> !IsInvalidFileChar(r[i])
    ensures forall i :: 0 <= i < |s| && !IsInvalidFileChar(s[i]) ==> r[i] == s[i]
    ensures forall i :: 0 <= i < |s| ==> r[i] == ReplaceChar(s[i])
    ensures Filter(r, NotUnderscore) == Filter(s, IsKeptFileChar)
  {
    if |s| == 0 then []
    else
      var rest := ReplaceInvalid(s[1..]);
      var head := if IsInvalidFileChar(s[0]) then '_' else s[0];
      assert ([head] + rest)[1..] == rest;
      [head] + rest
  }

  /** `re.sub(r'_{2,}', '_', s)`: each run of underscores becomes one. */
  function CollapseUnderscores(s: string): (r: string)
    ensures |r| <= |s|
    ensures |r| > 0 <==> |s| > 0
    ensures |s| > 0 ==> r[0] == s[0]
    ensures NoDoubleUnderscore(r)
  {
    if |s| <= 1 then s
    else
      var rest := CollapseUnderscores(s[1..]);
      if s[0] == '_' && s[1] == '_' then rest
      else
        assert ([s[0]] + rest)[1..] == rest;
        [s[0]] + rest
  }

  /** Collapsing introduces no character. */
  lemma {:induction false} CollapseKeepsChars(s: string)
    ensures multiset(CollapseUnderscores(s)) <= multiset(s)
  {
    if |s| > 1 {
      CollapseKeepsChars(s[1..]);
      assert s == [s[0]] + s[1..];
    }
  }

  /** Collapsing removes underscores only. */
  lemma {:induction false} CollapseKeepsRest(s: string)
    ensures Filter(CollapseUnderscores(s), NotUnderscore) == Filter(s, NotUnderscore)
  {
    if |s| > 1 {
      CollapseKeepsRest(s[1..]);
      var rest := CollapseUnderscores(s[1..]);
      if s[0] != '_' || s[1] != '_' {
        assert ([s[0]] + rest)[1..] == rest;
      }
    }
  }

  /** Collapsing a text without double underscores changes nothing. */
  lemma {:induction false} CollapseUnchanged(s: string)
    requires NoDoubleUnderscore(s)
    ensures CollapseUnderscores(s) == s
  {
    if |s| > 1 {
      CollapseUnchanged(s[1..]);
      assert s == [s[0]] + s[1..];
    }
  }

  /** Dropped elements in front do not change a filtering. */
  lemma {:induction false} FilterDropPrefix<T>(s: seq<T>, a: nat, keep: T -> bool)
    requires a <= |s|
    requires forall i :: 0 <= i < a ==> !keep(s[i])
    ensures Filter(s[a..], keep) == Filter(s, keep)
  {
    if a == 0 {
      assert s[0..] == s;
    } else {
      assert !keep(s[0]);
      assert Filter(s, keep) == Filter(s[1..], keep);
      forall i | 0 <= i < a - 1 ensures !keep(s[1..][i]) {
        assert s[1..][i] == s[i + 1];
      }
      FilterDropPrefix(s[1..], a - 1, keep);
      assert s[1..][a - 1..] == s[a..];
    }
  }

  /** Dropped elements behind do not change a filtering. */
  lemma {:induction false} FilterDropSuffix<T>(s: seq<T>, b: nat, keep: T -> bool)
    requires b <= |s|
    requires forall i :: b <= i < |s| ==> !keep(s[i])
    ensures Filter(s[..b], keep) == Filter(s, keep)
  {
    if b == |s| {
      assert s[..b] == s;
    } else if b == 0 {
      FilterNone(s, keep);
    } else {
      var t := s[..b];
      assert t[0] == s[0];
      assert t[1..] == s[1..][..b - 1];
      forall i | b - 1 <= i < |s[1..]| ensures !keep(s[1..][i]) {
        assert s[1..][i] == s[i + 1];
      }
      FilterDropSuffix(s[1..], b - 1, keep);
    }
  }

  /** Filtering a sequence whose elements outside `s[a..b]` are all dropped
      gives what filtering the slice gives. */
  lemma FilterOutsideDropped<T>(s: seq<T>, a: nat, b: nat, keep: T -> bool)
    requires a <= b <= |s|
    requires forall i :: 0 <= i < a ==> !keep(s[i])
    requires forall i :: b <= i < |s| ==> !keep(s[i])
    ensures Filter(s[a..b], keep) == Filter(s, keep)
  {
    FilterSliceDropSuffix(s, a, b, keep);
    FilterDropPrefix(s, a, keep);
  }

  /** The suffix form of `FilterDropSuffix` for a slice starting at `a`. */
  lemma FilterSliceDropSuffix<T>(s: seq<T>, a: nat, b: nat, keep: T -> bool)
    requires a <= b <= |s|
    requires forall i :: b <= i < |s| ==> !keep(s[i])
    ensures Filter(s[a..b], keep) == Filter(s[a..], keep)
  {
    var t := s[a..];
    assert t[..b - a] == s[a..b];
    forall i | b - a <= i < |t| ensures !keep(t[i]) {
      assert t[i] == s[a + i];
    }
    FilterDropSuffix(t, b - a, keep);
  }

  /** `s.strip('_')` is a slice of `s` with only underscores outside it. */
  lemma TrimUnderscoresIsSlice(s: string) returns (a: nat, b: nat)
    ensures a <= b <= |s| && Trim(s, IsUnderscore) == s[a..b]
    ensures forall i :: 0 <= i < a ==> s[i] == '_'
    ensures forall i :: b <= i < |s| ==> s[i] == '_'
  {
    var l := TrimLeft(s, IsUnderscore);
    a := |s| - |l|;
    var r := TrimRight(l, IsUnderscore);
    b := a + |r|;
    assert r == l[..|r|];
    assert l == s[a..];
    assert r == s[a..b];
    forall i | b <= i < |s| ensures s[i] == '_' {
      assert s[i] == l[i - a];
    }
  }

  /** The steps of `clean_filename`, one after the other. */
  function CleanSteps(filename: string): string {
    Trim(CollapseUnderscores(ReplaceInvalid(filename)), IsUnderscore)
  }

  /** The characters of the cleaned name all come from the replaced name. */
  lemma CleanStepsNoInvalid(filename: string)
    ensures var r := CleanSteps(filename); forall i :: 0 <= i < |r| ==> !IsInvalidFileChar(r[i])
  {
    var replaced := ReplaceInvalid(filename);
    var collapsed := CollapseUnderscores(replaced);
    var r := CleanSteps(filename);
    var a, b := TrimUnderscoresIsSlice(collapsed);
    CollapseKeepsChars(replaced);
    forall i | 0 <= i < |r| ensures !IsInvalidFileChar(r[i]) {
      assert r[i] == collapsed[a + i];
      assert collapsed[a + i] in multiset(collapsed);
      assert r[i] in multiset(replaced);
      var k :| 0 <= k < |replaced| && replaced[k] == r[i];
    }
  }

  lemma CleanStepsShape(filename: string)
    ensures var r := CleanSteps(filename);
      NoDoubleUnderscore(r) && (r == [] || (r[0] != '_' && r[|r| - 1] != '_'))
  {
    var collapsed := CollapseUnderscores(ReplaceInvalid(filename));
    var a, b := TrimUnderscoresIsSlice(collapsed);
    SliceNoDoubleUnderscore(collapsed, a, b);
    var l := TrimLeft(collapsed, IsUnderscore);
    assert CleanSteps(filename) == TrimRight(l, IsUnderscore);
  }

  lemma CleanStepsKeeps(filename: string)
    ensures Filter(CleanSteps(filename), NotUnderscore) == Filter(filename, IsKeptFileChar)
  {
    var replaced := ReplaceInvalid(filename);
    var collapsed := CollapseUnderscores(replaced);
    var a, b := TrimUnderscoresIsSlice(collapsed);
    FilterOutsideDropped(collapsed, a, b, NotUnderscore);
    CollapseKeepsRest(replaced);
  }

  /** A slice of a text without double underscores has none either. */
  lemma SliceNoDoubleUnderscore(s: string, a: nat, b: nat)
    requires a <= b <= |s| && NoDoubleUnderscore(s)
    ensures NoDoubleUnderscore(s[a..b])
  {
    forall i | 0 <= i < b - a - 1 ensures !(s[a..b][i] == '_' && s[a..b][i + 1] == '_') {
      assert s[a..b][i] == s[a + i] && s[a..b][i + 1] == s[a + i + 1];
    }
  }

  /** `clean_filename`: invalid characters become underscores, runs of
      underscores shrink to one, and underscores at either end are stripped.
      The result has no invalid character, no double underscore and no
      underscore at either end, and keeps every other character of the name in
      order. */
  function CleanFilename(filename: string): (r: string)
    ensures forall i :: 0 <= i < |r| ==> !IsInvalidFileChar(r[i])
    ensures NoDoubleUnderscore(r)
    ensures r == [] || (r[0] != '_' && r[|r| - 1] != '_')
    ensures Filter(r, NotUnderscore) == Filter(filename, IsKeptFileChar)
  {
    CleanStepsNoInvalid(filename);
    CleanStepsShape(filename);
    CleanStepsKeeps(filename);
    CleanSteps(filename)
  }

  /** The substitution applied to each character on its own. */
  function Replaced(s: string): string {
    seq(|s|, i requires 0 <= i < |s| => ReplaceChar(s[i]))
  }

  lemma ReplacedAppend(a: string, b: string)
    ensures Replaced(a + b) == Replaced(a) + Replaced(b)
  {
    assert forall i :: 0 <= i < |a| ==> (a + b)[i] == a[i];
    assert forall i :: |a| <= i < |a + b| ==> (a + b)[i] == b[i - |a|];
  }

  lemma ReplaceInvalidIsReplaced(s: string)
    ensures ReplaceInvalid(s) == Replaced(s)
  {
  }

  /** The substitution works character by character. */
  lemma ReplaceInvalidAppend(a: string, b: string)
    ensures ReplaceInvalid(a + b) == ReplaceInvalid(a) + ReplaceInvalid(b)
  {
    ReplaceInvalidIsReplaced(a + b);
    ReplaceInvalidIsReplaced(a);
    ReplaceInvalidIsReplaced(b);
    ReplacedAppend(a, b);
  }

  /** Text made of underscores only. */
  predicate AllUnderscores(s: string) {
    forall i :: 0 <= i < |s| ==> s[i] == '_'
  }

  /** Collapsing works piece by piece where the pieces do not meet in two
      underscores. */
  lemma {:induction false} CollapseAppend(x: string, y: string)
    requires x == [] || y == [] || x[|x| - 1] != '_' || y[0] != '_'
    ensures CollapseUnderscores(x + y) == CollapseUnderscores(x) + CollapseUnderscores(y)
    decreases |x|
  {
    if |x| == 0 {
      assert x + y == y;
    } else if |y| == 0 {
      assert x + y == x;
    } else if |x| == 1 {
      assert (x + y)[1..] == y;
    } else {
      CollapseAppend(x[1..], y);
      assert (x + y)[1..] == x[1..] + y;
    }
  }

  /** Collapsing keeps the last character. */
  lemma {:induction false} CollapseLast(s: string)
    requires |s| > 0
    ensures var r := CollapseUnderscores(s); |r| > 0 && r[|r| - 1] == s[|s| - 1]
  {
    if |s| > 1 {
      CollapseLast(s[1..]);
    }
  }

  /** A run of underscores collapses to one. */
  lemma {:induction false} CollapseRun(u: string)
    requires |u| > 0 && AllUnderscores(u)
    ensures CollapseUnderscores(u) == "_"
  {
    if |u| > 1 {
      CollapseRun(u[1..]);
    } else {
      assert u == "_";
    }
  }

  /** A lone underscore between two other characters survives collapsing. */
  lemma LoneUnderscoreStays(x: string, y: string)
    requires x != [] && x[|x| - 1] != '_'
    requires y != [] && y[0] != '_'
    ensures CollapseUnderscores(x + "_" + y) == CollapseUnderscores(x) + "_" + CollapseUnderscores(y)
  {
    CollapseAppend(x, "_" + y);
    CollapseAppend("_", y);
    assert x + "_" + y == x + ("_" + y);
  }

  /** Underscores around a text that starts and ends otherwise are stripped,
      and nothing else is. */
  lemma {:induction false} TrimAround(p: string, m: string, q: string)
    requires AllUnderscores(p) && AllUnderscores(q)
    requires m != [] && m[0] != '_' && m[|m| - 1] != '_'
    ensures Trim(p + m + q, IsUnderscore) == m
  {
    TrimLeftUnderscores(p, m + q);
    assert p + m + q == p + (m + q);
    TrimRightUnderscores(m, q);
  }

  lemma {:induction false} TrimLeftUnderscores(p: string, w: string)
    requires AllUnderscores(p) && w != [] && w[0] != '_'
    ensures TrimLeft(p + w, IsUnderscore) == w
  {
    if |p| == 0 {
      assert p + w == w;
    } else {
      assert (p + w)[1..] == p[1..] + w;
      TrimLeftUnderscores(p[1..], w);
    }
  }

  lemma {:induction false} TrimRightUnderscores(w: string, q: string)
    requires AllUnderscores(q) && w != [] && w[|w| - 1] != '_'
    ensures TrimRight(w + q, IsUnderscore) == w
  {
    if |q| == 0 {
      assert w + q == w;
    } else {
      assert (w + q)[..|w + q| - 1] == w + q[..|q| - 1];
      TrimRightUnderscores(w, q[..|q| - 1]);
    }
  }

  /** `s.strip('_')` is a slice of `s` with only underscores around it. */
  lemma StripParts(s: string) returns (a: nat, b: nat)
    ensures a <= b <= |s| && Trim(s, IsUnderscore) == s[a..b]
    ensures AllUnderscores(s[..a]) && AllUnderscores(s[b..])
  {
    a, b := TrimUnderscoresIsSlice(s);
    assert forall i :: 0 <= i < |s[b..]| ==> s[b..][i] == s[b + i];
  }

  /** What `strip` leaves starts and ends with a character it keeps. */
  lemma TrimEnds(s: string, drop: char -> bool)
    ensures var m := Trim(s, drop); m == [] || (!drop(m[0]) && !drop(m[|m| - 1]))
  {
    var l := TrimLeft(s, drop);
    var m := TrimRight(l, drop);
    assert m == [] || m[0] == l[0];
  }

  /** Two runs of underscores make one. */
  lemma UnderscoresAppend(p: string, q: string)
    requires AllUnderscores(p) && AllUnderscores(q)
    ensures AllUnderscores(p + q)
  {
  }

  /** Underscores alone collapse and strip to nothing. */
  lemma CleanUnderscores(u: string)
    requires AllUnderscores(u)
    ensures Trim(CollapseUnderscores(u), IsUnderscore) == []
  {
    if |u| > 0 {
      CollapseRun(u);
      assert TrimLeft("_", IsUnderscore) == TrimLeft([], IsUnderscore);
    }
  }

  /** Underscores around a core collapse to at most one on each side, and
      stripping removes them. */
  lemma CleanAround(p: string, m: string, q: string)
    requires AllUnderscores(p) && AllUnderscores(q)
    requires m != [] && m[0] != '_' && m[|m| - 1] != '_'
    ensures Trim(CollapseUnderscores(p + m + q), IsUnderscore) == CollapseUnderscores(m)
  {
    CollapseAppend(p, m + q);
    CollapseAppend(m, q);
    CollapseLast(m);
    assert p + m + q == p + (m + q);
    CollapseUnderscoresStay(p);
    CollapseUnderscoresStay(q);
    var cp, cm, cq := CollapseUnderscores(p), CollapseUnderscores(m), CollapseUnderscores(q);
    assert CollapseUnderscores(p + m + q) == cp + cm + cq;
    TrimAround(cp, cm, cq);
  }

  /** Collapsing underscores leaves underscores. */
  lemma CollapseUnderscoresStay(p: string)
    requires AllUnderscores(p)
    ensures AllUnderscores(CollapseUnderscores(p))
  {
    if |p| > 0 {
      CollapseRun(p);
    }
  }

  /** Underscores with an empty core between them clean to nothing. */
  lemma CleanEmptyCore(p: string, m: string, q: string)
    requires AllUnderscores(p) && AllUnderscores(q) && m == []
    ensures Trim(CollapseUnderscores(p + m + q), IsUnderscore) == []
  {
    assert p + m + q == p + q;
    UnderscoresAppend(p, q);
    CleanUnderscores(p + q);
  }

  /** A core between underscores cleans to the collapsed core. */
  lemma CleanParts(p: string, m: string, q: string)
    requires AllUnderscores(p) && AllUnderscores(q)
    requires m == [] || (m[0] != '_' && m[|m| - 1] != '_')
    ensures Trim(CollapseUnderscores(p + m + q), IsUnderscore) == CollapseUnderscores(m)
  {
    if m == [] {
      CleanEmptyCore(p, m, q);
    } else {
      CleanAround(p, m, q);
    }
  }

  /** `s.strip('_')` splits `s` into leading underscores, the stripped core,
      which starts and ends otherwise unless it is empty, and trailing
      underscores. */
  lemma StripSplit(s: string) returns (p: string, m: string, q: string)
    ensures s == p + m + q && Trim(s, IsUnderscore) == m
    ensures AllUnderscores(p) && AllUnderscores(q)
    ensures m == [] || (m[0] != '_' && m[|m| - 1] != '_')
  {
    var a, b := StripParts(s);
    SliceThree(s, a, b);
    TrimEnds(s, IsUnderscore);
    p, m, q := s[..a], s[a..b], s[b..];
  }

  /** Stripping underscores after collapsing is collapsing the stripped text. */
  lemma CleanCore(u: string)
    ensures Trim(CollapseUnderscores(u), IsUnderscore) == CollapseUnderscores(Trim(u, IsUnderscore))
  {
    var p, m, q := StripSplit(u);
    CleanParts(p, m, q);
  }

  /** Collapsing around a run of underscores between two cores leaves one. */
  lemma CollapseJoin(m1: string, v: string, m2: string)
    requires m1 != [] && m1[|m1| - 1] != '_' && m2 != [] && m2[0] != '_'
    requires |v| > 0 && AllUnderscores(v)
    ensures CollapseUnderscores(m1 + v + m2) == CollapseUnderscores(m1) + "_" + CollapseUnderscores(m2)
  {
    CollapseAppend(m1, v + m2);
    CollapseAppend(v, m2);
    CollapseRun(v);
    CollapseLast(m1);
    assert m1 + v + m2 == m1 + (v + m2);
  }

  /** The separator becomes an underscore, and both sides are replaced on
      their own. */
  lemma ReplaceAroundSeparator(x: string, c: char, y: string)
    requires IsInvalidFileChar(c) || c == '_'
    ensures ReplaceInvalid(x + [c] + y) == ReplaceInvalid(x) + "_" + ReplaceInvalid(y)
  {
    ReplaceInvalidAppend(x + [c], y);
    ReplaceInvalidAppend(x, [c]);
    assert ReplaceInvalid([c]) == "_";
  }

  /** Stripping underscores from two texts joined by one keeps the run of
      underscores between their cores. */
  lemma StripJoin(ra: string, rb: string) returns (v: string)
    requires Trim(ra, IsUnderscore) != [] && Trim(rb, IsUnderscore) != []
    ensures |v| > 0 && AllUnderscores(v)
    ensures Trim(ra + "_" + rb, IsUnderscore) == Trim(ra, IsUnderscore) + v + Trim(rb, IsUnderscore)
  {
    var p1, m1, q1 := StripSplit(ra);
    var p2, m2, q2 := StripSplit(rb);
    v := StripJoinParts(p1, m1, q1, p2, m2, q2);
  }

  /** `StripJoin` on texts given by their parts. */
  lemma StripJoinParts(p1: string, m1: string, q1: string, p2: string, m2: string, q2: string) returns (v: string)
    requires AllUnderscores(p1) && AllUnderscores(q1) && AllUnderscores(p2) && AllUnderscores(q2)
    requires m1 != [] && m1[0] != '_' && m1[|m1| - 1] != '_'
    requires m2 != [] && m2[0] != '_' && m2[|m2| - 1] != '_'
    ensures |v| > 0 && AllUnderscores(v)
    ensures Trim((p1 + m1 + q1) + "_" + (p2 + m2 + q2), IsUnderscore) == m1 + v + m2
  {
    v := q1 + "_" + p2;
    UnderscoresAppend(q1, "_");
    UnderscoresAppend(q1 + "_", p2);
    Regroup(p1, m1, q1, p2, m2, q2);
    TrimAround(p1, m1 + v + m2, q2);
  }

  lemma SliceThree(s: string, a: nat, b: nat)
    requires a <= b <= |s|
    ensures s == s[..a] + s[a..b] + s[b..]
  {
  }

  lemma Regroup(p1: string, m1: string, q1: string, p2: string, m2: string, q2: string)
    ensures (p1 + m1 + q1) + "_" + (p2 + m2 + q2) == p1 + (m1 + (q1 + "_" + p2) + m2) + q2
  {
  }

  /** Cleaning two replaced texts joined by an underscore, when both clean to
      something, joins the cleaned texts with one underscore. */
  lemma CleanJoin(ra: string, rb: string)
    requires Trim(CollapseUnderscores(ra), IsUnderscore) != []
    requires Trim(CollapseUnderscores(rb), IsUnderscore) != []
    ensures Trim(CollapseUnderscores(ra + "_" + rb), IsUnderscore)
         == Trim(CollapseUnderscores(ra), IsUnderscore) + "_" + Trim(CollapseUnderscores(rb), IsUnderscore)
  {
    CleanCore(ra);
    CleanCore(rb);
    CleanCore(ra + "_" + rb);
    var m1, m2 := Trim(ra, IsUnderscore), Trim(rb, IsUnderscore);
    assert m1 != [] && m2 != [];
    TrimEnds(ra, IsUnderscore);
    TrimEnds(rb, IsUnderscore);
    var v := StripJoin(ra, rb);
    CollapseJoin(m1, v, m2);
  }

  /** An invalid character or an underscore between two parts that both keep
      something becomes exactly one underscore between the cleaned parts; so
      `clean_filename` puts one `_` where the name had a run of invalid
      characters or underscores between kept characters, and nowhere else. */
  lemma CleanFilenameSplit(x: string, c: char, y: string)
    requires IsInvalidFileChar(c) || c == '_'
    requires CleanFilename(x) != [] && CleanFilename(y) != []
    ensures CleanFilename(x + [c] + y) == CleanFilename(x) + "_" + CleanFilename(y)
  {
    ReplaceAroundSeparator(x, c, y);
    CleanJoin(ReplaceInvalid(x), ReplaceInvalid(y));
  }

  /** Cleaning a cleaned name changes nothing. */
  lemma CleanFilenameIdempotent(filename: string)
    ensures CleanFilename(CleanFilename(filename)) == CleanFilename(filename)
  {
    var c := CleanFilename(filename);
    var replaced := ReplaceInvalid(c);
    assert forall i :: 0 <= i < |c| ==> replaced[i] == c[i];
    assert replaced == c;
    CollapseUnchanged(c);
    TrimUnchanged(c, IsUnderscore);
    assert CleanSteps(c) == c;
  }

  // ---------------------------------------------------------------------------
  // validate_api_key

  const ApiKeyLength: nat := 39

  /** `validate_api_key`: the empty key is rejected, then a key must start with
      "AIza" or "BIza", then it must be 39 characters long. Put character by
      character: 39 characters, the first an `A` or a `B`, then "Iza"; the
      emptiness test is implied by the length test. */
  function ValidateApiKey(apiKey: string): (r: bool)
    ensures r <==> |apiKey| == 39 && (apiKey[0] == 'A' || apiKey[0] == 'B')
                   && apiKey[1] == 'I' && apiKey[2] == 'z' && apiKey[3] == 'a'
  {
    if |apiKey| == 0 then false
    else if !StartsWith(apiKey, "AIza") && !StartsWith(apiKey, "BIza") then false
    else if |apiKey| != ApiKeyLength then false
    else true
  }
}

=== FILE: word_cloud.dfy ===
/** `generate_word_cloud_data` of `utils.py`: the words of at least three
    letters in the lower-cased text, less the stop words, counted and listed
    most frequent first, at most `max_words` of them. `Counter.most_common`
    sorts stably, so words of equal count keep the order of their first
    occurrence; for a non-positive `max_words` it returns nothing. */
module WordCloud {
  import opened PyStr
  import opened Wrappers
  import opened Findall

  // ---------------------------------------------------------------------------
  // tokens: re.findall(r'\b[a-zA-Z]{3,}\b', text.lower())

  /** The end of the run of ASCII letters that starts at `i`. */
  function LetterEnd(t: string, i: nat): (e: nat)
    requires i <= |t|
    ensures i <= e <= |t|
    ensures forall k :: i <= k < e ==> IsAsciiLetter(t[k])
    ensures e == |t| || !IsAsciiLetter(t[e])
    decreases |t| - i
  {
    if i < |t| && IsAsciiLetter(t[i]) then LetterEnd(t, i + 1) else i
  }

  /** `\b[a-zA-Z]{3,}\b` matches `t[i..e]`. */
  predicate TokenMatches(t: string, i: nat, e: nat)
    requires i <= e <= |t|
  {
    Boundary(t, i) && i + 3 <= e && (forall j :: i <= j < e ==> IsAsciiLetter(t[j])) && Boundary(t, e)
  }

  /** The end of the match of `\b[a-zA-Z]{3,}\b` at `i`. The run of letters
      is taken whole: backing off inside it never finds a `\b`, so a run
      followed by a digit or `_` gives nothing. */
  function TokenEnd(t: string, i: nat): (r: Option<nat>)
    requires i <= |t|
    ensures r.Some? ==> i < r.value <= |t| && TokenMatches(t, i, r.value)
  {
    if i < |t| && IsAsciiLetter(t[i]) && Boundary(t, i) then
      var e := LetterEnd(t, i);
      if e - i >= 3 && Boundary(t, e) then Some(e) else None
    else None
  }

  /** `TokenEnd` finds every match: when the pattern matches `t[i..e]`, the
      match at `i` is exactly that one. */
  lemma TokenEndFindsMatch(t: string, i: nat, e: nat)
    requires i <= e <= |t| && TokenMatches(t, i, e)
    ensures TokenEnd(t, i) == Some(e)
  {
    var x := LetterEnd(t, i);
    assert IsAsciiLetter(t[i]) && IsAsciiLetter(t[e - 1]);
    assert e < |t| ==> !IsAsciiLetter(t[e]);
    assert x == e;
  }

  /** The match of the token pattern at each position of `t`. */
  function TokenTable(t: string): (m: seq<Option<nat>>)
    ensures |m| == |t| && ValidTable(m)
    ensures forall p :: 0 <= p < |t| ==> m[p] == TokenEnd(t, p)
  {
    seq(|t|, p requires 0 <= p < |t| => TokenEnd(t, p))
  }

  /** The matches `re.findall(r'\b[a-zA-Z]{3,}\b', t)` makes from `i` on. */
  function TokenSpans(t: string, i: nat): (r: seq<Span>)
    requires i <= |t|
    ensures forall k :: 0 <= k < |r| ==> i <= r[k].start < r[k].end <= |t|
  {
    Scan(TokenTable(t), i)
  }

  /** `TokenSpans` is `re.findall`: each span is a match of the pattern, the
      spans come in order without overlapping, and every match of the pattern
      from `i` on is one of the spans or starts inside one. */
  lemma TokenSpansAreFindall(t: string, i: nat)
    requires i <= |t|
    ensures var r := TokenSpans(t, i);
      && (forall k :: 0 <= k < |r| ==> TokenMatches(t, r[k].start, r[k].end))
      && (forall j, k :: 0 <= j < k < |r| ==> r[j].end <= r[k].start)
      && (forall p, e :: i <= p <= e <= |t| && TokenMatches(t, p, e) ==> Covered(r, p))
  {
    var m := TokenTable(t);
    var r := TokenSpans(t, i);
    forall k | 0 <= k < |r| ensures TokenMatches(t, r[k].start, r[k].end) {
      ScanIsMatch(m, i, k);
    }
    forall j, k | 0 <= j < k < |r| ensures r[j].end <= r[k].start {
      ScanInOrder(m, i, j, k);
    }
    forall p, e | i <= p <= e <= |t| && TokenMatches(t, p, e) ensures Covered(r, p) {
      TokenEndFindsMatch(t, p, e);
      ScanCovers(m, i, p);
    }
  }

  /** The text of each token span is three or more letters, lower-case ones
      when the text has no capitals. */
  lemma TokenTexts(t: string, i: nat)
    requires i <= |t|
    ensures var r := TokenSpans(t, i);
      forall k :: 0 <= k < |r| ==> var w := t[r[k].start..r[k].end];
        && |w| >= 3 && (forall j :: 0 <= j < |w| ==> IsAsciiLetter(w[j]))
        && ((forall j :: 0 <= j < |t| ==> !IsUpperChar(t[j])) ==> forall j :: 0 <= j < |w| ==> IsLowerChar(w[j]))
  {
    var r := TokenSpans(t, i);
    forall k | 0 <= k < |r|
      ensures var w := t[r[k].start..r[k].end];
        && |w| >= 3 && (forall j :: 0 <= j < |w| ==> IsAsciiLetter(w[j]))
        && ((forall j :: 0 <= j < |t| ==> !IsUpperChar(t[j])) ==> forall j :: 0 <= j < |w| ==> IsLowerChar(w[j]))
    {
      ScanIsMatch(TokenTable(t), i, k);
      var w := t[r[k].start..r[k].end];
      assert forall j :: 0 <= j < |w| ==> w[j] == t[r[k].start + j];
    }
  }

  /** The words `\b[a-zA-Z]{3,}\b` finds from position `i` on: the texts of
      the token spans, in order. */
  function TokensFrom(t: string, i: nat): (r: seq<string>)
    requires i <= |t|
    ensures |r| == |TokenSpans(t, i)|
    ensures forall k :: 0 <= k < |r| ==> r[k] == t[TokenSpans(t, i)[k].start..TokenSpans(t, i)[k].end]
    ensures forall k :: 0 <= k < |r| ==> |r[k]| >= 3 && forall j :: 0 <= j < |r[k]| ==> IsAsciiLetter(r[k][j])
    ensures (forall j :: 0 <= j < |t| ==> !IsUpperChar(t[j])) ==>
      forall k :: 0 <= k < |r| ==> forall j :: 0 <= j < |r[k]| ==> IsLowerChar(r[k][j])
  {
    var spans := TokenSpans(t, i);
    TokenTexts(t, i);
    seq(|spans|, k requires 0 <= k < |spans| => t[spans[k].start..spans[k].end])
  }

  lemma LowerHasNoUpper(text: string)
    ensures forall j :: 0 <= j < |Lower(text)| ==> !IsUpperChar(Lower(text)[j])
  {
  }

  /** The words of the lower-cased text: lower-case letters, three or more. */
  function Tokens(text: string): (r: seq<string>)
    ensures forall k :: 0 <= k < |r| ==> |r[k]| >= 3 && forall j :: 0 <= j < |r[k]| ==> IsLowerChar(r[k][j])
  {
    LowerHasNoUpper(text);
    TokensFrom(Lower(text), 0)
  }

  // ---------------------------------------------------------------------------
  // stop words and counting

  const StopWords: set<string> := {
    "the", "and", "or", "but", "in", "on", "at", "to", "for", "of", "with",
    "by", "from", "up", "about", "into", "through", "during", "before",
    "after", "above", "below", "between", "among", "this", "that", "these",
    "those", "is", "are", "was", "were", "be", "been", "being", "have",
    "has", "had", "do", "does", "did", "will", "would", "could", "should",
    "may", "might", "must", "can", "shall", "not", "no", "yes"
  }

  predicate NotStopWord(w: string) {
    w !in StopWords
  }

  /** One entry of the result: `{"text": word, "value": freq}`. */
  datatype WordCount = WordCount(text: string, value: nat)

  /** No element occurs twice. */
  predicate NoDuplicates<T(==)>(s: seq<T>) {
    forall i, j :: 0 <= i < j < |s| ==> s[i] != s[j]
  }

  /** The distinct elements of `s` in the order of their first occurrence, the
      order in which a `Counter` lists its keys. */
  function Distinct(s: seq<string>): (r: seq<string>)
    ensures NoDuplicates(r)
    ensures forall x :: x in r <==> x in s
  {
    if |s| == 0 then []
    else
      var d := Distinct(s[..|s| - 1]);
      assert forall x :: x in s <==> x in s[..|s| - 1] || x == s[|s| - 1] by {
        assert s == s[..|s| - 1] + [s[|s| - 1]];
      }
      if s[|s| - 1] in d then d else d + [s[|s| - 1]]
  }

  /** `Counter(words).items()`: each distinct word with its number of
      occurrences. */
  function Counts(words: seq<string>): (r: seq<WordCount>)
    ensures |r| == |Distinct(words)|
    ensures forall i :: 0 <= i < |r| ==> r[i] == WordCount(Distinct(words)[i], multiset(words)[Distinct(words)[i]])
  {
    var d := Distinct(words);
    seq(|d|, i requires 0 <= i < |d| => WordCount(d[i], multiset(words)[d[i]]))
  }

  // ---------------------------------------------------------------------------
  // most_common: a stable sort by count, largest first

  predicate Descending(s: seq<WordCount>) {
    forall i, j :: 0 <= i < j < |s| ==> s[i].value >= s[j].value
  }

  /** Inserts `x` in front of the first entry whose count is not larger, so
      that it goes before the entries of equal count. */
  function Insert(x: WordCount, s: seq<WordCount>): (r: seq<WordCount>)
    ensures multiset(r) == multiset(s) + multiset{x}
    ensures |r| == |s| + 1
    ensures forall y :: y in r ==> y in s || y == x
  {
    if |s| == 0 || s[0].value <= x.value then [x] + s
    else
      var rest := Insert(x, s[1..]);
      assert s == [s[0]] + s[1..];
      [s[0]] + rest
  }

  lemma {:induction false} InsertDescending(x: WordCount, s: seq<WordCount>)
    requires Descending(s)
    ensures Descending(Insert(x, s))
  {
    if |s| > 0 && s[0].value > x.value {
      InsertDescending(x, s[1..]);
      var rest := Insert(x, s[1..]);
      forall j | 0 <= j < |rest| ensures s[0].value >= rest[j].value {
        assert rest[j] in rest;
        if rest[j] != x {
          var k :| 0 <= k < |s[1..]| && s[1..][k] == rest[j];
          assert s[1..][k] == s[k + 1];
        }
      }
    }
  }

  /** Sorts by count, largest first; entries of equal count keep their order. */
  function SortByCount(s: seq<WordCount>): (r: seq<WordCount>)
    ensures multiset(r) == multiset(s)
    ensures Descending(r)
  {
    if |s| == 0 then []
    else
      var rest := SortByCount(s[1..]);
      InsertDescending(s[0], rest);
      HeadMultiset(s);
      Insert(s[0], rest)
  }

  /** The entries of `s` whose count is `v`, in their order in `s`. */
  function WithCount(s: seq<WordCount>, v: nat): (r: seq<WordCount>)
    ensures forall x :: x in r <==> x in s && x.value == v
  {
    if |s| == 0 then []
    else
      assert forall x :: x in s <==> x == s[0] || x in s[1..] by {
        assert s == [s[0]] + s[1..];
      }
      (if s[0].value == v then [s[0]] else []) + WithCount(s[1..], v)
  }

  /** Inserting `x` puts it in front of every entry of its own count and
      leaves the order of the entries of each other count alone. */
  lemma {:induction false} InsertWithCount(x: WordCount, s: seq<WordCount>, v: nat)
    ensures WithCount(Insert(x, s), v) == (if x.value == v then [x] else []) + WithCount(s, v)
  {
    if |s| > 0 && s[0].value > x.value {
      InsertWithCount(x, s[1..], v);
      assert Insert(x, s) == [s[0]] + Insert(x, s[1..]);
      assert ([s[0]] + Insert(x, s[1..]))[1..] == Insert(x, s[1..]);
    } else {
      assert ([x] + s)[1..] == s;
    }
  }

  /** The sort is stable: for every count, the entries of that count come in
      the same order in the result as in `s`. */
  lemma {:induction false} SortIsStable(s: seq<WordCount>, v: nat)
    ensures WithCount(SortByCount(s), v) == WithCount(s, v)
  {
    if |s| > 0 {
      SortIsStable(s[1..], v);
      InsertWithCount(s[0], SortByCount(s[1..]), v);
    }
  }

  /** Keeping the entries of one count commutes with taking a prefix: the
      entries of count `v` among the first `n` are a prefix of those of `s`. */
  lemma {:induction false} WithCountOfPrefix(s: seq<WordCount>, n: nat, v: nat)
    requires n <= |s|
    ensures WithCount(s[..n], v) <= WithCount(s, v)
  {
    if n > 0 {
      WithCountOfPrefix(s[1..], n - 1, v);
      assert s[..n][1..] == s[1..][..n - 1];
      assert s[..n][0] == s[0];
    }
  }

  /** `most_common` breaks ties by first occurrence: the entries of each count
      it returns are the first ones of that count in `counts`, in the order
      `counts` lists them. */
  lemma MostCommonIsStable(counts: seq<WordCount>, n: int, v: nat)
    ensures WithCount(MostCommon(counts, n), v) <= WithCount(counts, v)
  {
    var sorted := SortByCount(counts);
    SortIsStable(counts, v);
    if n > 0 {
      WithCountOfPrefix(sorted, |Take(sorted, n)|, v);
    }
  }

  /** `Counter.most_common(n)`: the first `n` entries of the sorted list, and
      none at all for `n <= 0`. */
  function MostCommon(counts: seq<WordCount>, n: int): (r: seq<WordCount>)
    ensures n <= 0 ==> r == []
    ensures n > 0 ==> r == Take(SortByCount(counts), n)
  {
    if n <= 0 then [] else Take(SortByCount(counts), n)
  }

  /** `generate_word_cloud_data`. */
  function GenerateWordCloudData(text: string, maxWords: int): seq<WordCount> {
    MostCommon(Counts(Filter(Tokens(text), NotStopWord)), maxWords)
  }

  // ---------------------------------------------------------------------------
  // properties

  /** An element occurs at most once in a sequence without duplicates. */
  lemma {:induction false} NoDuplicatesCount<T>(s: seq<T>, x: T)
    requires NoDuplicates(s)
    ensures multiset(s)[x] <= 1
  {
    if |s| > 0 {
      NoDuplicatesCount(s[1..], x);
      assert s == [s[0]] + s[1..];
      if x == s[0] {
        assert x !in s[1..];
      }
    }
  }

  /** A permutation of a sequence without duplicates has none either. */
  lemma PermutationNoDuplicates<T>(a: seq<T>, b: seq<T>)
    requires NoDuplicates(a) && multiset(a) == multiset(b)
    ensures NoDuplicates(b)
  {
    forall i, j | 0 <= i < j < |b| ensures b[i] != b[j] {
      var x := b[i];
      NoDuplicatesCount(a, x);
      assert b == b[..j] + b[j..];
      assert b[..j][i] == x;
      assert multiset(b)[x] == multiset(b[..j])[x] + multiset(b[j..])[x];
      assert multiset(b[j..])[x] == 0;
      assert b[j..][0] == b[j];
    }
  }

  /** A kept element occurs as often after filtering as before. */
  lemma {:induction false} FilterCount<T>(s: seq<T>, keep: T -> bool, x: T)
    requires keep(x)
    ensures multiset(Filter(s, keep))[x] == multiset(s)[x]
  {
    if |s| > 0 {
      FilterCount(s[1..], keep, x);
      assert s == [s[0]] + s[1..];
    }
  }

  /** The entries of the sorted counts: distinct words, none a stop word, each
      with its number of occurrences among the tokens. */
  lemma SortedEntries(text: string)
    ensures var tokens := Tokens(text);
      var sorted := SortByCount(Counts(Filter(tokens, NotStopWord)));
      && NoDuplicates(sorted)
      && (forall i :: 0 <= i < |sorted| ==> sorted[i] in Counts(Filter(tokens, NotStopWord)))
      && (forall i :: 0 <= i < |sorted| ==> Counted(tokens, sorted[i]))
  {
    var tokens := Tokens(text);
    var filtered := Filter(tokens, NotStopWord);
    var counts := Counts(filtered);
    var sorted := SortByCount(counts);
    var d := Distinct(filtered);
    assert NoDuplicates(counts) by {
      forall i, j | 0 <= i < j < |counts| ensures counts[i] != counts[j] {
        assert counts[i].text == d[i] && counts[j].text == d[j];
      }
    }
    PermutationNoDuplicates(counts, sorted);
    forall i | 0 <= i < |sorted|
      ensures sorted[i] in counts
      ensures Counted(tokens, sorted[i])
    {
      assert sorted[i] in multiset(counts);
      var k :| 0 <= k < |counts| && counts[k] == sorted[i];
      var w := d[k];
      assert w in d;
      assert w in filtered;
      var m :| 0 <= m < |filtered| && filtered[m] == w;
      assert NotStopWord(w);
      assert w in multiset(filtered);
      FilterCount(tokens, NotStopWord, w);
      assert w in multiset(tokens);
    }
  }

  /** The entries of the word cloud: at most `max_words` distinct words, none a
      stop word, each with its number of occurrences in the text, counts never
      increasing down the list. */
  lemma WordCloudEntries(text: string, maxWords: int)
    ensures var r := GenerateWordCloudData(text, maxWords);
      var tokens := Tokens(text);
      && (maxWords <= 0 ==> r == [])
      && (maxWords > 0 ==> |r| <= maxWords)
      && NoDuplicates(r)
      && (forall i :: 0 <= i < |r| ==>
            NotStopWord(r[i].text) && r[i].text in tokens && r[i].value == multiset(tokens)[r[i].text] >= 1)
      && (forall i, j :: 0 <= i < j < |r| ==> r[i].value >= r[j].value)
  {
    SortedEntries(text);
    var sorted := SortByCount(Counts(Filter(Tokens(text), NotStopWord)));
    var r := GenerateWordCloudData(text, maxWords);
    assert r == MostCommon(Counts(Filter(Tokens(text), NotStopWord)), maxWords);
    PrefixKeeps(sorted, r, Tokens(text));
  }

  /** An entry of the counts of `tokens`: a word that is not a stop word, with
      its number of occurrences. */
  predicate Counted(tokens: seq<string>, e: WordCount) {
    NotStopWord(e.text) && e.text in tokens && e.value == multiset(tokens)[e.text] >= 1
  }

  /** A prefix of a duplicate-free, descending list of counted entries is one too. */
  lemma PrefixKeeps(sorted: seq<WordCount>, r: seq<WordCount>, tokens: seq<string>)
    requires |r| <= |sorted| && r == sorted[..|r|]
    requires NoDuplicates(sorted) && Descending(sorted)
    requires forall i :: 0 <= i < |sorted| ==> Counted(tokens, sorted[i])
    ensures NoDuplicates(r) && Descending(r)
    ensures forall i :: 0 <= i < |r| ==> NotStopWord(r[i].text) && r[i].text in tokens && r[i].value == multiset(tokens)[r[i].text] >= 1
  {
    forall i | 0 <= i < |r| ensures Counted(tokens, r[i]) {
      assert r[i] == sorted[i];
    }
  }

  /** Every word of the text that is not a stop word has its entry among the
      sorted counts. */
  lemma SortedHasWord(text: string, w: string) returns (p: nat)
    requires w in Tokens(text) && NotStopWord(w)
    ensures var sorted := SortByCount(Counts(Filter(Tokens(text), NotStopWord)));
      p < |sorted| && sorted[p] == WordCount(w, multiset(Tokens(text))[w])
  {
    var tokens := Tokens(text);
    var filtered := Filter(tokens, NotStopWord);
    var counts := Counts(filtered);
    var sorted := SortByCount(counts);
    FilterKeepsKept(tokens, NotStopWord);
    var t :| 0 <= t < |tokens| && tokens[t] == w;
    assert w in filtered;
    var d := Distinct(filtered);
    assert w in d;
    var k :| 0 <= k < |d| && d[k] == w;
    FilterCount(tokens, NotStopWord, w);
    assert counts[k] == WordCount(w, multiset(tokens)[w]);
    assert counts[k] in multiset(sorted);
    p :| 0 <= p < |sorted| && sorted[p] == counts[k];
  }

  /** The word cloud holds the most frequent words: a word of the text that is
      not a stop word and is missing from the list occurs no more often than
      any listed word, and is missing only because the list is full. */
  lemma WordCloudIsTop(text: string, maxWords: int, w: string)
    requires w in Tokens(text) && NotStopWord(w)
    requires forall i :: 0 <= i < |GenerateWordCloudData(text, maxWords)| ==> GenerateWordCloudData(text, maxWords)[i].text != w
    ensures maxWords <= |GenerateWordCloudData(text, maxWords)|
    ensures forall i :: 0 <= i < |GenerateWordCloudData(text, maxWords)| ==>
      multiset(Tokens(text))[w] <= GenerateWordCloudData(text, maxWords)[i].value
  {
    var sorted := SortByCount(Counts(Filter(Tokens(text), NotStopWord)));
    var p := SortedHasWord(text, w);
    assert GenerateWordCloudData(text, maxWords) == MostCommon(Counts(Filter(Tokens(text), NotStopWord)), maxWords);
    PrefixHoldsTop(sorted, maxWords, p);
  }

  /** An entry left out of the first `n` entries of a list sorted by count
      is left out because those `n` entries are there, and it counts no more
      than any of them. */
  lemma PrefixHoldsTop(sorted: seq<WordCount>, n: int, p: nat)
    requires Descending(sorted) && p < |sorted|
    requires var r := if n <= 0 then [] else Take(sorted, n);
      forall i :: 0 <= i < |r| ==> r[i].text != sorted[p].text
    ensures var r := if n <= 0 then [] else Take(sorted, n);
      && n <= |r|
      && forall i :: 0 <= i < |r| ==> sorted[p].value <= r[i].value
  {
    var r := if n <= 0 then [] else Take(sorted, n);
    assert r == sorted[..|r|];
    var left := sorted[p];
    forall i | 0 <= i < |r| ensures sorted[i] != left {
      assert r[i] == sorted[i];
    }
    assert p >= |r|;
  }
}

=== FILE: wrappers.dfy ===
/** Option and Result, the two failure-carrying datatypes the model uses in place of
    Python's `None` returns and raised exceptions. */
module Wrappers {

  datatype Option<+T> = None | Some(value: T) {

    /** The wrapped value, or `default` when there is none. */
    function GetOr(default: T): T {
      match this
      case Some(v) => v
      case None => default
    }
  }

  datatype Result<+R, +E> = Success(value: R) | Failure(error: E) {

    /** The success value, or `default` after a failure. */
    function GetOr(default: R): R {
      match this
      case Success(v) => v
      case Failure(_) => default
    }
  }
}
